=== FILE: README.md ===
# Windowed CSV/JSON table viewer: a Dafny model of its core

This project models the two halves of a browser table viewer that runs SQL over
local files.

**The page cache (`createRecordSetView`).** Rows are grouped into pages of
`batchSize` rows. A visible row range, widened by `overscan` rows on each side,
becomes a half-open window of page indices. A viewport update requests the pages
that entered the window and evicts the resident pages outside it. A fetch
completion stores its page. Cell reads are synchronous, and a read may find
nothing. The reactive effect is modelled as an explicit event, `SetVisibleRange`.
It returns the `getRows` requests it issues, in issue order. Each fetch
resolution is a separate `Complete` event, so completions may arrive in any
order, or never.

**The engine's byte pipeline.** Each `ByteTransform` is modelled:
- `WrapLines` wraps every non-empty line in a prefix and a suffix.
- `WrapFile` wraps the whole stream.
- `RemoveLinebreaks` drops `\n` and `\r`.
- A pair runs one transform after another.

Each is a closed datatype with its `transform`, `transform_len`, `state` and
`with_state`. The chunked decoder streams a file once, in 32 KiB chunks, and
records each chunk's saved state and its source and output ranges. It then
serves any output range by replaying only the chunks that cover it.
`TransformedFileSource` ties the decoder to the file. `chunk_ranges` cuts the
file into those chunks.

**The rest of the engine's core:**
- the record set: its row count, and the row slices `encode_rows` picks for a
  row range;
- the object store's path resolution (`parse_url`);
- the default whole-file range of `get_opts`, for the object store's own
  files (raw bytes, with or without a decoder) and for a `FileReader` over a
  transformed source.

**Conventions of the model:**
- Rust panics are `None` results: a failed `expect`, an out-of-bounds slice, an
  unsigned underflow. The model keeps them as results and does not forbid them
  with preconditions.
- `u64` and `usize` positions are unbounded naturals. The one place where the
  model keeps the integer width is the `usize` parse in `parse_url`. There,
  the model uses the 32-bit WebAssembly bound, `0xFFFF_FFFF`.
- JavaScript's `Math.floor(row / batchSize)` with a positive divisor is Dafny's
  Euclidean division. `Math.ceil` is written out as `CeilDiv`.

**Two builders.** `feed` asks the transformer for `transform_len`. As
written, `WrapLines` reports 0 for an empty last chunk even when `transform`
emits its suffix (see Findings). The model therefore has two builders:
- `Chunked.Feed` counts each chunk's output with the corrected
  `transform_len`, the length `transform` emits;
- `Chunked.FeedAsWritten` counts it as the engine does.

The two record the same table exactly when every chunk's length as written is
honest (`Chunked.AsWrittenTableAgrees`). That holds for every *safe*
transformer, one where no `WrapLines` sits behind a `RemoveLinebreaks`, fed
non-empty chunks (`Chunked.SafeChunksHonest`).

**Headline results:**
- `Chunked.DecodeMatchesStream`, for the table of the corrected builder: for
  any chunking whose `last` flags are honest, `calc_input_range` picks a source
  range inside the file. Decoding exactly those bytes returns bytes `rs..re` of
  the streamed output, clamped to its length.
  - `Chunked.DecodeMatchesStreamAsWritten` carries this to the engine's own
    builder whenever every chunk's length is honest.
  - `Chunked.AsWrittenDecoderDropsSuffix` and `Chunked.AsWrittenReadDropsSuffix`
    show a table that is one byte short when a length is not honest.
- `FileSource.ReadMatchesOnePass`, for the source built with the corrected
  lengths: for a non-empty file, reading any range of the transformed source
  equals that range of the whole file transformed in a single last call.
  `FileSource.ReadAsWrittenMatchesOnePass` proves the same for the engine's
  own source, for every safe transformer.
- The transforms are chunking-invariant (`ByteTransform.TransformSplit`). A
  saved state restores exactly (`ByteTransform.RestoreState`).
- `transform_len` agrees with `transform` once `WrapLines`'s empty-last-chunk
  case is corrected (see Findings).
- For the page cache:
  - the window covers the widened range and is tight;
  - the update requests exactly the pages that are new to the window, in
    increasing order;
  - eviction leaves only pages inside the window;
  - a read of an evicted row finds nothing;
  - a completed page serves its own rows.

## Model

| member | source | states |
|---|---|---|
| PageCache.MakeConfig | app/src/createRecordSetView.ts:28-29 | A missing batch size is 50 and a missing overscan is 20. A given value, even 0, is kept as given. |
| PageCache.Create | app/src/createRecordSetView.ts:35-37 | A new view starts with the empty window [0, 0) and no resident page. |
| PageCache.CeilDiv | app/src/createRecordSetView.ts:51 | `Math.ceil(x / b)` is the least q with x <= q*b. |
| PageCache.Locate | app/src/createRecordSetView.ts:40-41 | A row splits into a page index and an in-page offset in [0, batchSize) that recombine to the row, for negative rows too. |
| PageCache.LocateUnique | app/src/createRecordSetView.ts:40-41 | That split is the only one with an offset in [0, batchSize). |
| PageCache.GetCellValue | app/src/createRecordSetView.ts:39-43 | A cell is absent when its page is not resident. A cell that is found comes from the resident page, at the row's offset and under the column's key. |
| PageCache.Window | app/src/createRecordSetView.ts:50-51 | The first page is never negative. The window is not reversed for a visible range that starts inside the record set. Every row of [max(start-overscan,0), min(end+overscan,numRows)) lies on a page of the window. |
| PageCache.WindowBounds | app/src/createRecordSetView.ts:50-51 | The same three window facts, stated for the floor/ceil pair the effect computes. |
| PageCache.WindowTight | app/src/createRecordSetView.ts:50-51 | The window starts at the page of the first covered row and ends just after the page of the last covered row. |
| PageCache.PagesToFetch | app/src/createRecordSetView.ts:54-55 | A page is listed exactly when it is in the new window and was not in the previous one. The list is strictly increasing, as the loop visits pages. |
| PageCache.RequestFor | app/src/createRecordSetView.ts:57 | The request for page p asks for batchSize rows starting at the first row of page p. |
| PageCache.SetVisibleRange | app/src/createRecordSetView.ts:45-64 | The new window is `Window` of the visible range. Exactly the pages that are new to the window are requested, once each, in increasing order, with their own row ranges. The resident pages kept are exactly the old ones inside the new window, with their values unchanged. |
| PageCache.Complete | app/src/createRecordSetView.ts:59 | A completion stores its page under its index and overwrites any earlier entry. It leaves the window and all other pages unchanged. |
| PageCache.CompleteResidentInWindow | app/src/createRecordSetView.ts:59-63 | After a completion, every resident page lies in the window if and only if that held before and the completed page is inside the window. |
| PageCache.FirstUpdateFetchesWindow | app/src/createRecordSetView.ts:36-37 | The first update after construction requests every page of its window. |
| PageCache.NoRefetchInsideBothWindows | app/src/createRecordSetView.ts:55 | A page in both the old and the new window is not requested again, and its resident value survives the update. |
| PageCache.ReadAfterComplete | app/src/createRecordSetView.ts:39-43 | Once page p resolves, every row it holds reads its own cell from it. |
| PageCache.EvictedRowsReadAbsent | app/src/createRecordSetView.ts:63 | After an update, a row whose page is outside the new window reads as absent, whether or not its fetch resolved. |
| PageCache.ScrollScenario | app/src/createRecordSetView.ts:45-64 | Defaults over 1000 rows. Showing [100,150) requests pages 1, 2 and 3. Scrolling to [500,550) requests pages 9, 10 and 11 and evicts everything. A late completion for page 1 still stores it outside the window. |
| ByteTransform.Transform | engine/src/byte_transform/mod.rs:47-52 | Transforming a chunk, pair included, changes only state and never the configuration. |
| ByteTransform.TransformLen | engine/src/byte_transform/mod.rs:30-56 | `transform_len` leaves the same transformer `transform` leaves, pairs included. Its WrapLines case is the corrected length, not the one as written; `TransformLenAsWritten` is the one as written. |
| ByteTransform.TransformLenAsWritten | engine/src/byte_transform/mod.rs:54-56 | `transform_len` as the engine computes it: the pair runs the first component's `transform` and asks the second for its `transform_len`. It leaves the transformer `transform` leaves and is never negative. With no WrapLines inside it equals the corrected `TransformLen`. |
| ByteTransform.StateOf | engine/src/byte_transform/mod.rs:58-60 | The saved state has the shape the transformer's state type demands, componentwise for a pair. |
| ByteTransform.KeepsLength | engine/src/byte_transform/mod.rs:50-52 | A transformer with no RemoveLinebreaks in it emits at least as many bytes as it is given. |
| ByteTransform.SafeLenHonest | engine/src/byte_transform/mod.rs:54-56 | When no WrapLines sits behind a component that can empty a chunk, `transform_len` as written equals the length `transform` emits, for every non-empty chunk. |
| ByteTransform.SafeByConfig | engine/src/byte_transform/mod.rs:62-64 | Which components take part, and so safety, depend on the configuration only, so a restored state keeps them. |
| ByteTransform.TransformLenIsDefault | engine/src/byte_transform/mod.rs:25-32 | Every transformer's `transform_len`, pairs included, returns the length `transform` would emit and leaves the same next transformer. For WrapLines this uses the corrected length. |
| ByteTransform.TransformSplit | engine/src/byte_transform/mod.rs:10-23 | Chunking invariance. Feeding `a` (not last) and then `b` emits what one call over `a ++ b` emits, and ends in the same transformer. |
| ByteTransform.WithState | engine/src/byte_transform/mod.rs:62-64 | Restoring a state keeps the configuration. |
| ByteTransform.WithOwnState | engine/src/byte_transform/mod.rs:34-38 | Restoring a transformer's own saved state gives back the same transformer. |
| ByteTransform.StateOfWithState | engine/src/byte_transform/mod.rs:58-64 | A restored state is the state the transformer then reports. |
| ByteTransform.RestoreState | engine/src/byte_transform/mod.rs:34-38 | Restoring any same-configuration transformer's state yields that transformer. The decoder relies on this to resume a chunk. |
| ByteTransform.PairSaveRestore | engine/src/byte_transform/mod.rs:58-64 | A pair saves and restores the two component states independently. |
| ByteTransform.LinesAfterNoBreaksMismatch | engine/src/byte_transform/mod.rs:54-56 | Behind RemoveLinebreaks, a last chunk holding only "\n" gives WrapLines an empty last input. The pair's `transform` then emits the suffix, while its `transform_len` as written reports 0. Such a pair is not safe. |
| WrapLines.New | engine/src/byte_transform/wrap_lines.rs:17-23 | A new wrapper keeps its affixes and starts at a line start. |
| WrapLines.IndexOfLF | engine/src/byte_transform/wrap_lines.rs:66 | `position` finds the first line feed, or none when there is no line feed. |
| WrapLines.Transform | engine/src/byte_transform/wrap_lines.rs:61-107 | `transform` changes only the line-start flag, and its output is never shorter than its input. |
| WrapLines.Lines | engine/src/byte_transform/wrap_lines.rs:65-99 | The line loop emits at least its input. Its final flag is whether the input ends with "\n"; on empty input the flag is unchanged. |
| WrapLines.Close | engine/src/byte_transform/wrap_lines.rs:101-106 | The closing step only appends to the loop's output. It adds bytes only on the last call with a line open, and it installs the loop's flag. |
| WrapLines.CalculateLenAsWritten | engine/src/byte_transform/wrap_lines.rs:26-55 | As written, an empty input gives length 0 and the current flag. Otherwise the returned flag is whether the input ends with "\n". |
| WrapLines.WithState | engine/src/byte_transform/wrap_lines.rs:119-125 | `with_state` keeps the affixes and installs the given flag. |
| WrapLines.LinesIsBytewise | engine/src/byte_transform/wrap_lines.rs:65-99 | The line-at-a-time loop equals a byte-at-a-time reference. In that reference, a line feed closes an open line with the suffix, or passes through alone as an empty line. Any other byte opens a line with the prefix, or continues the open line. |
| WrapLines.BytewiseNoLF | engine/src/byte_transform/wrap_lines.rs:66-74 | A tail without a line feed emits the prefix (at a line start) and then its bytes, and leaves the line open. |
| WrapLines.BytewiseLine | engine/src/byte_transform/wrap_lines.rs:76-97 | The reference over the first line gives the same three cases as the match arms. Mid-line, the line is closed with the suffix. An empty line is a bare "\n". A new line is wrapped. The rest then resumes at a line start. |
| WrapLines.BytewiseLF | engine/src/byte_transform/wrap_lines.rs:78-87 | A leading line feed emits "\n" at a line start, or suffix and "\n" mid-line. |
| WrapLines.BytewiseAppend | engine/src/byte_transform/wrap_lines.rs:65-99 | The reference distributes over concatenation and threads the flag. |
| WrapLines.LinesAppend | engine/src/byte_transform/wrap_lines.rs:65-99 | The line loop distributes over concatenation and threads the flag. |
| WrapLines.TransformSplit | engine/src/byte_transform/wrap_lines.rs:167-180 | Chunking invariance for WrapLines, at any chunk boundary, even in the middle of a line. |
| WrapLines.CloseSplit | engine/src/byte_transform/wrap_lines.rs:101-104 | The final suffix is emitted once, after both chunks, exactly as for the joined chunk. |
| WrapLines.SplitLF | engine/src/byte_transform/wrap_lines.rs:35-36 | Splitting on line feeds always gives at least one piece. |
| WrapLines.AffixTotalCons | engine/src/byte_transform/wrap_lines.rs:37 | Only a non-empty piece adds the affix length. |
| WrapLines.LinesLength | engine/src/byte_transform/wrap_lines.rs:26-55 | The loop's output length is the input length, plus the affixes of the non-empty pieces, adjusted by one affix for a mid-line start and for a trailing open line. The final flag is whether the input ends with "\n". These are the terms `calculate_len` adds. |
| WrapLines.LinesLengthStep | engine/src/byte_transform/wrap_lines.rs:76-98 | One round of the loop preserves that length law. |
| WrapLines.SplitStep | engine/src/byte_transform/wrap_lines.rs:35-38 | The affix total is that of the first line plus that of the pieces after its line feed. |
| WrapLines.FirstLF | engine/src/byte_transform/wrap_lines.rs:42 | The first line feed is at position 0 exactly when the input starts with "\n". |
| WrapLines.LinesRound | engine/src/byte_transform/wrap_lines.rs:76-98 | One round emits the line, its line feed, the prefix when it opens a non-empty line, and the suffix unless the line is empty at a line start. |
| WrapLines.TransformLenMatches | engine/src/byte_transform/wrap_lines.rs:109-113 | With the corrected `calculate_len`, `transform_len` reports exactly the length `transform` emits and the same new flag, for every input, state and `last`. |
| WrapLines.CloseLength | engine/src/byte_transform/wrap_lines.rs:41-54 | The state adjustment and the "not last and no trailing line feed" subtraction match the suffix `transform` emits or withholds. The returned flag matches too. |
| WrapLines.TransformLenAsWritten | engine/src/byte_transform/wrap_lines.rs:109-113 | As written, `transform_len` leaves the flag `transform` leaves. On every non-empty input it reports the length `transform` emits; on empty input it reports 0. |
| WrapLines.EmptyLastChunkMismatch | engine/src/byte_transform/wrap_lines.rs:27-29 | As written, an empty last chunk with a line open has length 0, but `transform` emits the suffix "]". |
| WrapLines.EmptyLinesPassThrough | engine/src/byte_transform/wrap_lines.rs:205-210 | "\n\n\n" passes through unchanged. |
| WrapLines.CompleteLineWrapped | engine/src/byte_transform/wrap_lines.rs:132-137 | A complete line at a line start is wrapped: "a\n" becomes "[a]\n". |
| WrapLines.OpenLine | engine/src/byte_transform/wrap_lines.rs:153-165 | A trailing line with no line feed gets only the prefix and leaves the line open. As the last chunk, it also gets the suffix. |
| WrapLines.ResumeMidLine | engine/src/byte_transform/wrap_lines.rs:212-218 | Resuming mid-line, the content up to the line feed gets the suffix and no prefix. |
| WrapFile.New | engine/src/byte_transform/wrap_file.rs:18-24 | A new wrapper keeps its affixes and has not emitted the prefix yet. |
| WrapFile.Transform | engine/src/byte_transform/wrap_file.rs:45-61 | After any call the wrapper counts as started, with the same affixes. |
| WrapFile.WithState | engine/src/byte_transform/wrap_file.rs:73-79 | `with_state` keeps the affixes and installs the given started flag. |
| WrapFile.CalculateLen | engine/src/byte_transform/wrap_file.rs:27-39 | `calculate_len` is the length `transform` emits. |
| WrapFile.TransformLen | engine/src/byte_transform/wrap_file.rs:63-67 | `transform_len` reports the length `transform` emits and leaves the wrapper `transform` leaves. |
| WrapFile.SingleLastChunk | engine/src/byte_transform/wrap_file.rs:86-111 | One last call on a new wrapper emits prefix ++ input ++ suffix. For empty input that is prefix ++ suffix. |
| WrapFile.TransformSplit | engine/src/byte_transform/wrap_file.rs:93-104 | Chunking invariance: the prefix is emitted once, on the first call, and the suffix only on the last. |
| WrapFile.ResumeStarted | engine/src/byte_transform/wrap_file.rs:113-124 | Resumed from a started state, no prefix is emitted. |
| RemoveLinebreaks.Transform | engine/src/byte_transform/remove_line_breaks.rs:13-16 | The output is no longer than the input and holds no "\n" or "\r". |
| RemoveLinebreaks.TransformKeepsText | engine/src/byte_transform/remove_line_breaks.rs:13-16 | Every other byte keeps its number of occurrences, and line breaks occur zero times. |
| RemoveLinebreaks.TransformLen | engine/src/byte_transform/remove_line_breaks.rs:18-21 | The count is the input length less its line feeds and carriage returns. |
| RemoveLinebreaks.TransformLenMatches | engine/src/byte_transform/remove_line_breaks.rs:18-21 | `transform_len` counts exactly the bytes `transform` keeps. |
| RemoveLinebreaks.TransformSplit | engine/src/byte_transform/remove_line_breaks.rs:13-16 | The filter distributes over concatenation, whatever the `last` flags. |
| RemoveLinebreaks.TransformIgnoresLast | engine/src/byte_transform/remove_line_breaks.rs:13 | The output does not depend on `last`. |
| RemoveLinebreaks.TransformIdentityOnText | engine/src/byte_transform/remove_line_breaks.rs:41-53 | Text without line breaks is unchanged. Empty input, or input made only of line breaks, gives nothing. |
| RemoveLinebreaks.LineBreaksDropped | engine/src/byte_transform/remove_line_breaks.rs:33-61 | "a\nb\r\n" becomes "ab", with length 2. |
| ChunkRanges.RangesFrom | engine/src/utils.rs:11-16 | The ranges from `from` tile `from..size` in order. Each is non-empty, at most chunkSize long, and flagged last exactly when it reaches size. |
| ChunkRanges.Ranges | engine/src/utils.rs:11-16 | `chunk_ranges` tiles `0..size`. It is empty exactly when size is 0. |
| ChunkRanges.StartIs | engine/src/utils.rs:12 | Range i starts at i * chunkSize, as `step_by` steps. |
| ChunkRanges.LastOnlyAtEnd | engine/src/utils.rs:14 | Exactly the final range is flagged last. |
| ChunkRanges.PositionInRange | engine/src/utils.rs:12-15 | Byte pos lies in range pos / chunkSize. |
| Chunked.NewBuilder | engine/src/byte_transform/chunked.rs:118-125 | A new builder has fed nothing and holds the given transformer. |
| Chunked.Feed | engine/src/byte_transform/chunked.rs:128-145 | `feed` with the corrected `transform_len`. It appends one mapping: the state before the chunk, the source range as long as the chunk, and an output range as long as what `transform` emits. Earlier mappings are kept. |
| Chunked.FeedAsWritten | engine/src/byte_transform/chunked.rs:128-145 | `feed` as the engine runs it. It moves to the transformer and source position `Feed` moves to, and advances the output position by the length as written. It appends the mapping of the saved state, the source range src_pos..src_pos+len and the output range dst_pos..dst_pos+transform_len. It records `Feed`'s output position exactly when the length as written is the length `transform` emits, and then it is `Feed`. |
| Chunked.FeedAllAsWrittenStep | engine/src/byte_transform/chunked.rs:128-145 | Feeding chunks one by one, as written, is feeding their prefix and then the next chunk. |
| Chunked.FeedAsWrittenContiguous | engine/src/byte_transform/chunked.rs:128-145 | One `feed` as written keeps the table contiguous, whatever length `transform_len` reports. |
| Chunked.BuiltAsWrittenIsContiguous | engine/src/byte_transform/chunked.rs:128-155 | The engine's table tiles 0..inputSize and 0..outputSize in order, for any transformer. |
| Chunked.AsWrittenRangeInInput | engine/src/byte_transform/chunked.rs:34-55 | On the engine's table, for any transformer, safe or not, `calc_input_range` never panics and picks a source range inside the input. |
| Chunked.AsWrittenTotals | engine/src/byte_transform/chunked.rs:128-155 | As written, the builder still ends at the run's transformer and the source length, with one mapping per chunk. |
| Chunked.AsWrittenTableAgrees | engine/src/byte_transform/chunked.rs:128-155 | The builder as written records the corrected table if and only if every chunk's length as written is honest. |
| Chunked.SafeChunksHonest | engine/src/byte_transform/chunked.rs:134 | A safe transformer fed non-empty chunks gets honest lengths for every chunk. |
| Chunked.FeedAllStep | engine/src/byte_transform/chunked.rs:128-145 | Feeding chunks one by one is feeding their prefix and then the next chunk. |
| Chunked.Build | engine/src/byte_transform/chunked.rs:148-155 | The input and output sizes are the positions reached, and the mappings are kept. |
| Chunked.RunKeepsConfig | engine/src/byte_transform/chunked.rs:148-155 | The builder's final transformer has the configuration it started with, so its `with_state` resumes any chunk. |
| Chunked.FeedAllTotals | engine/src/byte_transform/chunked.rs:128-155 | After all chunks, the builder holds the streamed run's transformer, the source length and the output length, with one mapping per chunk. |
| Chunked.MappingIs | engine/src/byte_transform/chunked.rs:128-145 | Mapping k records chunk k of the streamed run: the state before it and its source and output ranges. |
| Chunked.ChunkInRun | engine/src/byte_transform/chunked.rs:128-145 | Chunk k's output sits at its recorded output range of the whole stream, and its bytes sit at its source range. |
| Chunked.BuiltIsContiguous | engine/src/byte_transform/chunked.rs:128-155 | The corrected builder's table tiles 0..inputSize and 0..outputSize in order. `Chunked.BuiltAsWrittenIsContiguous` states the same for the engine's table. |
| Chunked.MappingGrows | engine/src/byte_transform/chunked.rs:130-137 | Each chunk's mapping spans a non-negative range on both sides. |
| Chunked.BuiltEnds | engine/src/byte_transform/chunked.rs:148-155 | For the corrected builder, the first mapping starts at 0 on both sides; the last ends at the source length and the stream length. |
| Chunked.BuiltFacts | engine/src/byte_transform/chunked.rs:148-155 | The decoder's sizes are those of the source and the stream, and its table is contiguous with one entry per chunk. |
| Chunked.FindFirst | engine/src/byte_transform/chunked.rs:42-52 | `find` returns the first matching mapping, or none when no mapping matches. |
| Chunked.CalcInputRange | engine/src/byte_transform/chunked.rs:34-55 | An empty or out-of-range request gives 0..0. Otherwise it panics exactly when no chunk holds the start or none holds the clamped end. |
| Chunked.SkipIndex | engine/src/byte_transform/chunked.rs:73 | `skip_while` stops within the table. |
| Chunked.DecodeRange | engine/src/byte_transform/chunked.rs:59-65 | An empty or out-of-range request decodes to nothing. |
| Chunked.StartIsHeld | engine/src/byte_transform/chunked.rs:42-46 | In a contiguous table, every output position below outputSize is held by some chunk, so the first `expect` cannot fail. |
| Chunked.EndIsHeld | engine/src/byte_transform/chunked.rs:48-52 | Every non-zero end up to outputSize is held by some chunk, so the second `expect` cannot fail. |
| Chunked.LocateRequest | engine/src/byte_transform/chunked.rs:34-74 | A non-empty request picks chunks i <= j. The source range lies within the input. `skip_while` starts the decode loop at i. |
| Chunked.PieceOfChunk | engine/src/byte_transform/chunked.rs:92-94 | The two saturating subtractions cut out exactly the chunk's part of the request, and the parts join up. |
| Chunked.DecodeRound | engine/src/byte_transform/chunked.rs:78-95 | One loop round appends the chunk's output cut to the request. |
| Chunked.JoinPiece | engine/src/byte_transform/chunked.rs:92-94 | A chunk's piece followed by the rest of the request is the request from that chunk on. |
| Chunked.RoundLast | engine/src/byte_transform/chunked.rs:86 | The recomputed `last` flag is the one the chunk was fed with. |
| Chunked.RoundBytes | engine/src/byte_transform/chunked.rs:83-85 | Each replayed chunk finds its own bytes in the fetched source, at `src_range - src_offset`. |
| Chunked.FetchedHoldsChunk | engine/src/byte_transform/chunked.rs:83-85 | In a contiguous table, a chunk between i and j lies, shifted by i's source start, inside the fetched bytes. |
| Chunked.SavedStateRestores | engine/src/byte_transform/chunked.rs:80 | `with_state` with chunk k's saved state gives the run's transformer before chunk k. |
| Chunked.RoundReplays | engine/src/byte_transform/chunked.rs:78-95 | Replaying chunk k from the run's state emits exactly its part of the stream and hands on the run's next state. |
| Chunked.RoundOkFrom | engine/src/byte_transform/chunked.rs:78-95 | A chunk whose bytes, flag and step output agree with the table replays. |
| Chunked.RunReplays | engine/src/byte_transform/chunked.rs:78-95 | Every chunk from i to j replays, and the first resumes from the saved state. |
| Chunked.AllRoundsOk | engine/src/byte_transform/chunked.rs:78 | Chunks that each replay, replay as a run. |
| Chunked.ReplayFrom | engine/src/byte_transform/chunked.rs:70-95 | The loop from chunk k on emits the stream from the later of rs and chunk k's start up to the clamped end. |
| Chunked.ReplayRound | engine/src/byte_transform/chunked.rs:78-94 | One round of that loop: chunk k's piece, then the rest. |
| Chunked.DecodeMatchesStream | engine/src/byte_transform/chunked.rs:34-98 | With honest `last` flags, `calc_input_range` never panics and stays inside the source. `decode_range` over exactly those bytes returns bytes rs..re of the streamed output, clamped to its length. |
| Chunked.DecodeMatchesStreamAsWritten | engine/src/byte_transform/chunked.rs:34-98 | For the builder as written, with honest `last` flags and honest lengths, the output size is the stream's length. Every request then decodes to its clamped range of the stream. |
| Chunked.AsWrittenDecoderDropsSuffix | engine/src/byte_transform/chunked.rs:134 | Behind RemoveLinebreaks, "a" then a last "\n" streams "[a]". The builder as written records output size 2, where the corrected one records 3, and the lengths are not honest. |
| Chunked.AsWrittenReadDropsSuffix | engine/src/byte_transform/chunked.rs:34-98 | On that table, a read of 0..3 fetches only the first chunk and returns "[a" without its "]". |
| Chunked.DecodeLocated | engine/src/byte_transform/chunked.rs:59-98 | A located request decodes to its part of the stream. |
| Chunked.RunNotLast | engine/src/byte_transform/chunked.rs:128-145 | Streaming chunks not flagged last emits what one not-last call over their concatenation emits. |
| Chunked.OnePass | engine/src/byte_transform/chunked.rs:128-145 | Streaming chunks of which only the final one is last emits what one last call over the whole source emits. |
| FileSource.VecRead | engine/src/file.rs:32-34 | Reading a `Vec` gives bytes lo..hi. It panics exactly when the range is reversed or past the end. |
| FileSource.FileChunks | engine/src/file.rs:85-86 | One chunk is read per range of `chunk_ranges(size, 32 KiB)`, and no chunk is empty. |
| FileSource.Open | engine/src/file.rs:80-98 | The source built with the corrected lengths spans the whole file, with one mapping per chunk. Its output size is the streamed output's length. |
| FileSource.OpenAsWritten | engine/src/file.rs:80-92 | The source the engine builds, with `transform_len` as written, spans the whole file. For a safe transformer it is the corrected source. |
| FileSource.NewTransformed | engine/src/file.rs:80-92 | `new` builds the decoder obtained by feeding the file's chunks in order with `feed` as written. For a safe transformer this is the corrected source. |
| FileSource.Read | engine/src/file.rs:100-105 | An empty request reads nothing. |
| FileSource.ChunksHoldPrefix | engine/src/file.rs:85-88 | The first k chunks hold the file up to the k-th chunk's end. |
| FileSource.FileChunksSource | engine/src/file.rs:85-88 | The chunks concatenate back to the file. |
| FileSource.FileChunksFlags | engine/src/file.rs:85-88 | A chunk is flagged last exactly when it reaches the end of the file. |
| FileSource.FileChunksFacts | engine/src/file.rs:85-88 | The chunks cover the file exactly, in order. There are none for an empty file, and only the final chunk is flagged last. |
| FileSource.ReadMatchesStream | engine/src/file.rs:95-105 | For the source built with the corrected lengths, the size is the streamed output's length, and a read returns its requested range, clamped. |
| FileSource.ReadMatchesOnePass | engine/src/file.rs:95-105 | For the source built with the corrected lengths and a non-empty file, the size and every read agree with transforming the whole file in one last call. |
| FileSource.ReadAsWrittenMatchesOnePass | engine/src/file.rs:80-105 | For the source the engine builds, a safe transformer and a non-empty file, the size and every read agree with transforming the whole file in one last call. |
| FileSource.EmptyFileIsEmpty | engine/src/file.rs:85-98 | An empty file's transformed view has size 0, and every read is empty. |
| FileSource.EmptyFileSkipsAffixes | engine/src/file.rs:85-98 | For an empty file, WrapFile's affixes are never emitted, although one last call would emit them. |
| RecordSet.SumRowsCountsRows | engine/src/record_set.rs:23 | The summed row counts are the number of rows the batches hold. |
| RecordSet.New | engine/src/record_set.rs:22-25 | `new` keeps the schema and batches, and counts every row. |
| RecordSet.From | engine/src/record_set.rs:12-19 | The schema is the first batch's, or the empty schema when there are no batches. All rows are counted. |
| RecordSet.Empty | engine/src/record_set.rs:30-34 | `empty` is one empty batch with the empty schema: 0 rows. |
| RecordSet.SelectFrom | engine/src/record_set.rs:67-79 | The selection cannot panic when start <= end, once skipping is over or the offset is at most start. |
| RecordSet.EncodeRows | engine/src/record_set.rs:57-89 | `encode_rows` cannot panic unless end < start. |
| RecordSet.SelectAfterStart | engine/src/record_set.rs:75-79 | Past the start, the `map_while` never panics and takes the rows from the offset up to `end`. |
| RecordSet.SelectTaken | engine/src/record_set.rs:75-79 | One batch taken: its rows up to `end`, then the later batches' rows. |
| RecordSet.SelectWhileSkipping | engine/src/record_set.rs:67-79 | While skipping, the selection never panics and holds rows start..end counted from the offset. |
| RecordSet.SelectSkipped | engine/src/record_set.rs:74 | A batch ending at or before `start` is dropped. |
| RecordSet.SelectStraddling | engine/src/record_set.rs:74-79 | The batch holding `start` is cut from `start`, and later batches are taken from their first row. |
| RecordSet.EncodeRowsSelects | engine/src/record_set.rs:57-89 | For start <= end, `encode_rows` never panics. Its slices hold exactly rows start..min(end, num_rows), in order. |
| RecordSet.SkipAll | engine/src/record_set.rs:74 | Batches that all end before `start` are all skipped, and nothing is selected. |
| RecordSet.StartPastEndSelectsNothing | engine/src/record_set.rs:74 | A start at or past num_rows selects no slice, whatever `end` is. |
| RecordSet.EmptySliceAtEnd | engine/src/record_set.rs:75-79 | A batch that starts exactly at `end` still contributes an empty slice. |
| RecordSet.ReversedRangePanics | engine/src/record_set.rs:76-78 | With end < start inside a batch, `j - i` underflows and panics. |
| ObjectStore.Before | engine/src/js_object_store.rs:203 | The first piece of `split(c)` is the longest prefix free of `c`: a prefix, without `c`, and followed by `c` unless it is the whole string. |
| ObjectStore.ParseUsize | engine/src/js_object_store.rs:204 | A parsed index is at most `usize::MAX` and comes from digits, with an optional leading '+'. |
| ObjectStore.FirstSegment | engine/src/js_object_store.rs:202 | A path has a first segment exactly when it is not empty. |
| ObjectStore.ParseUrl | engine/src/js_object_store.rs:193-209 | A path resolves exactly when its first segment's stem parses as a usize index inside the list, and then to that file. Anything else is "Invalid path". |
| ObjectStore.DecimalValue | engine/src/js_object_store.rs:204 | Decimal digits read back as the number they were written from. |
| ObjectStore.ParseDecimal | engine/src/js_object_store.rs:204 | Round trip: every index up to `usize::MAX`, written with or without '+', parses back. A larger one is rejected. |
| ObjectStore.ExtensionIgnored | engine/src/js_object_store.rs:202-205 | "n.ext" resolves to file n for any extension when n is a valid index, and is invalid otherwise. |
| ObjectStore.StemOf | engine/src/js_object_store.rs:202-203 | The stem of "n.ext" is n's digits. |
| ObjectStore.ZeroNamed | engine/src/js_object_store.rs:202-205 | "0." followed by any extension names the first file of a non-empty list. |
| ObjectStore.ZeroWithAnyExtension | engine/src/js_object_store.rs:202-205 | "0.csv" and "0.json" both name the first file. |
| ObjectStore.IndexOutOfRange | engine/src/js_object_store.rs:205 | An index past the list, or past `usize::MAX`, is invalid. |
| ObjectStore.MissingIndexPaths | engine/src/js_object_store.rs:202-204 | The empty path, an empty stem and a lone '+' are invalid. |
| ObjectStore.NonNumericStems | engine/src/js_object_store.rs:204 | A negative or non-numeric stem is invalid. |
| ObjectStore.PlainFileReadsAll | engine/src/js_object_store.rs:61-67 | A file of raw bytes without a decoder, read over its default range 0..size, returns all its bytes. |
| ObjectStore.DecodedFileCut | engine/src/js_object_store.rs:44-66 | A file of raw bytes with the corrected decoder of `t` (the engine's decoder when `t` is safe) is sized by the raw byte count. Its default read returns the transformed file cut to that count. This is the whole transformed file if and only if the transform does not lengthen it. |
| ObjectStore.WrappedFileCut | engine/src/js_object_store.rs:44-66 | Wrapping "a" in "[" and "]" makes "[a]", but the default read of that file, of size 1, returns "[". |
| ObjectStore.DefaultRangeReadsAll | engine/src/js_object_store.rs:109-112 | A `FileReader` over a transformed non-empty file is sized by the decoder's output, so the default range returns the whole file transformed. This holds for the corrected source, and for the source the engine builds when the transformer is safe. |

## Left out

- `Utf8Encoder`, the transform the deployed pipeline actually installs: it
  calls into the `encoding_rs` crate, which is foreign code.
- The `Uint8Array`, `Blob` and `web_sys::File` sources, the channels of
  `FileReader` and of the object store's `File`, and the async runtime. Reads
  are synchronous functions on an in-memory byte sequence. A `FileReader` is
  its source's size and read (`ObjectStore.Reader`).
- `from_file` reads through `Blob.slice`, which clamps out-of-range bounds
  instead of panicking. The model's `Bytes` file panics there (`None`), as
  `from_bytes` does; only in-range reads are stated about it.
- Which file type the store holds. `js_object_store.rs` declares the store
  over its own `File` (sized by the raw bytes), while `lib.rs:49-53` builds it
  from `FileReader`s (sized by the transformed source). The model has both as
  `ObjectStore.StoreFile` and states the default read for each.
- The Arrow IPC encoding in `encode_rows` and `encode_schema`, and the
  `tableFromIPC` decoding in the app. A batch is its schema plus a list of
  rows, and a page is a list of records.
- The reactivity, promise scheduling and signal updates of Solid. The effect
  is one event, and each promise resolution is another.
- `GetOptions` ranges other than none (`as_range`), and every other method of
  the object store.
- Percent-encoding of object-store paths: a path is its raw string, and
  segments split at `/`.
- The `u64` and `usize` arithmetic of the engine, except the `usize` parse
  bound. Positions are unbounded naturals, and sums never wrap: on the 32-bit
  WebAssembly target, `dst_pos` and `src_pos` in `feed` would wrap once the
  output or the file passes 4 GiB.
- PageCache: every operation after `MakeConfig` requires a positive batch
  size (`PageCache.ValidConfig`). `MakeConfig` keeps a given 0, for which the
  page arithmetic in `createRecordSetView.ts` yields NaN or infinite page
  indices and fetches nothing; the model does not follow that case. The app
  passes no batch size, so the default 50 applies.
- ByteTransform.WithState: the model is total over states of any shape. A
  component given a state of the wrong shape keeps its own state, a case that
  Rust's associated `State` type rules out.
- ChunkRanges.Ranges requires a positive chunk size. `step_by(0)` panics, and
  the only caller passes 32 KiB.
- PageCache.Window states the non-reversal of the window only for a visible
  range that starts inside the record set. The source does not guard the
  other case, and the model computes it as the source does.
- PageCache.Complete stores a fetched page without re-checking the current
  window, as `createRecordSetView.ts:59` does. A fetch that resolves after its
  page was evicted makes the page resident again;
  `PageCache.CompleteResidentInWindow` and `PageCache.ScrollScenario` show it.
- JavaScript numbers (`row`, `start`, `end`, `batchSize`, `overscan`,
  `numRows`) are doubles; the page cache models them as unbounded integers.
  Non-integer values and magnitudes above 2^53 are not modelled.
- Chunked.FeedAllTotals: stated for the builder with the corrected
  `transform_len`. For the engine's builder, `Chunked.AsWrittenTotals` gives
  the transformer, source position and mapping count, and
  `Chunked.AsWrittenTableAgrees` gives the whole table when lengths are
  honest.
- Chunked.MappingIs: stated for the corrected builder. It carries to the
  engine's builder when lengths are honest (`Chunked.AsWrittenTableAgrees`).
- Chunked.ChunkInRun: stated for the corrected builder. It carries to the
  engine's builder when lengths are honest (`Chunked.AsWrittenTableAgrees`).
- Chunked.BuiltEnds: stated for the corrected builder. The engine's last
  mapping ends at the stream length when lengths are honest
  (`Chunked.AsWrittenTableAgrees`); `Chunked.AsWrittenDecoderDropsSuffix`
  shows it short otherwise.
- Chunked.BuiltFacts: stated for the corrected builder. It carries to the
  engine's builder when lengths are honest (`Chunked.AsWrittenTableAgrees`).
  Otherwise the output size can be short (`Chunked.AsWrittenDecoderDropsSuffix`).
- Chunked.RoundReplays: stated for the corrected builder. It carries to the
  engine's builder when lengths are honest (`Chunked.AsWrittenTableAgrees`).
- Chunked.RunReplays: stated for the corrected builder. It carries to the
  engine's builder when lengths are honest (`Chunked.AsWrittenTableAgrees`).
- Chunked.DecodeMatchesStream: stated for the corrected builder. For the
  engine's builder, `Chunked.DecodeMatchesStreamAsWritten` needs honest
  lengths, and `Chunked.AsWrittenReadDropsSuffix` shows a read that misses the
  last byte without them.
- Chunked.DecodeLocated: stated for the corrected builder, as a step of
  `Chunked.DecodeMatchesStream`.
- FileSource.ReadMatchesStream: stated for the source built with the corrected
  lengths (`FileSource.Open`). The engine's source (`FileSource.OpenAsWritten`)
  is that source for every safe transformer.
- FileSource.ReadMatchesOnePass: stated for the source built with the
  corrected lengths. `FileSource.ReadAsWrittenMatchesOnePass` gives it for the
  engine's source with a safe transformer. An unsafe transformer, such as
  WrapLines behind RemoveLinebreaks, can lose the final suffix.

## Findings

| source | as written | input that shows it | evidently intended | confidence | as-written member | corrected member |
|---|---|---|---|---|---|---|
| engine/src/byte_transform/wrap_lines.rs:27-29 | `calculate_len` returns length 0 for an empty input, whatever `last` and the state say. | `WrapLines("[", "]")` mid-line, with an empty input and `last = true`: `transform` emits "]", but `transform_len` reports 0. The pair `(RemoveLinebreaks, WrapLines)` reaches this when the last chunk is exactly "\n": for the chunks "a" and a last "\n", the decoder records output size 2 for the stream "[a]", and a read of 0..3 returns "[a" (`Chunked.AsWrittenDecoderDropsSuffix`, `Chunked.AsWrittenReadDropsSuffix`). | An empty last chunk with a line open counts the suffix that `transform` emits. `transform_len` then agrees with `transform` on every input. | not executed | WrapLines.EmptyLastChunkMismatch | WrapLines.TransformLenMatches |

=== FILE: byte_transform.dfy ===
/** The `ByteTransform` contract over the three concrete transforms and pair
    composition. A transformer is a configuration (the affixes) plus a small
    resumable state; `Transform` consumes one chunk and returns the output
    together with the transformer for the next chunk. */
module ByteTransform {
  import opened Common
  import WL = WrapLines
  import WF = WrapFile
  import RL = RemoveLinebreaks

  /** The transformers of the engine; `Pair(a, b)` runs `a` then `b`. */
  datatype Transformer =
    | Lines(lines: WL.WrapLines)
    | File(file: WF.WrapFile)
    | NoBreaks
    | Pair(first: Transformer, second: Transformer)

  /** The saved state of a transformer: `WrapLines`'s line-start flag,
      `WrapFile`'s started flag, nothing for `RemoveLinebreaks`, a pair of
      states for a pair. */
  datatype State =
    | LinesState(emptyLine: bool)
    | FileState(started: bool)
    | NoBreaksState
    | PairState(first: State, second: State)

  /** The configuration of a transformer with its state forgotten (every
      state reset to its initial value). Two transformers with the same
      configuration differ only in state. */
  function Config(t: Transformer): Transformer
  {
    match t
    case Lines(w) => Lines(w.(emptyLine := true))
    case File(w) => File(w.(started := false))
    case NoBreaks => NoBreaks
    case Pair(a, b) => Pair(Config(a), Config(b))
  }

  /** `transform`: the output for one chunk and the transformer that continues
      the stream. A pair feeds the first component's whole output to the
      second, with the same `last` flag. The configuration never changes. */
  function Transform(t: Transformer, input: seq<byte>, last: bool): (r: (seq<byte>, Transformer))
    ensures Config(r.1) == Config(t)
  {
    match t
    case Lines(w) =>
      var x := WL.Transform(w, input, last);
      (x.0, Lines(x.1))
    case File(w) =>
      var x := WF.Transform(w, input, last);
      (x.0, File(x.1))
    case NoBreaks => (RL.Transform(input, last), NoBreaks)
    case Pair(a, b) =>
      var x := Transform(a, input, last);
      var y := Transform(b, x.0, last);
      (y.0, Pair(x.1, y.1))
  }

  /** The trait's default `transform_len`: run `transform` and keep the length. */
  function DefaultTransformLen(t: Transformer, input: seq<byte>, last: bool): (int, Transformer)
  {
    var x := Transform(t, input, last);
    (|x.0|, x.1)
  }

  /** `transform_len` as each transformer defines it, with `WrapLines`
      counting by the corrected `calculate_len`: the concrete transforms
      count without building the output; a pair runs the first component's
      full `transform` and asks the second for its `transform_len` on that.
      The transformer it leaves is the one `transform` leaves. */
  function TransformLen(t: Transformer, input: seq<byte>, last: bool): (r: (int, Transformer))
    ensures r.1 == Transform(t, input, last).1
  {
    match t
    case Lines(w) =>
      WL.TransformLenMatches(w, input, last);
      var x := WL.TransformLen(w, input, last);
      (x.0, Lines(x.1))
    case File(w) =>
      var x := WF.TransformLen(w, input, last);
      (x.0, File(x.1))
    case NoBreaks => (RL.TransformLen(input, last), NoBreaks)
    case Pair(a, b) =>
      var x := Transform(a, input, last);
      var y := TransformLen(b, x.0, last);
      (y.0, Pair(x.1, y.1))
  }

  /** `transform_len` as the engine computes it, with `WrapLines` counting
      by `calculate_len` as written. It leaves the transformer `transform`
      leaves and never reports a negative length; with no `WrapLines` inside
      it is `TransformLen`. */
  function TransformLenAsWritten(t: Transformer, input: seq<byte>, last: bool): (r: (int, Transformer))
    ensures r.1 == Transform(t, input, last).1
    ensures r.0 >= 0
    ensures !HasLines(t) ==> r == TransformLen(t, input, last)
  {
    match t
    case Lines(w) =>
      var x := WL.TransformLenAsWritten(w, input, last);
      (x.0, Lines(x.1))
    case File(w) =>
      var x := WF.TransformLen(w, input, last);
      (x.0, File(x.1))
    case NoBreaks => (RL.TransformLen(input, last), NoBreaks)
    case Pair(a, b) =>
      var x := Transform(a, input, last);
      var y := TransformLenAsWritten(b, x.0, last);
      (y.0, Pair(x.1, y.1))
  }

  /** Whether a `WrapLines` takes part. */
  predicate HasLines(t: Transformer)
  {
    match t
    case Lines(_) => true
    case Pair(a, b) => HasLines(a) || HasLines(b)
    case _ => false
  }

  /** Transformers that never emit fewer bytes than they are given;
      `RemoveLinebreaks` can drop a whole chunk. */
  predicate Keeps(t: Transformer)
  {
    match t
    case NoBreaks => false
    case Pair(a, b) => Keeps(a) && Keeps(b)
    case _ => true
  }

  /** No `WrapLines` sits behind a component that can turn a non-empty chunk
      into an empty one, so a `WrapLines` only ever sees an empty input when
      the whole transformer does. */
  predicate Safe(t: Transformer)
  {
    match t
    case Pair(a, b) => Safe(a) && Safe(b) && (HasLines(b) ==> Keeps(a))
    case _ => true
  }

  /** `state`: the current state, componentwise for a pair. */
  function StateOf(t: Transformer): (s: State)
    ensures Fits(t, s)
  {
    match t
    case Lines(w) => LinesState(WL.State(w))
    case File(w) => FileState(WF.State(w))
    case NoBreaks => NoBreaksState
    case Pair(a, b) => PairState(StateOf(a), StateOf(b))
  }

  /** A state has the shape the transformer's state type demands. Rust's
      associated `State` type guarantees this for every call. */
  predicate Fits(t: Transformer, s: State)
  {
    match t
    case Lines(_) => s.LinesState?
    case File(_) => s.FileState?
    case NoBreaks => s.NoBreaksState?
    case Pair(a, b) => s.PairState? && Fits(a, s.first) && Fits(b, s.second)
  }

  /** `with_state`: the same configuration resumed from `s`; a pair restores
      each component independently. A state of the wrong shape (which the
      Rust types rule out) leaves that component as it is. */
  function WithState(t: Transformer, s: State): (r: Transformer)
    ensures Config(r) == Config(t)
  {
    match t
    case Lines(w) => if s.LinesState? then Lines(WL.WithState(w, s.emptyLine)) else t
    case File(w) => if s.FileState? then File(WF.WithState(w, s.started)) else t
    case NoBreaks => NoBreaks
    case Pair(a, b) =>
      if s.PairState? then Pair(WithState(a, s.first), WithState(b, s.second)) else t
  }

  // ---------------------------------------------------------------------
  // Laws.

  /** Every transformer's `transform_len` is the default one: the length of
      what `transform` emits, and the same next transformer. */
  lemma {:induction false} TransformLenIsDefault(t: Transformer, input: seq<byte>, last: bool)
    ensures TransformLen(t, input, last) == DefaultTransformLen(t, input, last)
  {
    match t
    case Lines(w) => WL.TransformLenMatches(w, input, last);
    case File(_) =>
    case NoBreaks => RL.TransformLenMatches(input, last);
    case Pair(a, b) =>
      var x := Transform(a, input, last);
      TransformLenIsDefault(b, x.0, last);
  }

  /** Chunking invariance: feeding `a` (not last) and then `b` emits, in
      total, what feeding `a ++ b` in one call emits, and ends in the same
      transformer. */
  lemma {:induction false} TransformSplit(t: Transformer, a: seq<byte>, b: seq<byte>, last: bool)
    ensures var x := Transform(t, a, false);
      var y := Transform(x.1, b, last);
      Transform(t, a + b, last) == (x.0 + y.0, y.1)
  {
    match t
    case Lines(w) => WL.TransformSplit(w, a, b, last);
    case File(w) => WF.TransformSplit(w, a, b, last);
    case NoBreaks => RL.TransformSplit(a, b, last, false);
    case Pair(p, q) =>
      var xa := Transform(p, a, false);
      var xb := Transform(xa.1, b, last);
      TransformSplit(p, a, b, last);
      TransformSplit(q, xa.0, xb.0, last);
  }

  /** Saving a state and restoring it gives back the same transformer. */
  lemma {:induction false} WithOwnState(t: Transformer)
    ensures WithState(t, StateOf(t)) == t
  {
    match t
    case Pair(a, b) => WithOwnState(a); WithOwnState(b);
    case _ =>
  }

  /** Restoring a well-shaped state makes exactly that state current. */
  lemma {:induction false} StateOfWithState(t: Transformer, s: State)
    requires Fits(t, s)
    ensures StateOf(WithState(t, s)) == s
  {
    match t
    case Pair(a, b) => StateOfWithState(a, s.first); StateOfWithState(b, s.second);
    case _ =>
  }

  /** A transformer and a transformer of the same configuration differ only in
      state: restoring the second's state into the first yields the second.
      This is what lets a decoder resume any chunk from its saved state. */
  lemma {:induction false} RestoreState(t: Transformer, u: Transformer)
    requires Config(t) == Config(u)
    ensures Fits(t, StateOf(u))
    ensures WithState(t, StateOf(u)) == u
  {
    match t
    case Pair(a, b) => RestoreState(a, u.first); RestoreState(b, u.second);
    case _ =>
  }

  /** A pair saves the two component states and restores them independently. */
  lemma PairSaveRestore(a: Transformer, b: Transformer, sa: State, sb: State)
    requires Fits(a, sa) && Fits(b, sb)
    ensures StateOf(Pair(a, b)) == PairState(StateOf(a), StateOf(b))
    ensures WithState(Pair(a, b), PairState(sa, sb)) == Pair(WithState(a, sa), WithState(b, sb))
    ensures StateOf(WithState(Pair(a, b), PairState(sa, sb))) == PairState(sa, sb)
  {
    StateOfWithState(Pair(a, b), PairState(sa, sb));
  }

  /** A transformer that keeps its input emits at least as many bytes as it is given. */
  lemma {:induction false} KeepsLength(t: Transformer, input: seq<byte>, last: bool)
    requires Keeps(t)
    ensures |Transform(t, input, last).0| >= |input|
  {
    match t
    case Pair(a, b) =>
      var x := Transform(a, input, last);
      KeepsLength(a, input, last);
      KeepsLength(b, x.0, last);
    case _ =>
  }

  /** In a safe transformer, `transform_len` as written agrees with
      `transform` on every non-empty chunk. */
  lemma {:induction false} SafeLenHonest(t: Transformer, input: seq<byte>, last: bool)
    requires Safe(t) && |input| > 0
    ensures TransformLenAsWritten(t, input, last).0 == |Transform(t, input, last).0|
  {
    match t
    case Lines(_) =>
    case File(_) =>
    case NoBreaks => RL.TransformLenMatches(input, last);
    case Pair(a, b) =>
      var x := Transform(a, input, last);
      SafeLenHonest(a, input, last);
      if HasLines(b) {
        KeepsLength(a, input, last);
        SafeLenHonest(b, x.0, last);
      } else {
        TransformLenIsDefault(b, x.0, last);
      }
  }

  /** Which components take part, and so safety, depends on the
      configuration only, not on the state. */
  lemma {:induction false} SafeByConfig(t: Transformer)
    ensures HasLines(Config(t)) == HasLines(t)
    ensures Keeps(Config(t)) == Keeps(t)
    ensures Safe(Config(t)) == Safe(t)
  {
    match t
    case Pair(a, b) => SafeByConfig(a); SafeByConfig(b);
    case _ =>
  }

  /** The empty last chunk reaches `WrapLines` through a pair: behind
      `RemoveLinebreaks`, a last chunk holding only a line feed leaves an
      empty input for the wrapper. With a line open, the pair's
      `transform` emits the suffix, while the pair's `transform_len` (the
      first component's `transform`, then the wrapper's `transform_len` as
      written) reports 0. Such a pair is not safe. */
  lemma LinesAfterNoBreaksMismatch()
    ensures var w := WL.WrapLines([91], [93], false);
      var x := Transform(NoBreaks, [LF], true);
      && x.0 == []
      && Transform(Pair(NoBreaks, Lines(w)), [LF], true).0 == [93]
      && TransformLenAsWritten(Pair(NoBreaks, Lines(w)), [LF], true).0 == 0
      && !Safe(Pair(NoBreaks, Lines(w)))
  {
    var w := WL.WrapLines([91], [93], false);
    assert RL.Transform([LF], true) == [] by {
      RL.TransformIdentityOnText([LF], true);
    }
    WL.EmptyLastChunkMismatch();
  }
}

=== FILE: chunk_ranges.dfy ===
/** `chunk_ranges`: the half-open ranges that split `0..size` into pieces of
    `chunkSize` bytes (the final piece may be shorter), each tagged with
    whether it reaches the end. */
module ChunkRanges {
  import opened Common

  /** A source range `start..end` and its "last chunk" flag. */
  datatype ChunkRange = ChunkRange(start: nat, end: nat, last: bool)

  /** The ranges whose starts are `from`, `from + chunkSize`, ... below `size`. */
  function RangesFrom(from: nat, size: nat, chunkSize: nat): (r: seq<ChunkRange>)
    requires chunkSize > 0
    ensures from >= size <==> |r| == 0
    ensures |r| > 0 ==> r[0].start == from && r[|r| - 1].end == size
    ensures forall i :: 0 <= i < |r| ==> WellFormed(r[i], size, chunkSize)
    ensures forall i :: 0 <= i < |r| - 1 ==> r[i].end == r[i + 1].start
    decreases size - from
  {
    if from >= size then []
    else
      var end := Min(from + chunkSize, size);
      var rest := RangesFrom(from + chunkSize, size, chunkSize);
      var r := [ChunkRange(from, end, end == size)] + rest;
      assert forall i :: 1 <= i < |r| ==> r[i] == rest[i - 1];
      r
  }

  /** A range of at most `chunkSize` bytes, non-empty, cut off at `size`,
      flagged last exactly when it reaches `size`. */
  predicate WellFormed(c: ChunkRange, size: nat, chunkSize: nat)
  {
    c.start < c.end == Min(c.start + chunkSize, size) && (c.last <==> c.end == size)
  }

  /** `chunk_ranges(size, chunk_size)`. A zero chunk size makes Rust's
      `step_by` panic, so it is a precondition. */
  function Ranges(size: nat, chunkSize: nat): (r: seq<ChunkRange>)
    requires chunkSize > 0
    ensures size == 0 <==> |r| == 0
    ensures |r| > 0 ==> r[0].start == 0 && r[|r| - 1].end == size
    ensures forall i :: 0 <= i < |r| ==> WellFormed(r[i], size, chunkSize)
    ensures forall i :: 0 <= i < |r| - 1 ==> r[i].end == r[i + 1].start
  {
    RangesFrom(0, size, chunkSize)
  }

  /** Range `i` starts at `i * chunkSize`. */
  lemma {:induction false} StartIs(size: nat, chunkSize: nat, i: nat)
    requires chunkSize > 0 && i < |Ranges(size, chunkSize)|
    ensures Ranges(size, chunkSize)[i].start == i * chunkSize
  {
    if i > 0 {
      var r := Ranges(size, chunkSize);
      StartIs(size, chunkSize, i - 1);
      assert WellFormed(r[i - 1], size, chunkSize) && WellFormed(r[i], size, chunkSize);
      assert r[i - 1].end == r[i].start < size;
      assert (i - 1) * chunkSize + chunkSize == i * chunkSize;
    }
  }

  /** Exactly the final range carries the "last" flag. */
  lemma LastOnlyAtEnd(size: nat, chunkSize: nat)
    requires chunkSize > 0
    ensures var r := Ranges(size, chunkSize);
      forall i :: 0 <= i < |r| ==> (r[i].last <==> i == |r| - 1)
  {
    var r := Ranges(size, chunkSize);
    assert forall i :: 0 <= i < |r| ==> WellFormed(r[i], size, chunkSize);
    RangesIncreasing(r);
  }

  /** The ranges cover `0..size`: position `pos` lies in range `pos / chunkSize`. */
  lemma PositionInRange(size: nat, chunkSize: nat, pos: nat)
    requires chunkSize > 0 && pos < size
    ensures var r, q := Ranges(size, chunkSize), pos / chunkSize;
      q < |r| && r[q].start <= pos < r[q].end
  {
    var r := Ranges(size, chunkSize);
    var n := |r|;
    StartIs(size, chunkSize, n - 1);
    assert WellFormed(r[n - 1], size, chunkSize);
    DivBelow(pos, chunkSize, n, size);
    var q := pos / chunkSize;
    StartIs(size, chunkSize, q);
    assert WellFormed(r[q], size, chunkSize);
  }

  /** Arithmetic behind `PositionInRange`: if `n` steps of `d` reach past
      `pos`, then `pos / d` is one of those steps. */
  lemma DivBelow(pos: nat, d: nat, n: nat, size: nat)
    requires d > 0 && n > 0 && pos < size && (n - 1) * d + d >= size
    ensures pos / d < n && (pos / d) * d <= pos < (pos / d) * d + d
  {
    var q, m := pos / d, pos % d;
    assert pos == q * d + m && 0 <= m < d;
    assert (n - 1) * d + d == n * d;
    MulLess(q, n, d);
  }

  /** Ends strictly increase along the ranges, so only the final end can be `size`. */
  lemma RangesIncreasing(r: seq<ChunkRange>)
    requires forall i :: 0 <= i < |r| - 1 ==> r[i].end == r[i + 1].start
    requires forall i :: 0 <= i < |r| ==> r[i].start < r[i].end
    ensures forall i, j :: 0 <= i < j < |r| ==> r[i].end < r[j].end
  {
    forall i, j | 0 <= i < j < |r|
      ensures r[i].end < r[j].end
    {
      var k := i + 1;
      while k < j
        invariant i < k <= j
        invariant r[i].end < r[k].end
      {
        k := k + 1;
      }
    }
  }
}

=== FILE: chunked.dfy ===
/** The chunked random-access decoder. A builder streams the source once,
    chunk by chunk, and records for every chunk the transformer state before
    it and the source and output ranges it covers. The decoder then answers a
    request for an output range by re-running the transform over just the
    chunks that overlap it, starting from the first such chunk's saved state. */
module Chunked {
  import opened Common
  import opened ByteTransform
  import WL = WrapLines
  import RL = RemoveLinebreaks

  /** What the builder records for one fed chunk: the state before it, its
      source range `srcStart..srcEnd` and its output range `dstStart..dstEnd`. */
  datatype ChunkMapping = ChunkMapping(state: State, srcStart: nat, srcEnd: nat, dstStart: nat, dstEnd: nat)

  /** `ChunkedDecoderBuilder`: the running transformer, the bytes fed and
      emitted so far, and the mappings. */
  datatype Builder = Builder(transform: Transformer, srcPos: nat, dstPos: nat, mappings: seq<ChunkMapping>)

  /** `ChunkedDecoder`. */
  datatype Decoder = Decoder(transform: Transformer, inputSize: nat, outputSize: nat, mappings: seq<ChunkMapping>)

  /** One chunk of the source and its `last` flag, as handed to `feed`. */
  datatype Chunk = Chunk(bytes: seq<byte>, last: bool)

  /** `new_with_state`: nothing fed yet. */
  function NewBuilder(t: Transformer): (b: Builder)
    ensures b.transform == t && b.srcPos == 0 && b.dstPos == 0 && b.mappings == []
  {
    Builder(t, 0, 0, [])
  }

  /** `feed`: record the state before the chunk and the ranges it covers, in
      the source and (by `transform_len`) in the output, and advance. The
      recorded output range has exactly the length `transform` would emit. */
  function Feed(b: Builder, chunk: seq<byte>, last: bool): (r: Builder)
    ensures |r.mappings| == |b.mappings| + 1 && r.mappings[..|b.mappings|] == b.mappings
    ensures var x := Transform(b.transform, chunk, last);
      && r.transform == x.1
      && r.srcPos == b.srcPos + |chunk|
      && r.dstPos == b.dstPos + |x.0|
      && r.mappings[|b.mappings|] == ChunkMapping(StateOf(b.transform), b.srcPos, r.srcPos, b.dstPos, r.dstPos)
  {
    TransformLenIsDefault(b.transform, chunk, last);
    var state := StateOf(b.transform);
    var x := TransformLen(b.transform, chunk, last);
    var srcPos := b.srcPos + |chunk|;
    var dstPos := b.dstPos + x.0;
    Builder(x.1, srcPos, dstPos, b.mappings + [ChunkMapping(state, b.srcPos, srcPos, b.dstPos, dstPos)])
  }

  /** Feeding a whole sequence of chunks, in order. */
  function FeedAll(t: Transformer, chunks: seq<Chunk>): Builder
  {
    if |chunks| == 0 then NewBuilder(t)
    else
      var c := chunks[|chunks| - 1];
      Feed(FeedAll(t, chunks[..|chunks| - 1]), c.bytes, c.last)
  }

  /** Feeding one more chunk. */
  lemma FeedAllStep(t: Transformer, chunks: seq<Chunk>, k: nat)
    requires k < |chunks|
    ensures FeedAll(t, chunks[..k + 1]) == Feed(FeedAll(t, chunks[..k]), chunks[k].bytes, chunks[k].last)
  {
    assert chunks[..k + 1][..k] == chunks[..k];
  }

  /** `build`: the input size is everything fed, the output size everything emitted. */
  function Build(b: Builder): (d: Decoder)
    ensures d.transform == b.transform && d.mappings == b.mappings
    ensures d.inputSize == b.srcPos && d.outputSize == b.dstPos
  {
    Decoder(b.transform, b.srcPos, b.dstPos, b.mappings)
  }

  // ---------------------------------------------------------------------
  // The streaming run the builder follows.

  /** The source bytes of a sequence of chunks, in order. */
  function Source(chunks: seq<Chunk>): (s: seq<byte>)
  {
    if |chunks| == 0 then [] else Source(chunks[..|chunks| - 1]) + chunks[|chunks| - 1].bytes
  }

  /** Streaming `transform` over the chunks from `t`: everything emitted and
      the transformer that would take the next chunk. */
  function Run(t: Transformer, chunks: seq<Chunk>): (seq<byte>, Transformer)
  {
    if |chunks| == 0 then ([], t)
    else
      var p := Run(t, chunks[..|chunks| - 1]);
      var c := chunks[|chunks| - 1];
      var x := Transform(p.1, c.bytes, c.last);
      (p.0 + x.0, x.1)
  }

  /** Streaming any step function over the chunks. */
  function RunWith(step: StepFn, t: Transformer, chunks: seq<Chunk>): (seq<byte>, Transformer)
  {
    if |chunks| == 0 then ([], t)
    else
      var p := RunWith(step, t, chunks[..|chunks| - 1]);
      var c := chunks[|chunks| - 1];
      var x := step(p.1, c.bytes, c.last);
      (p.0 + x.0, x.1)
  }

  /** A run only ever changes state: its transformer keeps the configuration it started with. */
  lemma {:induction false} RunKeepsConfig(t: Transformer, chunks: seq<Chunk>)
    ensures Config(Run(t, chunks).1) == Config(t)
    decreases |chunks|
  {
    if |chunks| > 0 {
      RunKeepsConfig(t, chunks[..|chunks| - 1]);
    }
  }

  /** The mapping chunk `k` ought to get: the state of the run before it and
      the source and output positions of the run before and after it. */
  function MappingAt(t: Transformer, chunks: seq<Chunk>, k: nat): ChunkMapping
    requires k < |chunks|
  {
    ChunkMapping(
      StateOf(Run(t, chunks[..k]).1),
      |Source(chunks[..k])|, |Source(chunks[..k + 1])|,
      |Run(t, chunks[..k]).0|, |Run(t, chunks[..k + 1]).0|)
  }

  /** The `last` flag of every chunk says whether it reaches the end of the
      source, which is how the decoder recomputes it. */
  predicate LastFlagsConsistent(chunks: seq<Chunk>)
  {
    forall k :: 0 <= k < |chunks| ==>
      (chunks[k].last <==> |Source(chunks[..k + 1])| >= |Source(chunks)|)
  }

  /** One step of the run. */
  lemma RunStep(t: Transformer, chunks: seq<Chunk>, k: nat)
    requires k < |chunks|
    ensures var p := Run(t, chunks[..k]);
      var x := Transform(p.1, chunks[k].bytes, chunks[k].last);
      Run(t, chunks[..k + 1]) == (p.0 + x.0, x.1)
      && Source(chunks[..k + 1]) == Source(chunks[..k]) + chunks[k].bytes
  {
    assert chunks[..k + 1][..k] == chunks[..k];
  }

  /** The run over a prefix of the chunks emits a prefix of the whole output. */
  lemma RunPrefix(t: Transformer, chunks: seq<Chunk>, k: nat, k': nat)
    requires k <= k' <= |chunks|
    ensures |Run(t, chunks[..k]).0| <= |Run(t, chunks[..k']).0|
    ensures Run(t, chunks[..k]).0 == Run(t, chunks[..k']).0[..|Run(t, chunks[..k]).0|]
  {
    RunIsRunWith(t, chunks[..k]);
    RunIsRunWith(t, chunks[..k']);
    assert chunks[..k'][..k] == chunks[..k];
    RunWithPrefix(Transform, t, chunks[..k'], k, k');
    assert chunks[..k'][..k'] == chunks[..k'];
  }

  /** `Run` is `RunWith` over `transform`. */
  lemma {:induction false} RunIsRunWith(t: Transformer, chunks: seq<Chunk>)
    ensures Run(t, chunks) == RunWith(Transform, t, chunks)
    decreases |chunks|
  {
    if |chunks| > 0 {
      RunIsRunWith(t, chunks[..|chunks| - 1]);
    }
  }

  /** ... for any step function. */
  lemma {:induction false} RunWithPrefix(step: StepFn, t: Transformer, chunks: seq<Chunk>, k: nat, k': nat)
    requires k <= k' <= |chunks|
    ensures |RunWith(step, t, chunks[..k]).0| <= |RunWith(step, t, chunks[..k']).0|
    ensures RunWith(step, t, chunks[..k]).0 == RunWith(step, t, chunks[..k']).0[..|RunWith(step, t, chunks[..k]).0|]
    decreases k' - k
  {
    if k < k' {
      RunWithPrefix(step, t, chunks, k, k' - 1);
      assert chunks[..k'][..k' - 1] == chunks[..k' - 1];
      var a := RunWith(step, t, chunks[..k]).0;
      var b := RunWith(step, t, chunks[..k' - 1]).0;
      var c := RunWith(step, t, chunks[..k']).0;
      assert c[..|b|] == b;
      assert c[..|a|] == b[..|a|];
    }
  }

  /** A prefix of the chunks holds a prefix of the source. */
  lemma {:induction false} SourcePrefix(chunks: seq<Chunk>, k: nat, k': nat)
    requires k <= k' <= |chunks|
    ensures |Source(chunks[..k])| <= |Source(chunks[..k'])|
    ensures Source(chunks[..k]) == Source(chunks[..k'])[..|Source(chunks[..k])|]
    decreases k' - k
  {
    if k < k' {
      SourcePrefix(chunks, k, k' - 1);
      assert chunks[..k'][..k' - 1] == chunks[..k' - 1];
      var a := Source(chunks[..k]);
      var b := Source(chunks[..k' - 1]);
      var c := Source(chunks[..k']);
      assert c == b + chunks[k' - 1].bytes;
      assert c[..|b|] == b;
      assert c[..|a|] == b[..|a|];
    }
  }

  /** Chunk `k`'s bytes sit at its source range. */
  lemma ChunkInSource(chunks: seq<Chunk>, k: nat)
    requires k < |chunks|
    ensures var lo, hi := |Source(chunks[..k])|, |Source(chunks[..k + 1])|;
      lo <= hi <= |Source(chunks)| && Source(chunks)[lo..hi] == chunks[k].bytes
  {
    assert chunks[..k + 1][..k] == chunks[..k];
    SourcePrefix(chunks, k + 1, |chunks|);
    assert chunks[..|chunks|] == chunks;
  }

  /** Chunk `k` of the run: what it emits sits at its output range of the
      whole output, and it hands on the run's next transformer. */
  lemma ChunkInRun(t: Transformer, chunks: seq<Chunk>, k: nat)
    requires k < |chunks|
    ensures var p := Run(t, chunks[..k]);
      var x := Transform(p.1, chunks[k].bytes, chunks[k].last);
      var m := MappingAt(t, chunks, k);
      var whole := Run(t, chunks).0;
      && m.srcStart <= m.srcEnd <= |Source(chunks)|
      && m.dstStart <= m.dstEnd <= |whole|
      && Source(chunks)[m.srcStart..m.srcEnd] == chunks[k].bytes
      && whole[m.dstStart..m.dstEnd] == x.0
      && Run(t, chunks[..k + 1]).1 == x.1
  {
    RunStep(t, chunks, k);
    RunPrefix(t, chunks, k + 1, |chunks|);
    ChunkInSource(chunks, k);
    assert chunks[..|chunks|] == chunks;
  }

  /** The builder follows the run: after feeding all chunks it holds the run's
      transformer and the source and output lengths, with one mapping per chunk. */
  lemma {:induction false} FeedAllTotals(t: Transformer, chunks: seq<Chunk>)
    ensures var b := FeedAll(t, chunks);
      && b.transform == Run(t, chunks).1
      && b.srcPos == |Source(chunks)|
      && b.dstPos == |Run(t, chunks).0|
      && |b.mappings| == |chunks|
    decreases |chunks|
  {
    if |chunks| > 0 {
      FeedAllTotals(t, chunks[..|chunks| - 1]);
    }
  }

  /** ... and mapping `k` records chunk `k` of the run: the state before it
      and its source and output ranges. */
  lemma {:induction false} MappingIs(t: Transformer, chunks: seq<Chunk>, k: nat)
    requires k < |chunks|
    ensures |FeedAll(t, chunks).mappings| == |chunks|
    ensures FeedAll(t, chunks).mappings[k] == MappingAt(t, chunks, k)
    decreases |chunks|
  {
    var n := |chunks|;
    FeedAllTotals(t, chunks);
    if k == n - 1 {
      LastMapping(t, chunks);
    } else {
      var p := chunks[..n - 1];
      MappingIs(t, p, k);
      FeedAllTotals(t, p);
      assert FeedAll(t, chunks).mappings[k] == FeedAll(t, p).mappings[k];
      MappingAtPrefix(t, chunks, n - 1, k);
    }
  }

  /** A chunk's mapping does not depend on the chunks after it. */
  lemma MappingAtPrefix(t: Transformer, chunks: seq<Chunk>, m: nat, k: nat)
    requires k < m <= |chunks|
    ensures MappingAt(t, chunks[..m], k) == MappingAt(t, chunks, k)
  {
    assert chunks[..m][..k] == chunks[..k];
    assert chunks[..m][..k + 1] == chunks[..k + 1];
  }

  /** The source range mapping `k` records is chunk `k`'s. */
  lemma MappingSource(t: Transformer, chunks: seq<Chunk>, k: nat)
    requires k < |chunks|
    ensures var ms := FeedAll(t, chunks).mappings;
      |ms| == |chunks| && ms[k].srcStart == |Source(chunks[..k])| && ms[k].srcEnd == |Source(chunks[..k + 1])|
  {
    MappingIs(t, chunks, k);
  }

  /** Feeding the final chunk appends its mapping. */
  lemma LastMapping(t: Transformer, chunks: seq<Chunk>)
    requires |chunks| > 0
    ensures var b := FeedAll(t, chunks);
      |b.mappings| == |chunks| && b.mappings[|chunks| - 1] == MappingAt(t, chunks, |chunks| - 1)
  {
    var n := |chunks|;
    FeedAllTotals(t, chunks[..n - 1]);
    FeedAllTotals(t, chunks);
    assert chunks[..n] == chunks;
  }

  // ---------------------------------------------------------------------
  // Well-formed mapping tables.

  /** Mappings that tile `0..inputSize` and `0..outputSize` in order. */
  predicate Contiguous(d: Decoder)
  {
    var ms := d.mappings;
    && (|ms| == 0 ==> d.inputSize == 0 && d.outputSize == 0)
    && (|ms| > 0 ==>
          && ms[0].srcStart == 0 && ms[0].dstStart == 0
          && ms[|ms| - 1].srcEnd == d.inputSize && ms[|ms| - 1].dstEnd == d.outputSize)
    && (forall k :: 0 <= k < |ms| ==> ms[k].srcStart <= ms[k].srcEnd && ms[k].dstStart <= ms[k].dstEnd)
    && (forall k :: 0 <= k < |ms| - 1 ==>
          ms[k].srcEnd == ms[k + 1].srcStart && ms[k].dstEnd == ms[k + 1].dstStart)
  }

  /** A decoder built from any chunk sequence has a contiguous table whose
      ranges start at 0 in both coordinates. */
  lemma BuiltIsContiguous(t: Transformer, chunks: seq<Chunk>)
    ensures Contiguous(Build(FeedAll(t, chunks)))
  {
    FeedAllTotals(t, chunks);
    var ms := FeedAll(t, chunks).mappings;
    var n := |chunks|;
    forall k | 0 <= k < n
      ensures ms[k].srcStart <= ms[k].srcEnd && ms[k].dstStart <= ms[k].dstEnd
    {
      MappingIs(t, chunks, k);
      MappingGrows(t, chunks, k);
    }
    forall k | 0 <= k < n - 1
      ensures ms[k].srcEnd == ms[k + 1].srcStart && ms[k].dstEnd == ms[k + 1].dstStart
    {
      MappingIs(t, chunks, k);
      MappingIs(t, chunks, k + 1);
    }
    if n > 0 {
      BuiltEnds(t, chunks);
    }
  }

  /** The first mapping starts at 0 on both sides, and the last ends at the
      source length and the stream length. */
  lemma BuiltEnds(t: Transformer, chunks: seq<Chunk>)
    requires |chunks| > 0
    ensures var ms := FeedAll(t, chunks).mappings;
      && |ms| == |chunks|
      && ms[0].srcStart == 0 && ms[0].dstStart == 0
      && ms[|ms| - 1].srcEnd == |Source(chunks)| && ms[|ms| - 1].dstEnd == |Run(t, chunks).0|
  {
    var n := |chunks|;
    MappingIs(t, chunks, 0);
    assert chunks[..0] == [];
    assert MappingAt(t, chunks, 0).srcStart == |Source([])| == 0;
    assert MappingAt(t, chunks, 0).dstStart == |Run(t, []).0| == 0;
    MappingIs(t, chunks, n - 1);
    assert chunks[..n] == chunks;
    assert MappingAt(t, chunks, n - 1).srcEnd == |Source(chunks[..n])|;
    assert MappingAt(t, chunks, n - 1).dstEnd == |Run(t, chunks[..n]).0|;
  }

  /** Each chunk's mapping spans a non-negative range on both sides. */
  lemma MappingGrows(t: Transformer, chunks: seq<Chunk>, k: nat)
    requires k < |chunks|
    ensures var m := MappingAt(t, chunks, k); m.srcStart <= m.srcEnd && m.dstStart <= m.dstEnd
  {
    RunStep(t, chunks, k);
  }

  /** In a contiguous table, positions grow along the table. */
  lemma {:induction false} Monotone(d: Decoder, i: nat, j: nat)
    requires Contiguous(d) && i <= j < |d.mappings|
    ensures d.mappings[i].srcStart <= d.mappings[j].srcStart
    ensures d.mappings[i].srcEnd <= d.mappings[j].srcEnd
    ensures d.mappings[i].dstStart <= d.mappings[j].dstStart
    ensures d.mappings[i].dstEnd <= d.mappings[j].dstEnd
    ensures i < j ==> d.mappings[i].dstEnd <= d.mappings[j].dstStart
    ensures i < j ==> d.mappings[i].srcEnd <= d.mappings[j].srcStart
    decreases j - i
  {
    if i < j {
      Monotone(d, i, j - 1);
    }
  }

  /** Every table position lies within `0..outputSize` and `0..inputSize`. */
  lemma WithinSizes(d: Decoder, k: nat)
    requires Contiguous(d) && k < |d.mappings|
    ensures d.mappings[k].dstEnd <= d.outputSize && d.mappings[k].srcEnd <= d.inputSize
  {
    Monotone(d, k, |d.mappings| - 1);
  }

  // ---------------------------------------------------------------------
  // The decoder.

  /** `Iterator::find` over the table: the first mapping satisfying `p`. */
  function FindFirst(ms: seq<ChunkMapping>, p: ChunkMapping -> bool): (r: Option<nat>)
    ensures r.Some? ==> r.value < |ms| && p(ms[r.value]) && forall i :: 0 <= i < r.value ==> !p(ms[i])
    ensures r.None? ==> forall i :: 0 <= i < |ms| ==> !p(ms[i])
  {
    if |ms| == 0 then None
    else if p(ms[0]) then Some(0)
    else match FindFirst(ms[1..], p)
      case None => None
      case Some(i) => Some(i + 1)
  }

  /** The output range `rs..re` clamped to the output: its end. */
  function ClampEnd(d: Decoder, re: nat): nat { Min(re, d.outputSize) }

  /** A request that selects nothing: empty after clamping, or starting at or
      past the end of the output. */
  predicate EmptyRequest(d: Decoder, rs: nat, re: nat)
  {
    ClampEnd(d, re) <= rs || rs >= d.outputSize
  }

  /** The chunk whose output range holds position `pos`. */
  function HoldsStart(pos: nat): ChunkMapping -> bool
  {
    (m: ChunkMapping) => m.dstStart <= pos < m.dstEnd
  }

  /** The chunk whose output range ends at or after the (exclusive) end `pos`. */
  function HoldsEnd(pos: nat): ChunkMapping -> bool
  {
    (m: ChunkMapping) => m.dstStart < pos <= m.dstEnd
  }

  /** `calc_input_range`: `0..0` for an empty request; otherwise from the
      source start of the chunk holding the first requested byte to the source
      end of the chunk holding the last. A failed `find` is a panic (`None`). */
  function CalcInputRange(d: Decoder, rs: nat, re: nat): (r: Option<(nat, nat)>)
    ensures EmptyRequest(d, rs, re) ==> r == Some((0, 0))
    ensures !EmptyRequest(d, rs, re) ==>
      (r.None? <==>
        (forall i :: 0 <= i < |d.mappings| ==> !HoldsStart(rs)(d.mappings[i]))
        || (forall i :: 0 <= i < |d.mappings| ==> !HoldsEnd(ClampEnd(d, re))(d.mappings[i])))
  {
    var end := ClampEnd(d, re);
    if end <= rs || rs >= d.outputSize then Some((0, 0))
    else
      match (FindFirst(d.mappings, HoldsStart(rs)), FindFirst(d.mappings, HoldsEnd(end)))
      case (Some(i), Some(j)) => Some((d.mappings[i].srcStart, d.mappings[j].srcEnd))
      case _ => None
  }

  /** A chunk whose output range ends after `pos`. */
  function EndsAfter(pos: nat): ChunkMapping -> bool
  {
    (m: ChunkMapping) => m.dstEnd > pos
  }

  /** `skip_while(|c| c.dst_range.end <= start)`: the index of the first
      mapping whose output range ends after `rs`. */
  function SkipIndex(ms: seq<ChunkMapping>, rs: nat): (k: nat)
    ensures k <= |ms|
  {
    match FindFirst(ms, EndsAfter(rs))
    case None => |ms|
    case Some(k) => k
  }

  /** `decode_range`: empty for an empty request; otherwise run the transform
      over the chunks from the skip point while their output starts before the
      clamped end, resuming from the first one's saved state, and keep the
      requested part of each chunk's output. `src` holds the source from
      `srcOffset` on. Unsigned underflow and out-of-bounds slicing panic (`None`). */
  function DecodeRange(d: Decoder, src: seq<byte>, srcOffset: nat, rs: nat, re: nat): (r: Option<seq<byte>>)
    ensures EmptyRequest(d, rs, re) ==> r == Some([])
  {
    var end := ClampEnd(d, re);
    if end <= rs || rs >= d.outputSize then Some([])
    else DecodeChunks(d, Transform, src, srcOffset, rs, re, end, SkipIndex(d.mappings, rs), None)
  }

  /** The per-chunk `transform` call, as a value: the decoder loop is written
      for any transformer operation, as the Rust decoder is generic in it. */
  type StepFn = (Transformer, seq<byte>, bool) -> (seq<byte>, Transformer)

  /** The loop of `decode_range` from mapping `k` on, with `step` as the
      transform; `current` is the transformer once the first chunk has
      initialised it. */
  function DecodeChunks(d: Decoder, step: StepFn, src: seq<byte>, srcOffset: nat, rs: nat, re: nat, end: nat,
                        k: nat, current: Option<Transformer>): Option<seq<byte>>
    requires k <= |d.mappings|
    decreases |d.mappings| - k
  {
    if k == |d.mappings| || d.mappings[k].dstStart >= end then Some([])
    else
      var m := d.mappings[k];
      var t := if current.Some? then current.value else WithState(d.transform, m.state);
      if m.srcStart < srcOffset || m.srcEnd < srcOffset then None
      else
        var a, b := m.srcStart - srcOffset, m.srcEnd - srcOffset;
        if !(a <= b <= |src|) then None
        else
          var x := step(t, src[a..b], m.srcEnd >= d.inputSize);
          var skip, cut := SatSub(rs, m.dstStart), SatSub(m.dstEnd, re);
          if cut > |x.0| || skip > |x.0| - cut then None
          else match DecodeChunks(d, step, src, srcOffset, rs, re, end, k + 1, Some(x.1))
            case None => None
            case Some(rest) => Some(x.0[skip..|x.0| - cut] + rest)
  }

  // ---------------------------------------------------------------------
  // Locating a request in a contiguous table.

  /** Some chunk holds every output position below `outputSize`. */
  lemma StartIsHeld(d: Decoder, pos: nat) returns (k: nat)
    requires Contiguous(d) && pos < d.outputSize
    ensures k < |d.mappings| && HoldsStart(pos)(d.mappings[k])
  {
    var ms := d.mappings;
    k := 0;
    while ms[k].dstEnd <= pos
      invariant k < |ms| && ms[k].dstStart <= pos
      decreases |ms| - k
    {
      k := k + 1;
    }
  }

  /** Some chunk holds every non-zero exclusive end up to `outputSize`. */
  lemma EndIsHeld(d: Decoder, pos: nat) returns (k: nat)
    requires Contiguous(d) && 0 < pos <= d.outputSize
    ensures k < |d.mappings| && HoldsEnd(pos)(d.mappings[k])
  {
    var ms := d.mappings;
    k := 0;
    while ms[k].dstEnd < pos
      invariant k < |ms| && ms[k].dstStart < pos
      decreases |ms| - k
    {
      k := k + 1;
    }
  }

  /** In a contiguous table a non-empty request is located without a panic:
      `calc_input_range` picks chunk `i` holding the first requested byte and
      chunk `j` (not before `i`) holding the last, the loop of `decode_range`
      starts at `i`, and the source range lies within `0..inputSize`. */
  lemma LocateRequest(d: Decoder, rs: nat, re: nat) returns (i: nat, j: nat)
    requires Contiguous(d) && !EmptyRequest(d, rs, re)
    ensures i <= j < |d.mappings|
    ensures HoldsStart(rs)(d.mappings[i]) && HoldsEnd(ClampEnd(d, re))(d.mappings[j])
    ensures CalcInputRange(d, rs, re) == Some((d.mappings[i].srcStart, d.mappings[j].srcEnd))
    ensures d.mappings[i].srcStart <= d.mappings[j].srcEnd <= d.inputSize
    ensures SkipIndex(d.mappings, rs) == i
  {
    var ms := d.mappings;
    var end := ClampEnd(d, re);
    var i0 := StartIsHeld(d, rs);
    var j0 := EndIsHeld(d, end);
    i := FindFirst(ms, HoldsStart(rs)).value;
    j := FindFirst(ms, HoldsEnd(end)).value;
    if j < i {
      Monotone(d, j, i);
    }
    Monotone(d, i, j);
    WithinSizes(d, j);
    var s := FindFirst(ms, EndsAfter(rs));
    assert s.Some?;
    if s.value < i {
      Monotone(d, s.value, i);
    }
  }

  // ---------------------------------------------------------------------
  // Decoding replays the stream.

  /** The arithmetic of one chunk of `decode_range`: cutting `skip` bytes from
      the front and `cut` from the back of the chunk's output keeps exactly its
      part of `rs..end`, and the parts join up. */
  lemma PieceOfChunk(w: seq<byte>, lo: nat, hi: nat, rs: nat, re: nat, end: nat)
    requires lo <= hi <= |w| && end == Min(re, |w|)
    requires rs < hi && lo < end && rs < end
    ensures var x := w[lo..hi];
      var skip, cut := SatSub(rs, lo), SatSub(hi, re);
      && cut <= |x| && skip <= |x| - cut
      && x[skip..|x| - cut] + (if hi >= end then [] else w[Max(rs, hi)..end]) == w[Max(rs, lo)..end]
  {
    var x := w[lo..hi];
    var skip, cut := SatSub(rs, lo), SatSub(hi, re);
    assert lo + skip == Max(rs, lo) && lo + (|x| - cut) == Min(re, hi);
    SliceOfSlice(w, lo, hi, skip, |x| - cut);
    if hi < end {
      SliceJoin(w, Max(rs, lo), hi, end);
    }
  }

  /** Everything the decoder built from `chunks` knows about the run: its
      sizes, its table, and that the table is contiguous. */
  lemma BuiltFacts(t: Transformer, chunks: seq<Chunk>)
    ensures var d := Build(FeedAll(t, chunks));
      && d.inputSize == |Source(chunks)|
      && d.outputSize == |Run(t, chunks).0|
      && |d.mappings| == |chunks|
      && Contiguous(d)
  {
    FeedAllTotals(t, chunks);
    BuiltIsContiguous(t, chunks);
  }

  /** A non-empty request to the decoder built from `chunks`, located at
      chunks `i` (holding its first byte) to `j` (holding its last), with
      the facts the decoder inherits from the run. */
  predicate Located(t: Transformer, chunks: seq<Chunk>, rs: nat, re: nat, i: nat, j: nat)
  {
    var d := Build(FeedAll(t, chunks));
    && LastFlagsConsistent(chunks)
    && d.inputSize == |Source(chunks)| && d.outputSize == |Run(t, chunks).0|
    && |d.mappings| == |chunks|
    && Contiguous(d) && !EmptyRequest(d, rs, re)
    && i <= j < |chunks|
    && d.mappings[i].dstStart <= rs < d.mappings[i].dstEnd
    && d.mappings[j].dstStart < ClampEnd(d, re) <= d.mappings[j].dstEnd
    && d.mappings[i].srcStart <= d.mappings[j].srcEnd <= d.inputSize
  }

  /** The source bytes `calc_input_range` asks for: from chunk `i` to chunk `j`. */
  function Fetched(t: Transformer, chunks: seq<Chunk>, rs: nat, re: nat, i: nat, j: nat): seq<byte>
    requires Located(t, chunks, rs, re, i, j)
  {
    var ms := Build(FeedAll(t, chunks)).mappings;
    Source(chunks)[ms[i].srcStart..ms[j].srcEnd]
  }

  /** One round of the loop of `decode_range`, for any table: if chunk `k`
      starts before the clamped end, its source bytes are in `src`, and the
      transformer in hand emits exactly its part `w[dstStart..dstEnd]` of a
      stream `w`, the round contributes that part cut to the request. */
  lemma DecodeRound(d: Decoder, src: seq<byte>, lo: nat, rs: nat, re: nat, end: nat, k: nat,
                    current: Option<Transformer>, w: seq<byte>, step: StepFn)
    requires k < |d.mappings|
    requires var m := d.mappings[k];
      && lo <= m.srcStart <= m.srcEnd <= lo + |src|
      && m.dstStart <= m.dstEnd <= |w| && end == Min(re, |w|)
      && m.dstStart < end && rs < m.dstEnd && rs < end
      && var t := if current.Some? then current.value else WithState(d.transform, m.state);
         step(t, src[m.srcStart - lo..m.srcEnd - lo], m.srcEnd >= d.inputSize).0 == w[m.dstStart..m.dstEnd]
    ensures var m := d.mappings[k];
      var t := if current.Some? then current.value else WithState(d.transform, m.state);
      var x := step(t, src[m.srcStart - lo..m.srcEnd - lo], m.srcEnd >= d.inputSize);
      && Max(rs, m.dstStart) <= Min(re, m.dstEnd) <= |w|
      && DecodeChunks(d, step, src, lo, rs, re, end, k, current)
         == match DecodeChunks(d, step, src, lo, rs, re, end, k + 1, Some(x.1))
            case None => None
            case Some(rest) => Some(w[Max(rs, m.dstStart)..Min(re, m.dstEnd)] + rest)
  {
    var m := d.mappings[k];
    var t := if current.Some? then current.value else WithState(d.transform, m.state);
    var x := step(t, src[m.srcStart - lo..m.srcEnd - lo], m.srcEnd >= d.inputSize);
    var skip, cut := SatSub(rs, m.dstStart), SatSub(m.dstEnd, re);
    var out := w[m.dstStart..m.dstEnd];
    assert x.0 == out;
    PieceOfChunk(w, m.dstStart, m.dstEnd, rs, re, end);
    assert cut <= |out| && skip <= |out| - cut;
    SliceOfSlice(w, m.dstStart, m.dstEnd, skip, |out| - cut);
    assert m.dstStart + skip == Max(rs, m.dstStart);
    assert m.dstStart + (|out| - cut) == Min(re, m.dstEnd);
    var piece := x.0[skip..|x.0| - cut];
    assert piece == out[skip..|out| - cut];
    var next := DecodeChunks(d, step, src, lo, rs, re, end, k + 1, Some(x.1));
    assert DecodeChunks(d, step, src, lo, rs, re, end, k, current)
      == (match next case None => None case Some(rest) => Some(piece + rest));
  }

  /** Part `s..e` of `w`, cut out of the slice `lo..hi` that holds it. */
  lemma SliceWithin(w: seq<byte>, lo: nat, hi: nat, s: nat, e: nat)
    requires lo <= s <= e <= hi <= |w|
    ensures w[lo..hi][s - lo..e - lo] == w[s..e]
  {
    SliceOfSlice(w, lo, hi, s - lo, e - lo);
  }

  /** Consecutive pieces of a request join up: chunk `a..b`'s part, then the
      rest of the request from `b`, is the request from `a`. */
  lemma JoinPiece(w: seq<byte>, a: nat, b: nat, rs: nat, re: nat, end: nat)
    requires a <= b <= |w| && end == Min(re, |w|) && rs < b && a < end && rs < end
    ensures Max(rs, a) <= Min(re, b) <= end
    ensures w[Max(rs, a)..Min(re, b)] + (if b >= end then [] else w[Max(rs, b)..end]) == w[Max(rs, a)..end]
  {
    if b < end {
      SliceJoin(w, Max(rs, a), b, end);
    }
  }

  /** The `last` flag `decode_range` recomputes for chunk `k` from the table
      is the one chunk `k` was fed with. */
  lemma RoundLast(t: Transformer, chunks: seq<Chunk>, k: nat)
    requires LastFlagsConsistent(chunks) && k < |chunks|
    ensures var d := Build(FeedAll(t, chunks));
      |d.mappings| == |chunks| && (d.mappings[k].srcEnd >= d.inputSize) == chunks[k].last
  {
    MappingSource(t, chunks, k);
    FeedAllTotals(t, chunks);
  }

  /** Chunk `k` between the located chunks finds its own bytes in the
      fetched source. */
  lemma RoundBytes(t: Transformer, chunks: seq<Chunk>, rs: nat, re: nat, i: nat, j: nat, k: nat)
    requires Located(t, chunks, rs, re, i, j) && i <= k <= j
    ensures ChunkFetched(Build(FeedAll(t, chunks)), Fetched(t, chunks, rs, re, i, j), i, k, chunks[k].bytes)
  {
    var d := Build(FeedAll(t, chunks));
    MappingSource(t, chunks, k);
    ChunkInSource(chunks, k);
    FetchedHoldsChunk(d, Source(chunks), Fetched(t, chunks, rs, re, i, j), i, j, k, chunks[k].bytes);
  }

  /** Chunk `k`'s source range lies in `src`, fetched from chunk `i`'s
      source start on, and holds `bytes` there. */
  predicate ChunkFetched(d: Decoder, src: seq<byte>, i: nat, k: nat, bytes: seq<byte>)
  {
    && i < |d.mappings| && k < |d.mappings|
    && var m, lo := d.mappings[k], d.mappings[i].srcStart;
       && lo <= m.srcStart <= m.srcEnd <= lo + |src|
       && src[m.srcStart - lo..m.srcEnd - lo] == bytes
  }

  /** In a contiguous table, the bytes of a chunk between chunks `i` and `j`
      lie, shifted, in the source fetched from `i` to `j`. */
  lemma FetchedHoldsChunk(d: Decoder, source: seq<byte>, src: seq<byte>, i: nat, j: nat, k: nat, bytes: seq<byte>)
    requires Contiguous(d) && i <= k <= j < |d.mappings|
    requires d.mappings[i].srcStart <= d.mappings[j].srcEnd <= |source|
    requires src == source[d.mappings[i].srcStart..d.mappings[j].srcEnd]
    requires d.mappings[k].srcEnd <= |source| && source[d.mappings[k].srcStart..d.mappings[k].srcEnd] == bytes
    ensures ChunkFetched(d, src, i, k, bytes)
  {
    Monotone(d, i, k);
    Monotone(d, k, j);
    var lo, hi := d.mappings[i].srcStart, d.mappings[j].srcEnd;
    SliceWithin(source, lo, hi, d.mappings[k].srcStart, d.mappings[k].srcEnd);
  }

  /** The decoder's transformer, given chunk `k`'s saved state, is the run's
      transformer before chunk `k`. */
  lemma SavedStateRestores(t: Transformer, chunks: seq<Chunk>, k: nat)
    requires k < |chunks|
    ensures var d := Build(FeedAll(t, chunks));
      |d.mappings| == |chunks| && WithState(d.transform, d.mappings[k].state) == Run(t, chunks[..k]).1
  {
    MappingIs(t, chunks, k);
    FeedAllTotals(t, chunks);
    RunKeepsConfig(t, chunks);
    RunKeepsConfig(t, chunks[..k]);
    RestoreState(FeedAll(t, chunks).transform, Run(t, chunks[..k]).1);
  }

  /** The transformers of the run before each of chunks `0..n`. */
  function RunStates(t: Transformer, chunks: seq<Chunk>, n: nat): (r: seq<Transformer>)
    requires n <= |chunks|
    ensures |r| == n + 1 && forall k :: 0 <= k <= n ==> r[k] == Run(t, chunks[..k]).1
  {
    seq(n + 1, (k: int) requires 0 <= k <= n => Run(t, chunks[..k]).1)
  }

  /** Chunk `k` between the located chunks, re-run as `decode_range` does it
      from the run's transformer before it, emits exactly the chunk's part of
      the whole stream and leaves the run's transformer for the next chunk. */
  lemma RoundReplays(t: Transformer, chunks: seq<Chunk>, rs: nat, re: nat, i: nat, j: nat, k: nat)
    requires Located(t, chunks, rs, re, i, j) && i <= k <= j
    ensures RoundOk(Build(FeedAll(t, chunks)), Transform, Fetched(t, chunks, rs, re, i, j),
                    Build(FeedAll(t, chunks)).mappings[i].srcStart, Run(t, chunks).0, RunStates(t, chunks, j + 1), k)
  {
    var d := Build(FeedAll(t, chunks));
    var step: StepFn := Transform;
    var src, w, states := Fetched(t, chunks, rs, re, i, j), Run(t, chunks).0, RunStates(t, chunks, j + 1);
    RoundBytes(t, chunks, rs, re, i, j, k);
    RoundLast(t, chunks, k);
    ChunkInRun(t, chunks, k);
    MappingIs(t, chunks, k);
    RoundOkFrom(d, step, src, i, k, w, states, chunks[k].bytes, chunks[k].last);
  }

  /** A chunk replays once its bytes are found in `src`, its flag agrees
      with the table, and the step from `states[k]` over them emits its
      output range of `w` and leaves `states[k + 1]`. */
  lemma RoundOkFrom(d: Decoder, step: StepFn, src: seq<byte>, i: nat, k: nat, w: seq<byte>,
                    states: seq<Transformer>, bytes: seq<byte>, last: bool)
    requires ChunkFetched(d, src, i, k, bytes) && k + 1 < |states|
    requires d.mappings[k].dstStart <= d.mappings[k].dstEnd <= |w|
    requires (d.mappings[k].srcEnd >= d.inputSize) == last
    requires step(states[k], bytes, last) == (w[d.mappings[k].dstStart..d.mappings[k].dstEnd], states[k + 1])
    ensures RoundOk(d, step, src, d.mappings[i].srcStart, w, states, k)
  {
  }

  /** Every chunk between the located ones replays, and the first resumes
      from the run's transformer. */
  lemma RunReplays(t: Transformer, chunks: seq<Chunk>, rs: nat, re: nat, i: nat, j: nat)
    requires Located(t, chunks, rs, re, i, j)
    ensures var d := Build(FeedAll(t, chunks));
      var states := RunStates(t, chunks, j + 1);
      && WithState(d.transform, d.mappings[i].state) == states[i]
      && forall k :: i <= k <= j ==>
           RoundOk(d, Transform, Fetched(t, chunks, rs, re, i, j), d.mappings[i].srcStart, Run(t, chunks).0, states, k)
  {
    SavedStateRestores(t, chunks, i);
    var d := Build(FeedAll(t, chunks));
    var step: StepFn := Transform;
    var src, lo, w := Fetched(t, chunks, rs, re, i, j), d.mappings[i].srcStart, Run(t, chunks).0;
    var states := RunStates(t, chunks, j + 1);
    forall k | i <= k <= j
      ensures RoundOk(d, step, src, lo, w, states, k)
    {
      RoundReplays(t, chunks, rs, re, i, j, k);
    }
  }

  /** Chunk `k` replays under `step`: resumed from `states[k]`, its source
      bytes out of `src` (which starts at `lo`) emit its output range of `w`
      and leave `states[k + 1]`. */
  predicate RoundOk(d: Decoder, step: StepFn, src: seq<byte>, lo: nat, w: seq<byte>, states: seq<Transformer>, k: nat)
  {
    && k < |d.mappings| && k + 1 < |states|
    && var m := d.mappings[k];
       && lo <= m.srcStart <= m.srcEnd <= lo + |src|
       && m.dstStart <= m.dstEnd <= |w|
       && step(states[k], src[m.srcStart - lo..m.srcEnd - lo], m.srcEnd >= d.inputSize)
          == (w[m.dstStart..m.dstEnd], states[k + 1])
  }

  /** Chunks `k..j` all replay under `step`. */
  predicate RoundsOk(d: Decoder, step: StepFn, src: seq<byte>, lo: nat, w: seq<byte>, states: seq<Transformer>,
                     k: nat, j: nat)
    decreases j + 1 - k
  {
    k > j || (RoundOk(d, step, src, lo, w, states, k) && RoundsOk(d, step, src, lo, w, states, k + 1, j))
  }

  /** When each of chunks `k..j` replays, they replay as a run. */
  lemma {:induction false} AllRoundsOk(d: Decoder, step: StepFn, src: seq<byte>, lo: nat, w: seq<byte>,
                                       states: seq<Transformer>, k: nat, j: nat)
    requires forall k' :: k <= k' <= j ==> RoundOk(d, step, src, lo, w, states, k')
    ensures RoundsOk(d, step, src, lo, w, states, k, j)
    decreases j + 1 - k
  {
    if k <= j {
      AllRoundsOk(d, step, src, lo, w, states, k + 1, j);
    }
  }

  /** Bytes `a..b` of `w`, or nothing when that is not a range of `w`. */
  function Span(w: seq<byte>, a: int, b: int): seq<byte>
  {
    if 0 <= a <= b <= |w| then w[a..b] else []
  }

  /** The loop of `decode_range` from chunk `k` on, for a request held by
      chunks `i..j` of a contiguous table whose every chunk replays a stream
      `w`: it emits `w` from the later of `rs` and chunk `k`'s output start up
      to the clamped end. */
  lemma {:induction false} ReplayFrom(d: Decoder, step: StepFn, src: seq<byte>, lo: nat, w: seq<byte>,
                                      states: seq<Transformer>, rs: nat, re: nat, i: nat, j: nat, k: nat)
    requires Contiguous(d) && d.outputSize == |w|
    requires i <= j < |d.mappings| && i <= k <= j + 1
    requires d.mappings[i].dstStart <= rs < d.mappings[i].dstEnd && rs < ClampEnd(d, re)
    requires d.mappings[j].dstStart < ClampEnd(d, re) <= d.mappings[j].dstEnd
    requires j + 1 < |states| && WithState(d.transform, d.mappings[i].state) == states[i]
    requires RoundsOk(d, step, src, lo, w, states, k, j)
    ensures DecodeChunks(d, step, src, lo, rs, re, ClampEnd(d, re), k, if k == i then None else Some(states[k]))
      == Some(if k > j then [] else Span(w, Max(rs, d.mappings[k].dstStart), ClampEnd(d, re)))
    decreases j + 1 - k
  {
    var ms := d.mappings;
    var end := ClampEnd(d, re);
    if k > j {
      if k < |ms| {
        assert ms[j].dstEnd == ms[k].dstStart;
      }
    } else {
      ReplayFrom(d, step, src, lo, w, states, rs, re, i, j, k + 1);
      ReplayRound(d, step, src, lo, w, states, rs, re, i, j, k);
    }
  }

  /** One round of `ReplayFrom`: chunk `k`'s piece, then the rest. */
  lemma ReplayRound(d: Decoder, step: StepFn, src: seq<byte>, lo: nat, w: seq<byte>,
                    states: seq<Transformer>, rs: nat, re: nat, i: nat, j: nat, k: nat)
    requires Contiguous(d) && d.outputSize == |w|
    requires i <= k <= j < |d.mappings|
    requires d.mappings[i].dstStart <= rs < d.mappings[i].dstEnd && rs < ClampEnd(d, re)
    requires d.mappings[j].dstStart < ClampEnd(d, re) <= d.mappings[j].dstEnd
    requires j + 1 < |states| && WithState(d.transform, d.mappings[i].state) == states[i]
    requires RoundOk(d, step, src, lo, w, states, k)
    requires DecodeChunks(d, step, src, lo, rs, re, ClampEnd(d, re), k + 1, Some(states[k + 1]))
      == Some(if k + 1 > j then [] else Span(w, Max(rs, d.mappings[k + 1].dstStart), ClampEnd(d, re)))
    ensures DecodeChunks(d, step, src, lo, rs, re, ClampEnd(d, re), k, if k == i then None else Some(states[k]))
      == Some(Span(w, Max(rs, d.mappings[k].dstStart), ClampEnd(d, re)))
  {
    var ms := d.mappings;
    var end := ClampEnd(d, re);
    Monotone(d, i, k);
    Monotone(d, k, j);
    WithinSizes(d, k);
    var current := if k == i then None else Some(states[k]);
    var t := if current.Some? then current.value else WithState(d.transform, ms[k].state);
    assert t == states[k];
    var x := step(t, src[ms[k].srcStart - lo..ms[k].srcEnd - lo], ms[k].srcEnd >= d.inputSize);
    assert x == (w[ms[k].dstStart..ms[k].dstEnd], states[k + 1]);
    DecodeRound(d, src, lo, rs, re, end, k, current, w, step);
    JoinPiece(w, ms[k].dstStart, ms[k].dstEnd, rs, re, end);
    var rest := if ms[k].dstEnd >= end then [] else w[Max(rs, ms[k].dstEnd)..end];
    if k < j {
      Monotone(d, k + 1, j);
      assert ms[k].dstEnd == ms[k + 1].dstStart < end;
    }
    assert DecodeChunks(d, step, src, lo, rs, re, end, k + 1, Some(x.1)) == Some(rest);
  }

  /** The headline property of the chunked decoder. Build it by streaming the
      chunks (each flagged `last` exactly when it reaches the end of the
      source); then for every requested output range `rs..re`,
      `calc_input_range` succeeds with a source range inside the source, and
      `decode_range` over exactly those source bytes returns bytes `rs..re`
      of the streamed output, clamped to its length. */
  lemma DecodeMatchesStream(t: Transformer, chunks: seq<Chunk>, rs: nat, re: nat)
    requires LastFlagsConsistent(chunks)
    ensures var d := Build(FeedAll(t, chunks));
      var r := CalcInputRange(d, rs, re);
      && r.Some? && r.value.0 <= r.value.1 <= |Source(chunks)|
      && DecodeRange(d, Source(chunks)[r.value.0..r.value.1], r.value.0, rs, re)
         == Some(Clamp(Run(t, chunks).0, rs, re))
  {
    var d := Build(FeedAll(t, chunks));
    BuiltFacts(t, chunks);
    if !EmptyRequest(d, rs, re) {
      var i, j := LocateRequest(d, rs, re);
      assert Located(t, chunks, rs, re, i, j);
      DecodeLocated(t, chunks, rs, re, i, j);
    }
  }

  /** A located request decodes to its part of the streamed output. */
  lemma DecodeLocated(t: Transformer, chunks: seq<Chunk>, rs: nat, re: nat, i: nat, j: nat)
    requires Located(t, chunks, rs, re, i, j)
    requires SkipIndex(Build(FeedAll(t, chunks)).mappings, rs) == i
    ensures var d := Build(FeedAll(t, chunks));
      DecodeRange(d, Fetched(t, chunks, rs, re, i, j), d.mappings[i].srcStart, rs, re)
      == Some(Clamp(Run(t, chunks).0, rs, re))
  {
    var d := Build(FeedAll(t, chunks));
    var step: StepFn := Transform;
    var src, lo, w := Fetched(t, chunks, rs, re, i, j), d.mappings[i].srcStart, Run(t, chunks).0;
    var states := RunStates(t, chunks, j + 1);
    RunReplays(t, chunks, rs, re, i, j);
    AllRoundsOk(d, step, src, lo, w, states, i, j);
    ReplayFrom(d, step, src, lo, w, states, rs, re, i, j, i);
    var end := ClampEnd(d, re);
    assert DecodeRange(d, src, lo, rs, re) == DecodeChunks(d, step, src, lo, rs, re, end, i, None);
    assert Max(rs, d.mappings[i].dstStart) == rs;
    assert Span(w, rs, end) == Clamp(w, rs, re);
  }

  // ---------------------------------------------------------------------
  // Streaming in chunks is one pass.

  /** Chunks none of which is flagged `last`, streamed, emit what one
      not-last call over their concatenation emits. */
  lemma {:induction false} RunNotLast(t: Transformer, chunks: seq<Chunk>)
    requires |chunks| > 0 && forall k :: 0 <= k < |chunks| ==> !chunks[k].last
    ensures Run(t, chunks) == Transform(t, Source(chunks), false)
    decreases |chunks|
  {
    var n := |chunks|;
    var c := chunks[n - 1];
    if n == 1 {
      assert chunks[..0] == [];
      assert Source(chunks) == c.bytes;
      var x := Transform(t, c.bytes, false);
      assert Run(t, chunks) == ([] + x.0, x.1);
      assert [] + x.0 == x.0;
    } else {
      var p := chunks[..n - 1];
      assert !p[n - 2].last;
      RunNotLast(t, p);
      TransformSplit(t, Source(p), c.bytes, false);
    }
  }

  /** Streaming chunks of which only the final one is flagged `last` emits
      what one last call over the whole source emits, and ends in the same
      transformer. */
  lemma OnePass(t: Transformer, chunks: seq<Chunk>)
    requires |chunks| > 0 && chunks[|chunks| - 1].last
    requires forall k :: 0 <= k < |chunks| - 1 ==> !chunks[k].last
    ensures Run(t, chunks) == Transform(t, Source(chunks), true)
  {
    var n := |chunks|;
    var c := chunks[n - 1];
    if n == 1 {
      assert chunks[..0] == [];
      assert Source(chunks) == c.bytes;
      var x := Transform(t, c.bytes, true);
      assert Run(t, chunks) == ([] + x.0, x.1);
      assert [] + x.0 == x.0;
    } else {
      var p := chunks[..n - 1];
      RunNotLast(t, p);
      TransformSplit(t, Source(p), c.bytes, true);
    }
  }

  // ---------------------------------------------------------------------
  // The builder with `transform_len` as written.

  /** `feed` as the engine runs it, with `transform_len` as written. It moves
      to the same transformer and source position as `Feed`, advances the
      output position by the length as written, and appends the mapping of
      the saved state, the chunk's source range and that output range. It
      records the same output position exactly when the as-written length is
      the length `transform` emits, and then it is `Feed`. */
  function FeedAsWritten(b: Builder, chunk: seq<byte>, last: bool): (r: Builder)
    ensures r.transform == Feed(b, chunk, last).transform
    ensures r.srcPos == b.srcPos + |chunk|
    ensures |r.mappings| == |b.mappings| + 1 && r.mappings[..|b.mappings|] == b.mappings
    ensures r.dstPos == b.dstPos + TransformLenAsWritten(b.transform, chunk, last).0
    ensures r.mappings[|b.mappings|] == ChunkMapping(StateOf(b.transform), b.srcPos, r.srcPos, b.dstPos, r.dstPos)
    ensures r.dstPos == Feed(b, chunk, last).dstPos
      <==> TransformLenAsWritten(b.transform, chunk, last).0 == |Transform(b.transform, chunk, last).0|
    ensures r.dstPos == Feed(b, chunk, last).dstPos ==> r == Feed(b, chunk, last)
  {
    var state := StateOf(b.transform);
    var x := TransformLenAsWritten(b.transform, chunk, last);
    var srcPos := b.srcPos + |chunk|;
    var dstPos := b.dstPos + x.0;
    Builder(x.1, srcPos, dstPos, b.mappings + [ChunkMapping(state, b.srcPos, srcPos, b.dstPos, dstPos)])
  }

  /** Feeding a whole sequence of chunks with `feed` as written. */
  function FeedAllAsWritten(t: Transformer, chunks: seq<Chunk>): Builder
  {
    if |chunks| == 0 then NewBuilder(t)
    else
      var c := chunks[|chunks| - 1];
      FeedAsWritten(FeedAllAsWritten(t, chunks[..|chunks| - 1]), c.bytes, c.last)
  }

  /** Feeding one more chunk, as written. */
  lemma FeedAllAsWrittenStep(t: Transformer, chunks: seq<Chunk>, k: nat)
    requires k < |chunks|
    ensures FeedAllAsWritten(t, chunks[..k + 1])
      == FeedAsWritten(FeedAllAsWritten(t, chunks[..k]), chunks[k].bytes, chunks[k].last)
  {
    assert chunks[..k + 1][..k] == chunks[..k];
  }

  /** Every chunk of the run gets from `transform_len` as written the length
      `transform` emits for it. */
  predicate LensHonest(t: Transformer, chunks: seq<Chunk>)
  {
    |chunks| == 0 ||
      var c := chunks[|chunks| - 1];
      var u := Run(t, chunks[..|chunks| - 1]).1;
      && LensHonest(t, chunks[..|chunks| - 1])
      && TransformLenAsWritten(u, c.bytes, c.last).0 == |Transform(u, c.bytes, c.last).0|
  }

  /** As written, the builder still follows the run's transformer and source
      position, with one mapping per chunk. */
  lemma {:induction false} AsWrittenTotals(t: Transformer, chunks: seq<Chunk>)
    ensures var b := FeedAllAsWritten(t, chunks);
      && b.transform == Run(t, chunks).1
      && b.srcPos == |Source(chunks)|
      && |b.mappings| == |chunks|
    decreases |chunks|
  {
    if |chunks| > 0 {
      var p := chunks[..|chunks| - 1];
      AsWrittenTotals(t, p);
      FeedAllTotals(t, p);
    }
  }

  /** One `feed` as written keeps the table contiguous: the new mapping
      starts where the table ended, whatever length it is given. */
  lemma FeedAsWrittenContiguous(b: Builder, chunk: seq<byte>, last: bool)
    requires Contiguous(Build(b))
    ensures Contiguous(Build(FeedAsWritten(b, chunk, last)))
  {
    var r := FeedAsWritten(b, chunk, last);
    var ms, rs, n := b.mappings, r.mappings, |b.mappings|;
    assert rs[..n] == ms;
    forall k | 0 <= k <= n
      ensures rs[k].srcStart <= rs[k].srcEnd && rs[k].dstStart <= rs[k].dstEnd
    {
      if k < n {
        assert rs[k] == rs[..n][k];
      }
    }
    forall k | 0 <= k < n
      ensures rs[k].srcEnd == rs[k + 1].srcStart && rs[k].dstEnd == rs[k + 1].dstStart
    {
      assert rs[k] == ms[k];
      if k + 1 < n {
        assert rs[k + 1] == ms[k + 1];
      }
    }
    if n > 0 {
      assert rs[0] == ms[0];
    }
  }

  /** The engine's table is contiguous from 0 in both coordinates, whatever
      `transform_len` reports, so `calc_input_range` never panics on it. */
  lemma {:induction false} BuiltAsWrittenIsContiguous(t: Transformer, chunks: seq<Chunk>)
    ensures Contiguous(Build(FeedAllAsWritten(t, chunks)))
    decreases |chunks|
  {
    if |chunks| > 0 {
      var p, c := chunks[..|chunks| - 1], chunks[|chunks| - 1];
      BuiltAsWrittenIsContiguous(t, p);
      FeedAsWrittenContiguous(FeedAllAsWritten(t, p), c.bytes, c.last);
    }
  }

  /** Hence, on the engine's table and for any transformer, safe or not,
      `calc_input_range` never panics and picks a source range inside the
      input. */
  lemma AsWrittenRangeInInput(t: Transformer, chunks: seq<Chunk>, rs: nat, re: nat)
    ensures var d := Build(FeedAllAsWritten(t, chunks));
      var r := CalcInputRange(d, rs, re);
      r.Some? && r.value.0 <= r.value.1 <= d.inputSize
  {
    var d := Build(FeedAllAsWritten(t, chunks));
    BuiltAsWrittenIsContiguous(t, chunks);
    if !EmptyRequest(d, rs, re) {
      var i, j := LocateRequest(d, rs, re);
    }
  }

  /** The builder as written records the same table as the corrected one
      exactly when every chunk's length is honest. */
  lemma {:induction false} AsWrittenTableAgrees(t: Transformer, chunks: seq<Chunk>)
    ensures FeedAllAsWritten(t, chunks) == FeedAll(t, chunks) <==> LensHonest(t, chunks)
    decreases |chunks|
  {
    var n := |chunks|;
    if n > 0 {
      var p, c := chunks[..n - 1], chunks[n - 1];
      AsWrittenTableAgrees(t, p);
      AsWrittenTotals(t, p);
      FeedAllTotals(t, p);
      var ba, bf := FeedAllAsWritten(t, p), FeedAll(t, p);
      var ra, rf := FeedAsWritten(ba, c.bytes, c.last), Feed(bf, c.bytes, c.last);
      if ra == rf {
        assert ra.mappings[n - 1].dstStart == rf.mappings[n - 1].dstStart;
        assert ba.mappings == ra.mappings[..n - 1];
        assert ba == bf;
      }
      if LensHonest(t, chunks) {
        assert ba == bf;
      }
    }
  }

  /** A safe transformer fed non-empty chunks gets honest lengths throughout:
      every state the run passes through is safe, and a non-empty chunk never
      reaches a `WrapLines` empty. */
  lemma {:induction false} SafeChunksHonest(t: Transformer, chunks: seq<Chunk>)
    requires Safe(t)
    requires forall k :: 0 <= k < |chunks| ==> |chunks[k].bytes| > 0
    ensures LensHonest(t, chunks)
    decreases |chunks|
  {
    var n := |chunks|;
    if n > 0 {
      var p, c := chunks[..n - 1], chunks[n - 1];
      SafeChunksHonest(t, p);
      var u := Run(t, p).1;
      RunKeepsConfig(t, p);
      SafeByConfig(t);
      SafeByConfig(u);
      SafeLenHonest(u, c.bytes, c.last);
    }
  }

  /** The decoder theorem for the builder as written: when every chunk's
      length is honest, every request decodes to its range of the streamed
      output. */
  lemma DecodeMatchesStreamAsWritten(t: Transformer, chunks: seq<Chunk>, rs: nat, re: nat)
    requires LastFlagsConsistent(chunks) && LensHonest(t, chunks)
    ensures var d := Build(FeedAllAsWritten(t, chunks));
      var r := CalcInputRange(d, rs, re);
      && d.outputSize == |Run(t, chunks).0|
      && r.Some? && r.value.0 <= r.value.1 <= |Source(chunks)|
      && DecodeRange(d, Source(chunks)[r.value.0..r.value.1], r.value.0, rs, re)
         == Some(Clamp(Run(t, chunks).0, rs, re))
  {
    AsWrittenTableAgrees(t, chunks);
    FeedAllTotals(t, chunks);
    DecodeMatchesStream(t, chunks, rs, re);
  }

  /** As written, the decoder can come out shorter than the stream: behind
      `RemoveLinebreaks`, a last chunk "\n" reaches `WrapLines` empty while
      a line is open. The stream is "[a]", the recorded output size 2, so
      the closing "]" lies past the end of every read. */
  lemma AsWrittenDecoderDropsSuffix()
    ensures var t := Pair(NoBreaks, Lines(WL.New([91], [93])));
      var chunks := [Chunk([97], false), Chunk([LF], true)];
      && LastFlagsConsistent(chunks)
      && Run(t, chunks).0 == [91, 97, 93]
      && Build(FeedAllAsWritten(t, chunks)).outputSize == 2
      && Build(FeedAll(t, chunks)).outputSize == 3
      && !LensHonest(t, chunks)
  {
    var t := Pair(NoBreaks, Lines(WL.New([91], [93])));
    var chunks := [Chunk([97], false), Chunk([LF], true)];
    ShortRun();
    AsWrittenTableIs();
    FeedAllTotals(t, chunks);
    AsWrittenTableAgrees(t, chunks);
  }

  /** The two steps of that stream: "a" opens a line, "[a"; the last chunk
      "\n" reaches the wrapper empty and closes it, "]". As written, the
      lengths are 2 and 0. */
  lemma ShortSteps()
    ensures var t := Pair(NoBreaks, Lines(WL.New([91], [93])));
      var u := Pair(NoBreaks, Lines(WL.WrapLines([91], [93], false)));
      && Transform(t, [97], false) == ([91, 97], u)
      && Transform(u, [LF], true) == ([93], u)
      && TransformLenAsWritten(t, [97], false).0 == 2
      && TransformLenAsWritten(u, [LF], true).0 == 0
  {
    assert RL.Transform([97], false) == [97] by { RL.TransformIdentityOnText([97], false); }
    assert RL.Transform([LF], true) == [] by { RL.TransformIdentityOnText([LF], true); }
    WL.OpenLine();
    WL.EmptyLastChunkMismatch();
  }

  /** The stream "a", "\n" streams to "[a]"; its flags are consistent. */
  lemma ShortRun()
    ensures var t := Pair(NoBreaks, Lines(WL.New([91], [93])));
      var chunks := [Chunk([97], false), Chunk([LF], true)];
      && LastFlagsConsistent(chunks)
      && Run(t, chunks).0 == [91, 97, 93]
  {
    var t := Pair(NoBreaks, Lines(WL.New([91], [93])));
    var chunks := [Chunk([97], false), Chunk([LF], true)];
    ShortSteps();
    assert chunks[..0] == [] && chunks[..2] == chunks;
    RunStep(t, chunks, 0);
    RunStep(t, chunks, 1);
    var e, a: seq<byte> := [], [91, 97];
    assert e + a == a && a + [93] == [91, 97, 93];
    assert |Source(chunks[..1])| == 1 && |Source(chunks)| == 2;
  }

  /** ... and a read of the whole stream, `0..3`, fetches only the first
      chunk and returns "[a" without its "]". */
  lemma AsWrittenReadDropsSuffix()
    ensures var t := Pair(NoBreaks, Lines(WL.New([91], [93])));
      var d := Build(FeedAllAsWritten(t, [Chunk([97], false), Chunk([LF], true)]));
      && CalcInputRange(d, 0, 3) == Some((0, 1))
      && DecodeRange(d, [97], 0, 0, 3) == Some([91, 97])
  {
    AsWrittenTableIs();
    ShortTableRange();
    ShortTableDecode();
  }

  /** The builder as written records `ShortTable` for that stream. */
  lemma AsWrittenTableIs()
    ensures var t := Pair(NoBreaks, Lines(WL.New([91], [93])));
      Build(FeedAllAsWritten(t, [Chunk([97], false), Chunk([LF], true)])) == ShortTable()
  {
    var t := Pair(NoBreaks, Lines(WL.New([91], [93])));
    var chunks := [Chunk([97], false), Chunk([LF], true)];
    assert chunks[..0] == [] && chunks[..2] == chunks;
    FeedAllAsWrittenStep(t, chunks, 0);
    FeedAllAsWrittenStep(t, chunks, 1);
    ShortFeedFirst();
    ShortFeedSecond();
  }

  /** The first `feed` as written: "a" opens a line, 2 bytes. */
  lemma ShortFeedFirst()
    ensures var t := Pair(NoBreaks, Lines(WL.New([91], [93])));
      var u := Pair(NoBreaks, Lines(WL.WrapLines([91], [93], false)));
      FeedAsWritten(NewBuilder(t), [97], false)
      == Builder(u, 1, 2, [ChunkMapping(PairState(NoBreaksState, LinesState(true)), 0, 1, 0, 2)])
  {
    ShortSteps();
    var m0 := ChunkMapping(PairState(NoBreaksState, LinesState(true)), 0, 1, 0, 2);
    var ms: seq<ChunkMapping> := [];
    assert ms + [m0] == [m0];
  }

  /** The second `feed` as written: "\n" counted as 0 bytes. */
  lemma ShortFeedSecond()
    ensures var u := Pair(NoBreaks, Lines(WL.WrapLines([91], [93], false)));
      var m0 := ChunkMapping(PairState(NoBreaksState, LinesState(true)), 0, 1, 0, 2);
      var m1 := ChunkMapping(PairState(NoBreaksState, LinesState(false)), 1, 2, 2, 2);
      FeedAsWritten(Builder(u, 1, 2, [m0]), [LF], true) == Builder(u, 2, 2, [m0, m1])
  {
    ShortSteps();
    var m0 := ChunkMapping(PairState(NoBreaksState, LinesState(true)), 0, 1, 0, 2);
    var m1 := ChunkMapping(PairState(NoBreaksState, LinesState(false)), 1, 2, 2, 2);
    assert [m0] + [m1] == [m0, m1];
  }

  /** The table the builder as written records for the stream "a", "\n". */
  function ShortTable(): Decoder
  {
    Decoder(Pair(NoBreaks, Lines(WL.WrapLines([91], [93], false))), 2, 2, [
      ChunkMapping(PairState(NoBreaksState, LinesState(true)), 0, 1, 0, 2),
      ChunkMapping(PairState(NoBreaksState, LinesState(false)), 1, 2, 2, 2)])
  }

  /** Reading `0..3` from that table: the clamped end is 2, inside the first
      chunk, so only the first chunk's source is fetched ... */
  lemma ShortTableRange()
    ensures CalcInputRange(ShortTable(), 0, 3) == Some((0, 1))
  {
    var d := ShortTable();
    assert HoldsStart(0)(d.mappings[0]) && HoldsEnd(2)(d.mappings[0]);
    assert FindFirst(d.mappings, HoldsStart(0)) == Some(0);
    assert FindFirst(d.mappings, HoldsEnd(2)) == Some(0);
  }

  /** ... and only its output "[a" comes back. */
  lemma ShortTableDecode()
    ensures DecodeRange(ShortTable(), [97], 0, 0, 3) == Some([91, 97])
  {
    var d := ShortTable();
    var t := Pair(NoBreaks, Lines(WL.New([91], [93])));
    assert WithState(d.transform, d.mappings[0].state) == t;
    var x := Transform(t, [97], false);
    assert x.0 == [91, 97] by {
      assert RL.Transform([97], false) == [97] by { RL.TransformIdentityOnText([97], false); }
      WL.OpenLine();
    }
    assert EndsAfter(0)(d.mappings[0]);
    assert SkipIndex(d.mappings, 0) == 0;
    assert [97][0..1] == [97];
    assert DecodeChunks(d, Transform, [97], 0, 0, 3, 2, 1, Some(x.1)) == Some([]);
    assert x.0[0..|x.0| - 0] == [91, 97];
    assert DecodeChunks(d, Transform, [97], 0, 0, 3, 2, 0, None) == Some([91, 97] + []);
    assert ClampEnd(d, 3) == 2;
    assert DecodeRange(d, [97], 0, 0, 3) == DecodeChunks(d, Transform, [97], 0, 0, 3, 2, SkipIndex(d.mappings, 0), None);
    var r: seq<byte> := [91, 97];
    assert r + [] == r;
  }
}

=== FILE: common.dfy ===
/** Small shared vocabulary: optional values, bytes, and the unsigned
    integer helpers the Rust engine leans on (saturating subtraction, min). */
module Common {

  /** A value that may be absent. For the engine, `None` also stands for a
      panic (a failed lookup, an out-of-bounds slice, an unsigned underflow). */
  datatype Option<+T> = None | Some(value: T)

  /** A byte of a file or of a transformed stream. */
  type byte = bv8

  /** Line feed, `b'\n'`. */
  const LF: byte := 10
  /** Carriage return, `b'\r'`. */
  const CR: byte := 13

  function Min(a: int, b: int): int { if a <= b then a else b }
  function Max(a: int, b: int): int { if a <= b then b else a }

  /** Rust's `u64::saturating_sub` / `usize::saturating_sub` on naturals. */
  function SatSub(a: nat, b: nat): (r: nat)
    ensures a <= b ==> r == 0
    ensures b <= a ==> r + b == a
  {
    if a <= b then 0 else a - b
  }

  /** Multiplying by a positive factor preserves strict order, both ways. */
  lemma MulLess(x: int, y: int, d: int)
    requires d > 0
    ensures x < y <==> x * d < y * d
  {
  }

  /** A slice of a slice is a slice of the original. */
  lemma SliceOfSlice<T>(w: seq<T>, lo: nat, hi: nat, a: nat, b: nat)
    requires lo <= hi <= |w| && a <= b <= hi - lo
    ensures w[lo..hi][a..b] == w[lo + a..lo + b]
  {
    var x := w[lo..hi];
    forall i | 0 <= i < b - a
      ensures x[a..b][i] == w[lo + a..lo + b][i]
    {
      assert x[a..b][i] == x[a + i] == w[lo + a + i];
    }
  }

  /** Adjacent slices join. */
  lemma SliceJoin<T>(w: seq<T>, a: nat, b: nat, c: nat)
    requires a <= b <= c <= |w|
    ensures w[a..b] + w[b..c] == w[a..c]
  {
    assert forall i :: 0 <= i < c - a ==> (w[a..b] + w[b..c])[i] == w[a + i];
  }

  /** Concatenation regroups freely. */
  lemma Regroup<T>(a: seq<T>, b: seq<T>, c: seq<T>)
    ensures a + (b + c) == (a + b) + c
  {
  }

  /** Elements `a..b` of `w`, clamped to its length; nothing when the
      clamped range is empty. Reading a range of a stream, or of a record
      set's rows, promises this. */
  function Clamp<T>(w: seq<T>, a: nat, b: int): (r: seq<T>)
    ensures |r| == if Min(b, |w|) <= a then 0 else Min(b, |w|) - a
  {
    if Min(b, |w|) <= a then [] else w[a..Min(b, |w|)]
  }

  /** Clamping to `0..n` keeps all of `w` exactly when `w` fits in `n`. */
  lemma ClampWhole<T>(w: seq<T>, n: nat)
    ensures Clamp(w, 0, n) == w <==> |w| <= n
  {
    if |w| <= n {
      assert w[0..|w|] == w;
    }
  }

  /** Flattening of a sequence of byte strings, in order. */
  function Concat(xs: seq<seq<byte>>): (r: seq<byte>)
  {
    if |xs| == 0 then [] else Concat(xs[..|xs| - 1]) + xs[|xs| - 1]
  }

  lemma {:induction false} ConcatAppend(xs: seq<seq<byte>>, ys: seq<seq<byte>>)
    ensures Concat(xs + ys) == Concat(xs) + Concat(ys)
    decreases |ys|
  {
    if |ys| == 0 {
      assert xs + ys == xs;
    } else {
      var ys' := ys[..|ys| - 1];
      assert (xs + ys)[..|xs + ys| - 1] == xs + ys';
      ConcatAppend(xs, ys');
    }
  }
}

=== FILE: file_source.dfy ===
/** File sources: an in-memory byte vector, and the transformed view of a
    source that streams it once through a chunked decoder builder and then
    serves any output range by decoding just the chunks that cover it. */
module FileSource {
  import opened Common
  import opened ByteTransform
  import CR = ChunkRanges
  import opened Chunked

  /** The chunk size `TransformedFileSource::new` streams with: 32 KiB. */
  const ChunkSize: nat := 32 * 1024

  /** `read` on a `Vec<u8>`: bytes `lo..hi`. Slicing past the end, or with
      `lo > hi`, panics (`None`). */
  function VecRead(file: seq<byte>, lo: nat, hi: nat): (r: Option<seq<byte>>)
    ensures r.Some? <==> lo <= hi <= |file|
    ensures r.Some? ==> |r.value| == hi - lo && forall i :: 0 <= i < |r.value| ==> r.value[i] == file[lo + i]
  {
    if lo <= hi <= |file| then Some(file[lo..hi]) else None
  }

  /** The chunks `new` reads: one per range of `chunk_ranges(size, 32 KiB)`,
      with that range's bytes and `last` flag. */
  function FileChunks(file: seq<byte>): (cs: seq<Chunk>)
    ensures |cs| == |CR.Ranges(|file|, ChunkSize)|
    ensures forall k :: 0 <= k < |cs| ==> |cs[k].bytes| > 0
  {
    var r := CR.Ranges(|file|, ChunkSize);
    seq(|r|, (k: int) requires 0 <= k < |r| => Chunk(file[r[k].start..r[k].end], r[k].last))
  }

  /** `TransformedFileSource`: the underlying file and its decoder. */
  datatype TransformedSource = TransformedSource(file: seq<byte>, decoder: Decoder)

  /** The transformed source `new` produces, as a function, with every
      chunk's output length counted right: the decoder built by feeding the
      file's chunks in order. It spans the whole file, with one mapping per
      chunk, and its output size is the length of the streamed output. */
  function Open(t: Transformer, file: seq<byte>): (r: TransformedSource)
    ensures r.file == file && r.decoder.inputSize == |file|
    ensures |r.decoder.mappings| == |FileChunks(file)|
    ensures r.decoder.outputSize == |Run(t, FileChunks(file)).0|
  {
    FeedAllTotals(t, FileChunks(file));
    FileChunksFacts(file);
    TransformedSource(file, Build(FeedAll(t, FileChunks(file))))
  }

  /** The transformed source `new` produces as written, with `transform_len`
      as written. For a safe transformer it is `Open`. */
  function OpenAsWritten(t: Transformer, file: seq<byte>): (r: TransformedSource)
    ensures r.file == file && r.decoder.inputSize == |file|
    ensures Safe(t) ==> r == Open(t, file)
  {
    var cs := FileChunks(file);
    AsWrittenTotals(t, cs);
    FileChunksFacts(file);
    if Safe(t) then
      SafeChunksHonest(t, cs);
      AsWrittenTableAgrees(t, cs);
      TransformedSource(file, Build(FeedAllAsWritten(t, cs)))
    else
      TransformedSource(file, Build(FeedAllAsWritten(t, cs)))
  }

  /** `TransformedFileSource::new`: read every 32 KiB range of the file in
      order and feed it, with its `last` flag, to a builder started from `t`. */
  method NewTransformed(file: seq<byte>, t: Transformer) returns (s: TransformedSource)
    ensures s == OpenAsWritten(t, file)
    ensures Safe(t) ==> s == Open(t, file)
  {
    var ranges := CR.Ranges(|file|, ChunkSize);
    ghost var cs := FileChunks(file);
    var b := NewBuilder(t);
    var k := 0;
    while k < |ranges|
      invariant 0 <= k <= |ranges|
      invariant b == FeedAllAsWritten(t, cs[..k])
    {
      var r := ranges[k];
      var bytes := VecRead(file, r.start, r.end);
      assert bytes.value == cs[k].bytes && r.last == cs[k].last;
      FeedAllAsWrittenStep(t, cs, k);
      b := FeedAsWritten(b, bytes.value, r.last);
      k := k + 1;
    }
    assert cs[..k] == cs;
    s := TransformedSource(file, Build(b));
  }

  /** `size` of a transformed source: the decoder's output size. */
  function Size(s: TransformedSource): nat
  {
    s.decoder.outputSize
  }

  /** `read` of a transformed source: ask the decoder which source range the
      output range needs, read it from the file, and decode. */
  function Read(s: TransformedSource, rs: nat, re: nat): (r: Option<seq<byte>>)
    ensures EmptyRequest(s.decoder, rs, re) ==> r == Some([])
  {
    match CalcInputRange(s.decoder, rs, re)
    case None => None
    case Some(range) =>
      match VecRead(s.file, range.0, range.1)
      case None => None
      case Some(src) => DecodeRange(s.decoder, src, range.0, rs, re)
  }

  /** Where the first `k` chunks end in the file. */
  function EndOf(file: seq<byte>, k: nat): nat
    requires k <= |CR.Ranges(|file|, ChunkSize)|
  {
    if k == 0 then 0 else CR.Ranges(|file|, ChunkSize)[k - 1].end
  }

  /** The first `k` chunks hold the file up to where the `k`-th ends. */
  lemma {:induction false} ChunksHoldPrefix(file: seq<byte>, k: nat)
    requires k <= |FileChunks(file)|
    ensures EndOf(file, k) <= |file| && Source(FileChunks(file)[..k]) == file[..EndOf(file, k)]
    decreases k
  {
    var cs := FileChunks(file);
    if k == 0 {
      assert cs[..0] == [];
    } else {
      var r := CR.Ranges(|file|, ChunkSize);
      var s, e := r[k - 1].start, r[k - 1].end;
      ChunksHoldPrefix(file, k - 1);
      assert s == EndOf(file, k - 1);
      assert cs[..k][..k - 1] == cs[..k - 1];
      assert Source(cs[..k]) == Source(cs[..k - 1]) + cs[k - 1].bytes;
      assert cs[k - 1].bytes == file[s..e];
      SliceJoin(file, 0, s, e);
    }
  }

  /** The file's chunks cover it exactly, in order; each is flagged `last`
      exactly when it reaches the end of the file, which for a non-empty file
      is the final chunk only. */
  lemma FileChunksFacts(file: seq<byte>)
    ensures var cs := FileChunks(file);
      && Source(cs) == file
      && LastFlagsConsistent(cs)
      && (|file| == 0 <==> |cs| == 0)
      && (|cs| > 0 ==> cs[|cs| - 1].last && forall k :: 0 <= k < |cs| - 1 ==> !cs[k].last)
  {
    var cs := FileChunks(file);
    FileChunksSource(file);
    FileChunksFlags(file);
    CR.LastOnlyAtEnd(|file|, ChunkSize);
  }

  /** The chunks concatenate back to the file. */
  lemma FileChunksSource(file: seq<byte>)
    ensures Source(FileChunks(file)) == file
  {
    var cs := FileChunks(file);
    ChunksHoldPrefix(file, |cs|);
    assert cs[..|cs|] == cs;
    assert file[..|file|] == file;
  }

  /** A chunk is flagged `last` exactly when it reaches the end of the file. */
  lemma FileChunksFlags(file: seq<byte>)
    ensures LastFlagsConsistent(FileChunks(file))
  {
    var cs := FileChunks(file);
    FileChunksSource(file);
    forall k | 0 <= k < |cs|
      ensures cs[k].last <==> |Source(cs[..k + 1])| >= |Source(cs)|
    {
      ChunksHoldPrefix(file, k + 1);
    }
  }

  /** End to end: for a non-empty file, the transformed source has the size
      of the whole file transformed in one last call, and reading any range
      returns that range of it, clamped to its length. */
  lemma ReadMatchesOnePass(t: Transformer, file: seq<byte>, rs: nat, re: nat)
    requires |file| > 0
    ensures Size(Open(t, file)) == |Transform(t, file, true).0|
    ensures Read(Open(t, file), rs, re) == Some(Clamp(Transform(t, file, true).0, rs, re))
  {
    var cs := FileChunks(file);
    ReadMatchesStream(t, file, rs, re);
    FileChunksFacts(file);
    OnePass(t, cs);
  }

  /** As written, for a safe transformer the same holds: the engine's own
      source of a non-empty file reads as the one-pass transform. */
  lemma ReadAsWrittenMatchesOnePass(t: Transformer, file: seq<byte>, rs: nat, re: nat)
    requires Safe(t) && |file| > 0
    ensures Size(OpenAsWritten(t, file)) == |Transform(t, file, true).0|
    ensures Read(OpenAsWritten(t, file), rs, re) == Some(Clamp(Transform(t, file, true).0, rs, re))
  {
    ReadMatchesOnePass(t, file, rs, re);
  }

  /** Reading a transformed source returns the requested range of the
      stream its chunks produce, and its size is that stream's length. */
  lemma ReadMatchesStream(t: Transformer, file: seq<byte>, rs: nat, re: nat)
    ensures Size(Open(t, file)) == |Run(t, FileChunks(file)).0|
    ensures Read(Open(t, file), rs, re) == Some(Clamp(Run(t, FileChunks(file)).0, rs, re))
  {
    var cs := FileChunks(file);
    FileChunksFacts(file);
    BuiltFacts(t, cs);
    DecodeMatchesStream(t, cs, rs, re);
  }

  /** An empty file has no chunks, so its transformed view is empty and every
      read returns nothing, whatever the transform would emit for empty input. */
  lemma EmptyFileIsEmpty(t: Transformer, rs: nat, re: nat)
    ensures Size(Open(t, [])) == 0
    ensures Read(Open(t, []), rs, re) == Some([])
  {
    FileChunksFacts([]);
  }

  /** For instance, a file wrapper around an empty file emits neither its
      prefix nor its suffix, though one last call over the empty input would. */
  lemma EmptyFileSkipsAffixes()
    ensures var t := File(WF.New([91], [93]));
      Size(Open(t, [])) == 0 && Transform(t, [], true).0 == [91, 93]
  {
    EmptyFileIsEmpty(File(WF.New([91], [93])), 0, 0);
  }
}

=== FILE: object_store.dfy ===
/** The in-browser object store's path handling: a path names a file by its
    index in the store's file list, as the decimal number before the first
    `.` of its first segment; any extension is ignored. A read with no range
    option covers the whole file. */
module ObjectStore {
  import opened Common
  import BT = ByteTransform
  import WF = WrapFile
  import Chunked
  import FS = FileSource

  /** The outcome of resolving a path: the file, or the store's one error,
      "Invalid path". */
  datatype Resolved<F> = Found(file: F) | InvalidPath

  /** `usize::MAX` on the 32-bit WebAssembly target the engine is built for. */
  const UsizeMax: nat := 0xFFFF_FFFF

  /** The text of `s` before the first `c`: what `s.split(c).next()` yields
      (there always is a first piece, possibly empty). It is the longest
      prefix without the separator: a prefix, free of `c`, and followed by
      `c` unless it is the whole string. */
  function Before(s: string, c: char): (r: string)
    ensures |r| <= |s| && r == s[..|r|]
    ensures c !in r
    ensures |r| < |s| ==> s[|r|] == c
    decreases |s|
  {
    if |s| == 0 || s[0] == c then []
    else [s[0]] + Before(s[1..], c)
  }

  predicate IsDigit(ch: char) { '0' <= ch <= '9' }

  predicate AllDigits(s: string) { forall i :: 0 <= i < |s| ==> IsDigit(s[i]) }

  /** The value of a string of decimal digits. */
  function DigitsValue(s: string): nat
    requires AllDigits(s)
  {
    if |s| == 0 then 0 else DigitsValue(s[..|s| - 1]) * 10 + (s[|s| - 1] as int - '0' as int)
  }

  /** `str::parse::<usize>()`: an optional `+`, then one or more decimal
      digits, whose value must not exceed `usize::MAX`. */
  function ParseUsize(s: string): (r: Option<nat>)
    ensures r.Some? ==> r.value <= UsizeMax
    ensures r.Some? ==> |s| > 0 && (IsDigit(s[0]) || (s[0] == '+' && |s| > 1))
  {
    var digits := if |s| > 0 && s[0] == '+' then s[1..] else s;
    if |digits| == 0 || !AllDigits(digits) then None
    else
      var v := DigitsValue(digits);
      if v > UsizeMax then None else Some(v)
  }

  /** The first segment of a path: the text before its first `/`; an empty
      path has none. */
  function FirstSegment(path: string): (r: Option<string>)
    ensures r.None? <==> |path| == 0
  {
    if |path| == 0 then None else Some(Before(path, '/'))
  }

  /** `parse_url`: the file whose index is the number before the first `.`
      of the path's first segment. A missing segment, a stem that is not a
      `usize`, or an index past the end of the list is "Invalid path". */
  function ParseUrl<F>(path: string, files: seq<F>): (r: Resolved<F>)
    ensures r.Found? <==>
      && FirstSegment(path).Some?
      && var idx := ParseUsize(Before(FirstSegment(path).value, '.'));
         idx.Some? && idx.value < |files|
    ensures r.Found? ==> r.file == files[ParseUsize(Before(FirstSegment(path).value, '.')).value]
  {
    match FirstSegment(path)
    case None => InvalidPath
    case Some(segment) =>
      match ParseUsize(Before(segment, '.'))
      case None => InvalidPath
      case Some(idx) => if idx < |files| then Found(files[idx]) else InvalidPath
  }

  /** The decimal digits of `n`, without leading zeros. */
  function Decimal(n: nat): (s: string)
    ensures |s| > 0 && AllDigits(s)
  {
    var d := [(n % 10 + '0' as int) as char];
    if n < 10 then d else Decimal(n / 10) + d
  }

  /** Parsing reads back the number written in decimal. */
  lemma {:induction false} DecimalValue(n: nat)
    ensures DigitsValue(Decimal(n)) == n
  {
    var s := Decimal(n);
    if n >= 10 {
      DecimalValue(n / 10);
      assert s[..|s| - 1] == Decimal(n / 10);
    }
  }

  /** Round trip: every index up to `usize::MAX`, written in decimal (with or
      without a leading `+`), parses back to itself; a larger one is rejected. */
  lemma ParseDecimal(n: nat)
    ensures n <= UsizeMax ==> ParseUsize(Decimal(n)) == Some(n) && ParseUsize("+" + Decimal(n)) == Some(n)
    ensures n > UsizeMax ==> ParseUsize(Decimal(n)) == None
  {
    DecimalValue(n);
    assert ("+" + Decimal(n))[1..] == Decimal(n);
  }

  /** No decimal digit is a `.` or a `/`. */
  lemma DecimalStem(n: nat, rest: string)
    ensures Before(Decimal(n) + rest, '/') == Decimal(n) + Before(rest, '/')
    ensures Before(Decimal(n) + rest, '.') == Decimal(n) + Before(rest, '.')
  {
    BeforeDigits(Decimal(n), rest, '/');
    BeforeDigits(Decimal(n), rest, '.');
  }

  /** `Before` passes over a run of digits when the separator is not a digit. */
  lemma {:induction false} BeforeDigits(d: string, rest: string, c: char)
    requires !IsDigit(c) && AllDigits(d)
    ensures Before(d + rest, c) == d + Before(rest, c)
    decreases |d|
  {
    if |d| > 0 {
      var x, d' := d[0], d[1..];
      assert IsDigit(x) && x != c && AllDigits(d');
      BeforeDigits(d', rest, c);
      assert d + rest == [x] + (d' + rest);
      BeforeCons(x, d' + rest, c);
      assert Before(d + rest, c) == [x] + (d' + Before(rest, c));
      assert [x] + (d' + Before(rest, c)) == d + Before(rest, c);
    } else {
      assert d + rest == rest && d + Before(rest, c) == Before(rest, c);
    }
  }

  /** A character other than the separator is kept. */
  lemma BeforeCons(x: char, s: string, c: char)
    requires x != c
    ensures Before([x] + s, c) == [x] + Before(s, c)
  {
    assert ([x] + s)[1..] == s;
  }

  /** A string starting with the separator has nothing before it. */
  lemma BeforeSeparator(s: string, c: char)
    requires |s| > 0 && s[0] == c
    ensures Before(s, c) == []
  {
  }

  /** A path whose first segment is `<n>.<extension>` resolves to file `n`
      whatever the extension, when `n` is a `usize` and an index of the
      list, and is invalid otherwise. */
  lemma ExtensionIgnored<F>(n: nat, ext: string, files: seq<F>)
    ensures ParseUrl(Decimal(n) + "." + ext, files)
      == if n <= UsizeMax && n < |files| then Found(files[n]) else InvalidPath
  {
    var path := Decimal(n) + "." + ext;
    StemOf(n, ext);
    var stem := Before(FirstSegment(path).value, '.');
    assert stem == Decimal(n);
    ParseDecimal(n);
    assert ParseUsize(stem) == if n <= UsizeMax then Some(n) else None;
  }

  /** The stem of `<n>.<extension>` is the decimal `n`. */
  lemma StemOf(n: nat, ext: string)
    ensures var path := Decimal(n) + "." + ext;
      FirstSegment(path).Some? && Before(FirstSegment(path).value, '.') == Decimal(n)
  {
    var d := Decimal(n);
    var rest := ['.'] + ext;
    assert d + "." + ext == d + rest;
    BeforeDigits(d, rest, '/');
    BeforeCons('.', ext, '/');
    var tail := ['.'] + Before(ext, '/');
    assert Before(d + rest, '/') == d + tail;
    BeforeDigits(d, tail, '.');
    BeforeSeparator(tail, '.');
    assert d + [] == d;
  }

  /** The store's two spellings of file 0: `0.csv` and `0.json` both name
      the first file. */
  lemma ZeroWithAnyExtension<F>(files: seq<F>)
    requires |files| > 0
    ensures ParseUrl("0.csv", files) == Found(files[0])
    ensures ParseUrl("0.json", files) == Found(files[0])
  {
    var csv, json := "0.csv", "0.json";
    assert csv == "0" + "." + "csv" && json == "0" + "." + "json";
    ZeroNamed("csv", files);
    ZeroNamed("json", files);
  }

  /** File 0 under one extension. */
  lemma ZeroNamed<F>(ext: string, files: seq<F>)
    requires |files| > 0
    ensures ParseUrl("0" + "." + ext, files) == Found(files[0])
  {
    ExtensionIgnored(0, ext, files);
    assert Decimal(0) == "0";
  }

  /** An index past the end of the list is an invalid path, and so is one
      too large for `usize` whatever the list. */
  lemma IndexOutOfRange<F>(n: nat, files: seq<F>)
    requires n >= |files| || n > UsizeMax
    ensures ParseUrl(Decimal(n) + ".csv", files) == InvalidPath
  {
    ExtensionIgnored(n, "csv", files);
    assert Decimal(n) + "." + "csv" == Decimal(n) + ".csv";
  }

  /** Paths with no index at all: an empty path, an empty stem, and a lone
      sign. */
  lemma MissingIndexPaths<F>(files: seq<F>)
    ensures ParseUrl("", files) == InvalidPath
    ensures ParseUrl(".csv", files) == InvalidPath
    ensures ParseUrl("+", files) == InvalidPath
  {
    assert Before(".csv", '/') == ".csv" by {
      BeforeCons('.', "csv", '/');
      BeforeCons('c', "sv", '/');
      BeforeCons('s', "v", '/');
      BeforeCons('v', "", '/');
      assert ".csv" == ['.'] + "csv";
      assert "csv" == ['c'] + "sv";
      assert "sv" == ['s'] + "v";
      assert "v" == ['v'] + "";
    }
    BeforeSeparator(".csv", '.');
    assert Before("+", '/') == "+" && Before("+", '.') == "+";
  }

  /** Stems that are not unsigned numbers: a negative number and a word. */
  lemma NonNumericStems<F>(files: seq<F>)
    ensures ParseUrl("-1.csv", files) == InvalidPath
    ensures ParseUrl("x.csv", files) == InvalidPath
  {
    var p := "-1.csv";
    assert !IsDigit(Before(Before(p, '/'), '.')[0]) by {
      assert p == ['-'] + "1.csv";
      BeforeCons('-', "1.csv", '/');
      BeforeCons('-', Before("1.csv", '/'), '.');
    }
    var q := "x.csv";
    assert !IsDigit(Before(Before(q, '/'), '.')[0]) by {
      assert q == ['x'] + ".csv";
      BeforeCons('x', ".csv", '/');
      BeforeCons('x', Before(".csv", '/'), '.');
    }
  }

  // ---------------------------------------------------------------------
  // Files and the read with no range option.

  /** A file of the store. `Bytes` is what `from_bytes` builds: the raw
      bytes and, optionally, a decoder that every read goes through; its
      size is the raw byte count, decoder or not. (`from_file` is sized the
      same way, but reads through `Blob.slice`, which clamps an out-of-range
      request instead of panicking; only in-range reads are stated here.) `Reader` is a
      `FileReader` over a transformed source, sized by that source's `size`,
      the decoder's output size. */
  datatype StoreFile =
    | Bytes(bytes: seq<byte>, decoder: Option<Chunked.Decoder>)
    | Reader(source: FS.TransformedSource)

  /** `size`: the size recorded when the file was made. */
  function Size(f: StoreFile): nat
  {
    match f
    case Bytes(bytes, _) => |bytes|
    case Reader(s) => FS.Size(s)
  }

  /** The file's read loop on `lo..hi`: with a decoder, `calc_input_range`,
      the raw read of that source range and `decode_range`; without one, the
      raw bytes. A `Reader` asks its source. A panic is `None`. */
  function ReadFile(f: StoreFile, lo: nat, hi: nat): Option<seq<byte>>
  {
    match f
    case Bytes(bytes, None) => FS.VecRead(bytes, lo, hi)
    case Bytes(bytes, Some(d)) => FS.Read(FS.TransformedSource(bytes, d), lo, hi)
    case Reader(s) => FS.Read(s, lo, hi)
  }

  /** The range `get_opts` reads when the request carries no range option:
      `0..size`. */
  function DefaultRange(size: nat): (nat, nat)
  {
    (0, size)
  }

  /** `get_opts` with no range option: the file's default range, read. */
  function GetDefault(f: StoreFile): Option<seq<byte>>
  {
    var r := DefaultRange(Size(f));
    ReadFile(f, r.0, r.1)
  }

  /** A file of raw bytes without a decoder reads back whole. */
  lemma PlainFileReadsAll(bytes: seq<byte>)
    ensures GetDefault(Bytes(bytes, None)) == Some(bytes)
  {
    assert bytes[0..|bytes|] == bytes;
  }

  /** A file of raw bytes with the decoder of transform `t` is still sized by
      its raw bytes, so the default read stops there: it returns the
      transformed file cut to the raw length, which is the whole transformed
      file exactly when the transform does not lengthen it. */
  lemma DecodedFileCut(t: BT.Transformer, bytes: seq<byte>)
    requires |bytes| > 0
    ensures var w := BT.Transform(t, bytes, true).0;
      var r := GetDefault(Bytes(bytes, Some(FS.Open(t, bytes).decoder)));
      && r == Some(Clamp(w, 0, |bytes|))
      && (r == Some(w) <==> |w| <= |bytes|)
  {
    var w := BT.Transform(t, bytes, true).0;
    var s := FS.Open(t, bytes);
    assert GetDefault(Bytes(bytes, Some(s.decoder))) == FS.Read(s, 0, |bytes|) by {
      assert FS.TransformedSource(bytes, s.decoder) == s;
    }
    FS.ReadMatchesOnePass(t, bytes, 0, |bytes|);
    ClampWhole(w, |bytes|);
  }

  /** For instance, wrapping "a" in "[" and "]" makes "[a]", but the default
      read of that file, sized 1, returns "[". */
  lemma WrappedFileCut()
    ensures var t := BT.File(WF.New([91], [93]));
      && BT.Transform(t, [97], true).0 == [91, 97, 93]
      && GetDefault(Bytes([97], Some(FS.Open(t, [97]).decoder))) == Some([91])
  {
    var t := BT.File(WF.New([91], [93]));
    DecodedFileCut(t, [97]);
    var w: seq<byte> := [91, 97, 93];
    assert BT.Transform(t, [97], true).0 == w;
    assert w[0..1] == [91];
  }

  /** A `FileReader` over a transformed non-empty file is sized by the
      decoder's output, so its default read returns the whole file
      transformed in one pass; as the engine builds the source, this holds
      for every safe transformer. */
  lemma DefaultRangeReadsAll(t: BT.Transformer, file: seq<byte>)
    requires |file| > 0
    ensures GetDefault(Reader(FS.Open(t, file))) == Some(BT.Transform(t, file, true).0)
    ensures BT.Safe(t) ==> GetDefault(Reader(FS.OpenAsWritten(t, file))) == Some(BT.Transform(t, file, true).0)
  {
    var w := BT.Transform(t, file, true).0;
    var s := FS.Open(t, file);
    FS.ReadMatchesOnePass(t, file, 0, FS.Size(s));
    assert GetDefault(Reader(s)) == FS.Read(s, 0, |w|);
    ClampWhole(w, |w|);
    if BT.Safe(t) {
      assert FS.OpenAsWritten(t, file) == s;
    }
  }
}

=== FILE: page_cache.dfy ===
/** The windowed page cache behind `createRecordSetView`: rows are grouped
    into fixed-size pages, a visible row range plus overscan becomes a
    half-open window of page indices, a viewport update requests the pages
    that entered the window and evicts the resident pages outside it, and
    cell reads are synchronous and may find nothing.

    The reactive effect is an explicit `SetVisibleRange` event that returns
    the fetch requests it issues; each fetch resolution is a separate
    `Complete` event, so completions may arrive in any order or never. */
module PageCache {
  import opened Common

  const DefaultBatchSize: int := 50
  const DefaultOverscan: int := 20

  /** A decoded Arrow table for one page, seen only through
      `table.get(rowIndex)?.[column]`: a row is a record from column names
      to cell values. */
  datatype Page<V> = Page(rows: seq<map<string, V>>)

  datatype Config = Config(batchSize: int, overscan: int, numRows: int)

  /** A configuration the module can work with: pages hold at least one row,
      overscan is not negative, the record set's row count is not negative. */
  predicate ValidConfig(c: Config) {
    c.batchSize > 0 && c.overscan >= 0 && c.numRows >= 0
  }

  /** The view's mutable state: the current page window and the resident pages. */
  datatype View<V> = View(cfg: Config, startPage: int, endPage: int, pages: map<int, Page<V>>)

  /** A call `getRows(startRow, endRow)` issued for page `page`. */
  datatype FetchRequest = FetchRequest(page: int, startRow: int, endRow: int)

  /** What a viewport update leaves behind: the new state and the fetches it started, in issue order. */
  datatype Update<V> = Update(view: View<V>, requests: seq<FetchRequest>)

  /** The options object with its `??` defaults: a missing batch size is 50,
      a missing overscan is 20, and a given value (even 0) is kept. */
  function MakeConfig(batchSize: Option<int>, overscan: Option<int>, numRows: int): (c: Config)
    ensures batchSize.None? ==> c.batchSize == DefaultBatchSize
    ensures overscan.None? ==> c.overscan == DefaultOverscan
    ensures batchSize.Some? ==> c.batchSize == batchSize.value
    ensures overscan.Some? ==> c.overscan == overscan.value
    ensures c.numRows == numRows
  {
    Config(
      if batchSize.Some? then batchSize.value else DefaultBatchSize,
      if overscan.Some? then overscan.value else DefaultOverscan,
      numRows)
  }

  /** The state right after construction: window [0, 0) and no resident page. */
  function Create<V>(cfg: Config): (v: View<V>)
    ensures v.cfg == cfg
    ensures v.startPage == v.endPage == 0
    ensures |v.pages| == 0
  {
    View(cfg, 0, 0, map[])
  }

  /** `Math.ceil(x / b)` for integers and a positive divisor. */
  function CeilDiv(x: int, b: int): (q: int)
    requires b > 0
    ensures (q - 1) * b < x <= q * b
  {
    var q := -((-x) / b);
    assert -x == ((-x) / b) * b + (-x) % b;
    q
  }

  /** Where a row lives: its page index `Math.floor(row / batchSize)` and its
      offset inside that page. The pair is the unique one whose offset lies in
      [0, batchSize) and which recombines to the row. */
  function Locate(row: int, batchSize: int): (loc: (int, int))
    requires batchSize > 0
    ensures 0 <= loc.1 < batchSize
    ensures loc.0 * batchSize + loc.1 == row
  {
    var p := row / batchSize;
    (p, row - p * batchSize)
  }

  /** Any in-page decomposition of a row is the one `Locate` finds. */
  lemma LocateUnique(row: int, batchSize: int, p: int, off: int)
    requires batchSize > 0 && 0 <= off < batchSize && p * batchSize + off == row
    ensures Locate(row, batchSize) == (p, off)
  {
    var loc := Locate(row, batchSize);
    MulLess(loc.0, p + 1, batchSize);
    MulLess(p, loc.0 + 1, batchSize);
  }

  /** `getCellValue`: looks up the row's page, then the row inside the page,
      then the column. Absent when the page is not resident, when the page is
      shorter than the offset, or when the record has no such column. */
  function GetCellValue<V>(v: View<V>, row: int, column: string): (r: Option<V>)
    requires v.cfg.batchSize > 0
    ensures Locate(row, v.cfg.batchSize).0 !in v.pages ==> r.None?
    ensures r.Some? ==>
      var loc := Locate(row, v.cfg.batchSize);
      loc.0 in v.pages && loc.1 < |v.pages[loc.0].rows| && column in v.pages[loc.0].rows[loc.1] &&
      r.value == v.pages[loc.0].rows[loc.1][column]
  {
    var loc := Locate(row, v.cfg.batchSize);
    if loc.0 in v.pages && loc.1 < |v.pages[loc.0].rows| && column in v.pages[loc.0].rows[loc.1]
    then Some(v.pages[loc.0].rows[loc.1][column])
    else None
  }

  /** The first row the window must cover: the visible start minus overscan, not below 0. */
  function CoverStart(cfg: Config, start: int): int { Max(start - cfg.overscan, 0) }

  /** One past the last row the window must cover: the visible end plus overscan, not past the row count. */
  function CoverEnd(cfg: Config, end: int): int { Min(end + cfg.overscan, cfg.numRows) }

  lemma DivMonotone(a: int, b: int, d: int)
    requires d > 0 && a <= b
    ensures a / d <= b / d
  {
    var qa, qb := a / d, b / d;
    assert a == qa * d + a % d;
    assert b == qb * d + b % d;
    MulLess(qa, qb + 1, d);
  }

  lemma BelowCeil(row: int, hi: int, d: int)
    requires d > 0 && row < hi
    ensures row / d < CeilDiv(hi, d)
  {
    var q, c := row / d, CeilDiv(hi, d);
    assert row == q * d + row % d;
    MulLess(q, c, d);
  }

  /** The page window for a visible range: the pages of every row in
      [max(start - overscan, 0), min(end + overscan, numRows)). For a visible
      range that starts within the record set the window is not reversed and
      covers every such row. */
  function Window(cfg: Config, start: int, end: int): (w: (int, int))
    requires cfg.batchSize > 0
    ensures w.0 >= 0
    ensures ValidConfig(cfg) && 0 <= start <= end && start <= cfg.numRows ==> w.0 <= w.1
    ensures ValidConfig(cfg) ==>
      forall row :: CoverStart(cfg, start) <= row < CoverEnd(cfg, end) ==>
        w.0 <= row / cfg.batchSize < w.1
  {
    var w := (CoverStart(cfg, start) / cfg.batchSize, CeilDiv(CoverEnd(cfg, end), cfg.batchSize));
    WindowBounds(cfg, start, end, w);
    w
  }

  lemma WindowBounds(cfg: Config, start: int, end: int, w: (int, int))
    requires cfg.batchSize > 0
    requires w == (CoverStart(cfg, start) / cfg.batchSize, CeilDiv(CoverEnd(cfg, end), cfg.batchSize))
    ensures w.0 >= 0
    ensures ValidConfig(cfg) && 0 <= start <= end && start <= cfg.numRows ==> w.0 <= w.1
    ensures ValidConfig(cfg) ==>
      forall row :: CoverStart(cfg, start) <= row < CoverEnd(cfg, end) ==>
        w.0 <= row / cfg.batchSize < w.1
  {
    var b, lo, hi := cfg.batchSize, CoverStart(cfg, start), CoverEnd(cfg, end);
    DivMonotone(0, lo, b);
    if ValidConfig(cfg) && 0 <= start <= end && start <= cfg.numRows {
      WindowOrdered(lo, hi, b);
    }
    forall row | lo <= row < hi
      ensures w.0 <= row / b < w.1
    {
      DivMonotone(lo, row, b);
      BelowCeil(row, hi, b);
    }
  }

  lemma WindowOrdered(lo: int, hi: int, b: int)
    requires b > 0 && lo <= hi
    ensures lo / b <= CeilDiv(hi, b)
  {
    DivMonotone(lo, hi, b);
    var c := CeilDiv(hi, b);
    var q := hi / b;
    assert hi == q * b + hi % b;
    MulLess(c, q, b);
  }

  /** The window is the tightest page range that covers the rows: its first
      page holds the first covered row and its last page holds the last one. */
  lemma WindowTight(cfg: Config, start: int, end: int)
    requires ValidConfig(cfg)
    requires CoverStart(cfg, start) < CoverEnd(cfg, end)
    ensures Window(cfg, start, end).0 == Locate(CoverStart(cfg, start), cfg.batchSize).0
    ensures Window(cfg, start, end).1 - 1 == Locate(CoverEnd(cfg, end) - 1, cfg.batchSize).0
  {
    CeilIsLastPage(CoverEnd(cfg, end), cfg.batchSize);
  }

  lemma CeilIsLastPage(hi: int, b: int)
    requires b > 0
    ensures CeilDiv(hi, b) - 1 == (hi - 1) / b
  {
    var c := CeilDiv(hi, b);
    var q := (hi - 1) / b;
    assert hi - 1 == q * b + (hi - 1) % b;
    MulLess(q, c, b);
    MulLess(c - 1, q + 1, b);
  }

  /** The pages of [lo, hi) outside the previous window [prevLo, prevHi), in
      increasing order: the pages the update loop requests. */
  function PagesToFetch(lo: int, hi: int, prevLo: int, prevHi: int): (ps: seq<int>)
    ensures forall p :: p in ps <==> lo <= p < hi && !(prevLo <= p < prevHi)
    ensures forall i, j :: 0 <= i < j < |ps| ==> ps[i] < ps[j]
    decreases hi - lo
  {
    if lo >= hi then []
    else if prevLo <= lo < prevHi then PagesToFetch(lo + 1, hi, prevLo, prevHi)
    else
      var rest := PagesToFetch(lo + 1, hi, prevLo, prevHi);
      assert forall k :: 0 <= k < |rest| ==> lo < rest[k] by {
        forall k | 0 <= k < |rest| ensures lo < rest[k] { assert rest[k] in rest; }
      }
      [lo] + rest
  }

  /** The fetch for one page: rows [p * batchSize, (p + 1) * batchSize), even for a short last page. */
  function RequestFor(cfg: Config, p: int): (r: FetchRequest)
    requires cfg.batchSize > 0
    ensures r.page == p
    ensures r.endRow - r.startRow == cfg.batchSize
    ensures Locate(r.startRow, cfg.batchSize) == (p, 0)
  {
    LocateUnique(p * cfg.batchSize, cfg.batchSize, p, 0);
    FetchRequest(p, p * cfg.batchSize, (p + 1) * cfg.batchSize)
  }

  /** The pages a list of requests asks for. */
  function RequestedPages(rs: seq<FetchRequest>): set<int> {
    set k | 0 <= k < |rs| :: rs[k].page
  }

  /** Every key of the resident map lies in the current window. */
  predicate ResidentInWindow<V>(v: View<V>) {
    forall k :: k in v.pages ==> v.startPage <= k < v.endPage
  }

  /** A viewport update: recompute the window, request every page that is in
      the new window but was not in the previous one, then keep only the
      resident pages inside the new window. */
  function SetVisibleRange<V>(v: View<V>, start: int, end: int): (u: Update<V>)
    requires v.cfg.batchSize > 0
    ensures u.view.cfg == v.cfg
    ensures (u.view.startPage, u.view.endPage) == Window(v.cfg, start, end)
    ensures forall p :: p in RequestedPages(u.requests) <==>
      u.view.startPage <= p < u.view.endPage && !(v.startPage <= p < v.endPage)
    ensures forall k :: 0 <= k < |u.requests| ==> u.requests[k] == RequestFor(v.cfg, u.requests[k].page)
    ensures forall i, j :: 0 <= i < j < |u.requests| ==> u.requests[i].page < u.requests[j].page
    ensures ResidentInWindow(u.view)
    ensures forall k :: k in u.view.pages <==> k in v.pages && u.view.startPage <= k < u.view.endPage
    ensures forall k :: k in u.view.pages ==> u.view.pages[k] == v.pages[k]
  {
    var w := Window(v.cfg, start, end);
    var ps := PagesToFetch(w.0, w.1, v.startPage, v.endPage);
    var requests := seq(|ps|, k requires 0 <= k < |ps| => RequestFor(v.cfg, ps[k]));
    assert forall p :: p in RequestedPages(requests) <==> p in ps by {
      forall p | p in ps ensures p in RequestedPages(requests) {
        var k :| 0 <= k < |ps| && ps[k] == p;
        assert requests[k].page == p;
      }
    }
    var kept := map k | k in v.pages && w.0 <= k < w.1 :: v.pages[k];
    Update(View(v.cfg, w.0, w.1, kept), requests)
  }

  /** A fetch for page `p` resolved with `page`: the page is stored under `p`,
      overwriting any earlier entry, WITHOUT re-checking the window. Nothing
      else changes. */
  function Complete<V>(v: View<V>, p: int, page: Page<V>): (r: View<V>)
    ensures r.cfg == v.cfg && r.startPage == v.startPage && r.endPage == v.endPage
    ensures p in r.pages && r.pages[p] == page
    ensures r.pages.Keys == v.pages.Keys + {p}
    ensures forall k :: k in v.pages && k != p ==> r.pages[k] == v.pages[k]
  {
    v.(pages := v.pages[p := page])
  }

  /** A completion keeps "every resident page is in the window" exactly when
      the completed page is itself in the window: a late completion for a page
      that has left the window breaks it. */
  lemma CompleteResidentInWindow<V>(v: View<V>, p: int, page: Page<V>)
    ensures ResidentInWindow(Complete(v, p, page)) <==>
      ResidentInWindow(v) && v.startPage <= p < v.endPage
  {
    var r := Complete(v, p, page);
    if ResidentInWindow(r) {
      assert p in r.pages;
      forall k | k in v.pages ensures v.startPage <= k < v.endPage {
        assert k in r.pages;
      }
    }
  }

  /** The first update after construction requests every page of its window. */
  lemma FirstUpdateFetchesWindow<V>(cfg: Config, start: int, end: int)
    requires cfg.batchSize > 0
    ensures var u := SetVisibleRange(Create<V>(cfg), start, end);
      forall p :: p in RequestedPages(u.requests) <==> u.view.startPage <= p < u.view.endPage
  {
  }

  /** A page present in both the old and the new window is never re-requested,
      and keeps its resident value. */
  lemma NoRefetchInsideBothWindows<V>(v: View<V>, start: int, end: int, p: int)
    requires v.cfg.batchSize > 0
    requires v.startPage <= p < v.endPage
    requires var w := Window(v.cfg, start, end); w.0 <= p < w.1
    ensures var u := SetVisibleRange(v, start, end);
      p !in RequestedPages(u.requests) &&
      (p in v.pages ==> p in u.view.pages && u.view.pages[p] == v.pages[p])
  {
  }

  /** A completed page serves its rows: after page `p` resolves, every row of
      that page reads its own cell from the page until the next update. */
  lemma ReadAfterComplete<V>(v: View<V>, p: int, page: Page<V>, row: int, column: string)
    requires v.cfg.batchSize > 0
    requires p * v.cfg.batchSize <= row < p * v.cfg.batchSize + |page.rows|
    requires |page.rows| <= v.cfg.batchSize
    requires column in page.rows[row - p * v.cfg.batchSize]
    ensures GetCellValue(Complete(v, p, page), row, column) ==
      Some(page.rows[row - p * v.cfg.batchSize][column])
  {
    LocateUnique(row, v.cfg.batchSize, p, row - p * v.cfg.batchSize);
  }

  /** Eviction: once an update has run, a row whose page is outside the new
      window reads as absent, whether or not its fetch ever resolved. */
  lemma EvictedRowsReadAbsent<V>(v: View<V>, start: int, end: int, row: int, column: string)
    requires v.cfg.batchSize > 0
    requires var w := Window(v.cfg, start, end); !(w.0 <= Locate(row, v.cfg.batchSize).0 < w.1)
    ensures GetCellValue(SetVisibleRange(v, start, end).view, row, column).None?
  {
  }

  /** The worked example with default options over 1000 rows: showing rows
      [100, 150) requests pages 1, 2, 3 (rows [80, 170) with overscan);
      scrolling to [500, 550) requests pages 9, 10, 11 and evicts the rest; a
      fetch for page 1 that resolves only now still stores page 1, outside
      the window. */
  lemma ScrollScenario<V>(page: Page<V>)
    ensures var cfg := MakeConfig(None, None, 1000);
      var u1 := SetVisibleRange(Create<V>(cfg), 100, 150);
      var u2 := SetVisibleRange(u1.view, 500, 550);
      var late := Complete(u2.view, 1, page);
      && (u1.view.startPage, u1.view.endPage) == (1, 4)
      && u1.requests == [RequestFor(cfg, 1), RequestFor(cfg, 2), RequestFor(cfg, 3)]
      && (u2.view.startPage, u2.view.endPage) == (9, 12)
      && u2.requests == [RequestFor(cfg, 9), RequestFor(cfg, 10), RequestFor(cfg, 11)]
      && |u2.view.pages| == 0
      && 1 in late.pages && !ResidentInWindow(late)
  {
    var cfg := MakeConfig(None, None, 1000);
    var v0 := Create<V>(cfg);
    var u1 := SetVisibleRange(v0, 100, 150);
    assert Window(cfg, 100, 150) == (1, 4);
    var ps1 := PagesToFetch(1, 4, 0, 0);
    assert ps1 == [1, 2, 3];
    var u2 := SetVisibleRange(u1.view, 500, 550);
    assert Window(cfg, 500, 550) == (9, 12);
    var ps2 := PagesToFetch(9, 12, 1, 4);
    assert ps2 == [9, 10, 11];
    assert u2.view.pages == map[];
  }
}

=== FILE: record_set.dfy ===
/** A record set: a schema, row batches and their total row count, and the
    choice of row slices `encode_rows` serialises for a requested row range.
    A batch is abstracted to its schema and its rows; the Arrow encoding of
    the chosen slices is not modelled. */
module RecordSet {
  import opened Common

  /** A schema, abstracted to its field names. */
  datatype Schema = Schema(fields: seq<string>)

  /** `Schema::empty()`. */
  const EmptySchema: Schema := Schema([])

  /** A record batch: its schema and its rows. */
  datatype Batch<R> = Batch(schema: Schema, rows: seq<R>)

  /** `RecordSet`. */
  datatype RecordSet<R> = RecordSet(numRows: nat, schema: Schema, batches: seq<Batch<R>>)

  /** All rows of the batches, batch after batch. */
  function Rows<R>(bs: seq<Batch<R>>): seq<R>
  {
    if |bs| == 0 then [] else bs[0].rows + Rows(bs[1..])
  }

  /** The sum of the batches' row counts. */
  function SumRows<R>(bs: seq<Batch<R>>): nat
  {
    if |bs| == 0 then 0 else |bs[0].rows| + SumRows(bs[1..])
  }

  /** The summed row count is the number of rows the batches hold together. */
  lemma {:induction false} SumRowsCountsRows<R>(bs: seq<Batch<R>>)
    ensures SumRows(bs) == |Rows(bs)|
    decreases |bs|
  {
    if |bs| > 0 {
      SumRowsCountsRows(bs[1..]);
    }
  }

  /** `RecordSet::new`: keep the schema and batches, and count every row. */
  function New<R>(schema: Schema, bs: seq<Batch<R>>): (r: RecordSet<R>)
    ensures r.schema == schema && r.batches == bs
    ensures r.numRows == |Rows(bs)|
  {
    SumRowsCountsRows(bs);
    RecordSet(SumRows(bs), schema, bs)
  }

  /** `From<Vec<RecordBatch>>`: the first batch's schema, or the empty schema
      when there are no batches. */
  function From<R>(bs: seq<Batch<R>>): (r: RecordSet<R>)
    ensures |bs| > 0 ==> r.schema == bs[0].schema
    ensures |bs| == 0 ==> r.schema == EmptySchema && r.numRows == 0
    ensures r.batches == bs && r.numRows == |Rows(bs)|
  {
    New(if |bs| > 0 then bs[0].schema else EmptySchema, bs)
  }

  /** `RecordSet::empty()`: one empty batch of the empty schema. */
  function Empty<R>(): (r: RecordSet<R>)
    ensures r.numRows == 0 && r.schema == EmptySchema && |r.batches| == 1
  {
    var bs: seq<Batch<R>> := [Batch(EmptySchema, [])];
    assert Rows(bs) == [] + Rows(bs[1..]);
    From(bs)
  }

  /** The slices `encode_rows` picks from batch `k` on, where `offset` is
      the number of rows before batch `k` (the `scan`) and `skipping` says
      whether the `skip_while` is still dropping batches that end at or
      before `start`. The `map_while` stops at the first batch starting after
      `end`, and otherwise cuts rows `i..j` out of the batch; `j < i` is an
      unsigned underflow, a panic (`None`). */
  function SelectFrom<R>(bs: seq<Batch<R>>, k: nat, offset: nat, start: nat, end: nat, skipping: bool)
    : (r: Option<seq<Batch<R>>>)
    requires k <= |bs|
    ensures start <= end && (skipping || start <= offset) ==> r.Some?
    decreases |bs| - k
  {
    if k == |bs| then Some([])
    else
      var n := |bs[k].rows|;
      if skipping && start >= offset + n then SelectFrom(bs, k + 1, offset + n, start, end, true)
      else if end < offset then Some([])
      else
        var i, j := SatSub(start, offset), Min(end - offset, n);
        if j < i then None
        else match SelectFrom(bs, k + 1, offset + n, start, end, false)
          case None => None
          case Some(rest) => Some([bs[k].(rows := bs[k].rows[i..j])] + rest)
  }

  /** The row slices `encode_rows(start, end)` serialises, in order; it
      cannot panic unless `end < start`. */
  function EncodeRows<R>(rs: RecordSet<R>, start: nat, end: nat): (r: Option<seq<Batch<R>>>)
    ensures start <= end ==> r.Some?
  {
    SelectFrom(rs.batches, 0, 0, start, end, true)
  }

  /** Clamping a concatenation to a window that starts past `u`: the
      window lies in `w`. */
  lemma ClampPast<R>(u: seq<R>, w: seq<R>, a: nat, b: int)
    requires |u| <= a <= b
    ensures Clamp(u + w, a, b) == Clamp(w, a - |u|, b - |u|)
  {
    var x := u + w;
    if Min(b, |x|) > a {
      assert x[a..Min(b, |x|)] == w[a - |u|..Min(b - |u|, |w|)];
    }
  }

  /** Clamping a concatenation to a window that starts inside `u`: the rest
      of `u`'s part of the window, then `w`'s. */
  lemma ClampWithin<R>(u: seq<R>, w: seq<R>, a: nat, b: int)
    requires a < |u| && a <= b
    ensures Clamp(u + w, a, b) == u[a..Min(b, |u|)] + Clamp(w, 0, b - |u|)
  {
    var x := u + w;
    if b <= |u| {
      assert x[a..b] == u[a..b];
    } else {
      assert x[a..Min(b, |x|)] == u[a..] + w[..Min(b - |u|, |w|)];
    }
  }

  /** The rows of batches `k..` start with batch `k`'s. */
  lemma RowsFrom<R>(bs: seq<Batch<R>>, k: nat)
    requires k < |bs|
    ensures Rows(bs[k..]) == bs[k].rows + Rows(bs[k + 1..])
  {
    assert bs[k..][1..] == bs[k + 1..];
  }

  /** Once past the first chosen batch (`start <= offset`), the selection
      never panics and its slices hold the rows from `offset` up to `end`. */
  lemma {:induction false} SelectAfterStart<R>(bs: seq<Batch<R>>, k: nat, offset: nat, start: nat, end: nat)
    requires k <= |bs| && start <= offset
    ensures var r := SelectFrom(bs, k, offset, start, end, false);
      r.Some? && Rows(r.value) == Clamp(Rows(bs[k..]), 0, end - offset)
    decreases |bs| - k
  {
    if k == |bs| {
      assert bs[k..] == [];
    } else if end < offset {
    } else {
      SelectAfterStart(bs, k + 1, offset + |bs[k].rows|, start, end);
      SelectTaken(bs, k, offset, start, end);
    }
  }

  /** One batch past the start, given what the batches after it give: its
      rows up to `end`, then theirs. */
  lemma SelectTaken<R>(bs: seq<Batch<R>>, k: nat, offset: nat, start: nat, end: nat)
    requires k < |bs| && start <= offset <= end
    requires var r := SelectFrom(bs, k + 1, offset + |bs[k].rows|, start, end, false);
      r.Some? && Rows(r.value) == Clamp(Rows(bs[k + 1..]), 0, end - offset - |bs[k].rows|)
    ensures var r := SelectFrom(bs, k, offset, start, end, false);
      r.Some? && Rows(r.value) == Clamp(Rows(bs[k..]), 0, end - offset)
  {
    var n := |bs[k].rows|;
    var j := Min(end - offset, n);
    var rest := SelectFrom(bs, k + 1, offset + n, start, end, false).value;
    var slice := bs[k].(rows := bs[k].rows[0..j]);
    assert SelectFrom(bs, k, offset, start, end, false) == Some([slice] + rest);
    assert Rows([slice] + rest) == slice.rows + Rows(rest) by {
      assert ([slice] + rest)[1..] == rest;
    }
    RowsFrom(bs, k);
    var tail := Clamp(Rows(bs[k + 1..]), 0, end - offset - n);
    if n == 0 {
      ClampPast(bs[k].rows, Rows(bs[k + 1..]), 0, end - offset);
      assert slice.rows + tail == tail;
    } else {
      ClampWithin(bs[k].rows, Rows(bs[k + 1..]), 0, end - offset);
      assert slice.rows == bs[k].rows[0..Min(end - offset, n)];
    }
  }

  /** While skipping (`offset <= start <= end`), the selection never panics
      and its slices hold the rows from `start` up to `end`, counted from
      `offset`. */
  lemma {:induction false} SelectWhileSkipping<R>(bs: seq<Batch<R>>, k: nat, offset: nat, start: nat, end: nat)
    requires k <= |bs| && offset <= start <= end
    ensures var r := SelectFrom(bs, k, offset, start, end, true);
      r.Some? && Rows(r.value) == Clamp(Rows(bs[k..]), start - offset, end - offset)
    decreases |bs| - k
  {
    if k == |bs| {
      assert bs[k..] == [];
    } else {
      var n := |bs[k].rows|;
      RowsFrom(bs, k);
      if start >= offset + n {
        SelectWhileSkipping(bs, k + 1, offset + n, start, end);
        SelectSkipped(bs, k, offset, start, end);
      } else {
        SelectStraddling(bs, k, offset, start, end);
      }
    }
  }

  /** A batch ending at or before `start` is dropped: the selection is that
      of the batches after it, given what they give. */
  lemma SelectSkipped<R>(bs: seq<Batch<R>>, k: nat, offset: nat, start: nat, end: nat)
    requires k < |bs| && offset + |bs[k].rows| <= start <= end
    requires var r := SelectFrom(bs, k + 1, offset + |bs[k].rows|, start, end, true);
      r.Some? && Rows(r.value) == Clamp(Rows(bs[k + 1..]), start - offset - |bs[k].rows|, end - offset - |bs[k].rows|)
    ensures var r := SelectFrom(bs, k, offset, start, end, true);
      r.Some? && Rows(r.value) == Clamp(bs[k].rows + Rows(bs[k + 1..]), start - offset, end - offset)
  {
    var n := |bs[k].rows|;
    var u, w := bs[k].rows, Rows(bs[k + 1..]);
    var r := SelectFrom(bs, k + 1, offset + n, start, end, true);
    assert SelectFrom(bs, k, offset, start, end, true) == r;
    ClampPast(u, w, start - offset, end - offset);
    assert Rows(r.value) == Clamp(u + w, start - offset, end - offset);
  }

  /** The batch holding `start` is cut from `start` on, and the batches
      after it are taken from their first row. */
  lemma SelectStraddling<R>(bs: seq<Batch<R>>, k: nat, offset: nat, start: nat, end: nat)
    requires k < |bs| && offset <= start < offset + |bs[k].rows| && start <= end
    ensures var r := SelectFrom(bs, k, offset, start, end, true);
      r.Some? && Rows(r.value) == Clamp(bs[k].rows + Rows(bs[k + 1..]), start - offset, end - offset)
  {
    var n := |bs[k].rows|;
    var u, w := bs[k].rows, Rows(bs[k + 1..]);
    var i, j := start - offset, Min(end - offset, n);
    SelectAfterStart(bs, k + 1, offset + n, start, end);
    var rest := SelectFrom(bs, k + 1, offset + n, start, end, false).value;
    assert Rows(rest) == Clamp(w, 0, end - offset - n);
    var slice := bs[k].(rows := u[i..j]);
    var r := SelectFrom(bs, k, offset, start, end, true);
    assert r == Some([slice] + rest);
    assert Rows([slice] + rest) == u[i..j] + Rows(rest) by {
      assert ([slice] + rest)[1..] == rest;
    }
    ClampWithin(u, w, i, end - offset);
    assert Rows(r.value) == Clamp(u + w, i, end - offset);
  }

  /** `encode_rows(start, end)` with `start <= end` never panics, and the
      slices it picks hold, in order, exactly rows `start..min(end, num_rows)`
      of the record set. */
  lemma EncodeRowsSelects<R>(schema: Schema, bs: seq<Batch<R>>, start: nat, end: nat)
    requires start <= end
    ensures var rs := New(schema, bs);
      var r := EncodeRows(rs, start, end);
      && r.Some?
      && Rows(r.value) == (if start >= rs.numRows then [] else Rows(bs)[start..Min(end, rs.numRows)])
  {
    SelectWhileSkipping(bs, 0, 0, start, end);
    assert bs[0..] == bs;
  }

  /** Every batch lies wholly before `start`: all are skipped, and no slice
      at all is picked. */
  lemma {:induction false} SkipAll<R>(bs: seq<Batch<R>>, k: nat, offset: nat, start: nat, end: nat)
    requires k <= |bs| && offset + |Rows(bs[k..])| <= start
    ensures SelectFrom(bs, k, offset, start, end, true) == Some([])
    decreases |bs| - k
  {
    if k < |bs| {
      RowsFrom(bs, k);
      SkipAll(bs, k + 1, offset + |bs[k].rows|, start, end);
    }
  }

  /** A start at or past `num_rows` selects no slice. */
  lemma StartPastEndSelectsNothing<R>(schema: Schema, bs: seq<Batch<R>>, start: nat, end: nat)
    requires start >= New(schema, bs).numRows
    ensures EncodeRows(New(schema, bs), start, end) == Some([])
  {
    assert bs[0..] == bs;
    SkipAll(bs, 0, 0, start, end);
  }

  /** The `map_while` stops only at a batch starting strictly after `end`: a
      batch starting exactly at `end` still contributes an empty slice. Two
      batches of two rows, rows `0..2`: two slices, the second empty. */
  lemma EmptySliceAtEnd()
    ensures var b := Batch(EmptySchema, [10, 11]);
      EncodeRows(New(EmptySchema, [b, b]), 0, 2) == Some([b, b.(rows := [])])
  {
    var b := Batch(EmptySchema, [10, 11]);
    var bs := [b, b];
    assert b.(rows := b.rows[0..2]) == b;
    assert b.rows[0..0] == [];
    assert SelectFrom(bs, 2, 4, 0, 2, false) == Some([]);
    assert SelectFrom(bs, 1, 2, 0, 2, false) == Some([b.(rows := [])] + []);
    var second := SelectFrom(bs, 1, 2, 0, 2, false);
    assert [b.(rows := [])] + [] == [b.(rows := [])];
    assert second == Some([b.(rows := [])]);
    assert SelectFrom(bs, 0, 0, 0, 2, true)
      == (match second case None => None case Some(rest) => Some([b.(rows := b.rows[0..2])] + rest));
    assert [b] + [b.(rows := [])] == [b, b.(rows := [])];
    assert EncodeRows(New(EmptySchema, bs), 0, 2) == SelectFrom(bs, 0, 0, 0, 2, true);
  }

  /** A reversed range panics once a batch straddles it: `start = 2`,
      `end = 1` on a batch of three rows gives `j = 1 < i = 2`. */
  lemma ReversedRangePanics()
    ensures EncodeRows(New(EmptySchema, [Batch(EmptySchema, [0, 1, 2])]), 2, 1).None?
  {
  }
}

=== FILE: remove_line_breaks.dfy ===
/** `RemoveLinebreaks`: a stateless filter that drops every line feed and
    carriage return and keeps every other byte, in order. */
module RemoveLinebreaks {
  import opened Common

  predicate IsLineBreak(b: byte) { b == LF || b == CR }

  /** `transform`: the input without its `\n` and `\r` bytes, whatever `last` says. */
  function Transform(input: seq<byte>, last: bool): (r: seq<byte>)
    ensures |r| <= |input|
    ensures forall i :: 0 <= i < |r| ==> !IsLineBreak(r[i])
    decreases |input|
  {
    if |input| == 0 then []
    else
      var rest := Transform(input[1..], last);
      if IsLineBreak(input[0]) then rest else [input[0]] + rest
  }

  /** Number of occurrences of `b` in `s`. */
  function Count(s: seq<byte>, b: byte): nat
    decreases |s|
  {
    if |s| == 0 then 0 else (if s[0] == b then 1 else 0) + Count(s[1..], b)
  }

  /** Every byte that is not a line break survives as often as it occurred,
      and no line break survives. */
  lemma {:induction false} TransformKeepsText(input: seq<byte>, last: bool, b: byte)
    ensures Count(Transform(input, last), b) == if IsLineBreak(b) then 0 else Count(input, b)
    decreases |input|
  {
    if |input| > 0 {
      TransformKeepsText(input[1..], last, b);
      var rest := Transform(input[1..], last);
      if !IsLineBreak(input[0]) {
        assert ([input[0]] + rest)[1..] == rest;
      }
    }
  }

  /** `transform_len`: the number of bytes that are not line breaks. */
  function TransformLen(input: seq<byte>, last: bool): (n: nat)
    ensures n == |input| - Count(input, LF) - Count(input, CR)
    decreases |input|
  {
    if |input| == 0 then 0
    else (if IsLineBreak(input[0]) then 0 else 1) + TransformLen(input[1..], last)
  }

  /** `transform_len` counts exactly the bytes `transform` emits. */
  lemma {:induction false} TransformLenMatches(input: seq<byte>, last: bool)
    ensures TransformLen(input, last) == |Transform(input, last)|
    decreases |input|
  {
    if |input| > 0 {
      TransformLenMatches(input[1..], last);
    }
  }

  /** Chunking invariance: the filter distributes over concatenation. */
  lemma {:induction false} TransformSplit(a: seq<byte>, b: seq<byte>, last: bool, last': bool)
    ensures Transform(a + b, last) == Transform(a, last') + Transform(b, last)
    decreases |a|
  {
    if |a| == 0 {
      assert a + b == b;
      TransformIgnoresLast(b, last, last);
    } else {
      assert (a + b)[0] == a[0];
      assert (a + b)[1..] == a[1..] + b;
      TransformSplit(a[1..], b, last, last');
      TransformIgnoresLast(a[1..], last, last');
    }
  }

  /** The `last` flag plays no part. */
  lemma {:induction false} TransformIgnoresLast(input: seq<byte>, last: bool, last': bool)
    ensures Transform(input, last) == Transform(input, last')
    decreases |input|
  {
    if |input| > 0 {
      TransformIgnoresLast(input[1..], last, last');
    }
  }

  /** Bytes that are not line breaks pass through unchanged, in order; an
      input made only of line breaks (or empty) yields nothing. */
  lemma {:induction false} TransformIdentityOnText(input: seq<byte>, last: bool)
    ensures (forall i :: 0 <= i < |input| ==> !IsLineBreak(input[i])) ==> Transform(input, last) == input
    ensures (forall i :: 0 <= i < |input| ==> IsLineBreak(input[i])) ==> Transform(input, last) == []
    decreases |input|
  {
    if |input| > 0 {
      TransformIdentityOnText(input[1..], last);
      assert input == [input[0]] + input[1..];
    }
  }

  /** The unit test's shape in small: "a\nb\r\n" becomes "ab", two bytes. */
  lemma LineBreaksDropped()
    ensures Transform([97, LF, 98, CR, LF], false) == [97, 98]
    ensures TransformLen([97, LF, 98, CR, LF], false) == 2
  {
    var s: seq<byte> := [97, LF, 98, CR, LF];
    assert s[1..] == [LF, 98, CR, LF];
    assert s[1..][1..] == [98, CR, LF];
    assert s[1..][1..][1..] == [CR, LF];
    assert s[1..][1..][1..][1..] == [LF];
    assert Transform([LF], false) == [];
    assert Transform([CR, LF], false) == [];
    assert Transform([98, CR, LF], false) == [98];
    assert Transform([LF, 98, CR, LF], false) == [98];
    TransformLenMatches(s, false);
  }
}

=== FILE: wrap_file.dfy ===
/** `WrapFile`: the whole stream becomes prefix ++ stream ++ suffix. The
    prefix goes out with the first chunk, the suffix with the last; the only
    state is whether the prefix has been emitted. */
module WrapFile {
  import opened Common

  datatype WrapFile = WrapFile(prefix: seq<byte>, suffix: seq<byte>, started: bool)

  /** A fresh wrapper has not emitted its prefix yet. */
  function New(prefix: seq<byte>, suffix: seq<byte>): (w: WrapFile)
    ensures w.prefix == prefix && w.suffix == suffix && !w.started
  {
    WrapFile(prefix, suffix, false)
  }

  /** `transform`: prefix on the first call, the input, suffix iff `last`;
      afterwards the wrapper counts as started. */
  function Transform(w: WrapFile, input: seq<byte>, last: bool): (r: (seq<byte>, WrapFile))
    ensures r.1 == w.(started := true)
  {
    ((if !w.started then w.prefix else []) + input + (if last then w.suffix else []), w.(started := true))
  }

  /** `calculate_len`: input length, plus the prefix before the first call,
      plus the suffix on the last. */
  function CalculateLen(w: WrapFile, input: seq<byte>, last: bool): (r: int)
    ensures r == |Transform(w, input, last).0|
  {
    |input| + (if !w.started then |w.prefix| else 0) + (if last then |w.suffix| else 0)
  }

  /** `transform_len`: exactly the length `transform` emits, and the same
      next state. */
  function TransformLen(w: WrapFile, input: seq<byte>, last: bool): (r: (int, WrapFile))
    ensures r.0 == |Transform(w, input, last).0| && r.1 == Transform(w, input, last).1
  {
    (CalculateLen(w, input, last), w.(started := true))
  }

  /** `state`: whether the prefix has been emitted. */
  function State(w: WrapFile): bool { w.started }

  /** `with_state`: same affixes, the given started flag. */
  function WithState(w: WrapFile, started: bool): (r: WrapFile)
    ensures r.prefix == w.prefix && r.suffix == w.suffix && State(r) == started
  {
    w.(started := started)
  }

  /** A fresh wrapper given the whole stream as its last chunk emits prefix ++ input ++ suffix;
      for the empty stream that is prefix ++ suffix. */
  lemma SingleLastChunk(prefix: seq<byte>, suffix: seq<byte>, input: seq<byte>)
    ensures Transform(New(prefix, suffix), input, true).0 == prefix + input + suffix
    ensures Transform(New(prefix, suffix), [], true).0 == prefix + suffix
  {
  }

  /** Chunking invariance: `a` then `b` emit together what `a ++ b` emits in one call. */
  lemma TransformSplit(w: WrapFile, a: seq<byte>, b: seq<byte>, last: bool)
    ensures var x := Transform(w, a, false);
      var y := Transform(x.1, b, last);
      Transform(w, a + b, last) == (x.0 + y.0, y.1)
  {
    var p := if !w.started then w.prefix else [];
    var s := if last then w.suffix else [];
    assert p + (a + b) + s == (p + a + []) + ([] + b + s);
  }

  /** Resuming from a saved started state emits no prefix: the unit test's
      " world" chunk comes out as " world<end>". */
  lemma ResumeStarted(w: WrapFile, input: seq<byte>, last: bool)
    ensures Transform(WithState(w, true), input, last).0 == input + (if last then w.suffix else [])
  {
  }
}

=== FILE: wrap_lines.dfy ===
/** `WrapLines`: every non-empty line of the stream becomes
    prefix ++ line ++ suffix, empty lines pass through as a bare line feed,
    and the only state carried between chunks is whether the next byte
    starts a line. */
module WrapLines {
  import opened Common

  /** The transformer: its affixes and whether it sits at the start of a line. */
  datatype WrapLines = WrapLines(prefix: seq<byte>, suffix: seq<byte>, emptyLine: bool)

  /** A chunk's output together with the line-start flag afterwards. */
  datatype Emitted = Emitted(output: seq<byte>, emptyLine: bool)

  /** A fresh wrapper starts at the start of a line. */
  function New(prefix: seq<byte>, suffix: seq<byte>): (w: WrapLines)
    ensures w.prefix == prefix && w.suffix == suffix && w.emptyLine
  {
    WrapLines(prefix, suffix, true)
  }

  /** The position of the first line feed, as `iter().position`. */
  function IndexOfLF(s: seq<byte>): (r: Option<nat>)
    ensures r.None? <==> LF !in s
    ensures r.Some? ==> r.value < |s| && s[r.value] == LF && LF !in s[..r.value]
  {
    if |s| == 0 then None
    else if s[0] == LF then Some(0)
    else match IndexOfLF(s[1..])
      case None => None
      case Some(n) => assert s[..n + 1] == [s[0]] + s[1..][..n]; Some(n + 1)
  }

  /** The `while !input.is_empty()` loop of `transform`: one line per round,
      starting in line-start state `emptyLine`. */
  function Lines(prefix: seq<byte>, suffix: seq<byte>, emptyLine: bool, input: seq<byte>): (r: Emitted)
    ensures |r.output| >= |input|
    ensures r.emptyLine == if |input| == 0 then emptyLine else input[|input| - 1] == LF
    decreases |input|
  {
    if |input| == 0 then Emitted([], emptyLine)
    else match IndexOfLF(input)
      case None => Emitted((if emptyLine then prefix else []) + input, false)
      case Some(n) =>
        var piece :=
          if !emptyLine then input[..n] + suffix + [LF]
          else if n == 0 then [LF]
          else prefix + input[..n] + suffix + [LF];
        var rest := Lines(prefix, suffix, true, input[n + 1..]);
        Emitted(piece + rest.output, rest.emptyLine)
  }

  /** `transform`: the line loop, then the suffix when this is the last
      chunk and a line is still open. Only the line-start flag changes. */
  function Transform(w: WrapLines, input: seq<byte>, last: bool): (r: (seq<byte>, WrapLines))
    ensures r.1.prefix == w.prefix && r.1.suffix == w.suffix
    ensures |r.0| >= |input|
  {
    Close(w, Lines(w.prefix, w.suffix, w.emptyLine, input), last)
  }

  /** The end of `transform`: the suffix when the last chunk leaves a line open. */
  function Close(w: WrapLines, e: Emitted, last: bool): (r: (seq<byte>, WrapLines))
    ensures |r.0| >= |e.output| && r.0[..|e.output|] == e.output
    ensures |r.0| > |e.output| ==> last && !e.emptyLine
    ensures r.1 == w.(emptyLine := e.emptyLine)
  {
    (if last && !e.emptyLine then e.output + w.suffix else e.output, w.(emptyLine := e.emptyLine))
  }

  /** `state`: the line-start flag. */
  function State(w: WrapLines): bool { w.emptyLine }

  /** `with_state`: same affixes, the given line-start flag. */
  function WithState(w: WrapLines, state: bool): (r: WrapLines)
    ensures r.prefix == w.prefix && r.suffix == w.suffix
    ensures State(r) == state
  {
    w.(emptyLine := state)
  }

  // ---------------------------------------------------------------------
  // A byte-at-a-time reference definition of the same transform.

  /** What one input byte produces: a line feed closes the open line (suffix
      first) or is an empty line; any other byte opens a line (prefix first)
      or continues it. */
  function ByteStep(prefix: seq<byte>, suffix: seq<byte>, emptyLine: bool, b: byte): Emitted {
    if b == LF then Emitted(if emptyLine then [LF] else suffix + [LF], true)
    else Emitted(if emptyLine then prefix + [b] else [b], false)
  }

  /** The reference transform: `ByteStep` folded over the input. */
  function Bytewise(prefix: seq<byte>, suffix: seq<byte>, emptyLine: bool, input: seq<byte>): Emitted
    decreases |input|
  {
    if |input| == 0 then Emitted([], emptyLine)
    else
      var h := ByteStep(prefix, suffix, emptyLine, input[0]);
      var t := Bytewise(prefix, suffix, h.emptyLine, input[1..]);
      Emitted(h.output + t.output, t.emptyLine)
  }

  /** The reference fold distributes over concatenation. */
  lemma {:induction false} BytewiseAppend(prefix: seq<byte>, suffix: seq<byte>, e: bool, a: seq<byte>, b: seq<byte>)
    ensures var x := Bytewise(prefix, suffix, e, a);
      var y := Bytewise(prefix, suffix, x.emptyLine, b);
      Bytewise(prefix, suffix, e, a + b) == Emitted(x.output + y.output, y.emptyLine)
    decreases |a|
  {
    if |a| == 0 {
      assert a + b == b;
    } else {
      assert (a + b)[0] == a[0];
      assert (a + b)[1..] == a[1..] + b;
      var h := ByteStep(prefix, suffix, e, a[0]);
      BytewiseAppend(prefix, suffix, h.emptyLine, a[1..], b);
      var x, x' := Bytewise(prefix, suffix, e, a), Bytewise(prefix, suffix, h.emptyLine, a[1..]);
      var y := Bytewise(prefix, suffix, x'.emptyLine, b);
      assert x == Emitted(h.output + x'.output, x'.emptyLine);
      assert Bytewise(prefix, suffix, e, a + b)
        == Emitted(h.output + Bytewise(prefix, suffix, h.emptyLine, a[1..] + b).output, y.emptyLine);
      assert h.output + (x'.output + y.output) == (h.output + x'.output) + y.output;
    }
  }

  /** A non-empty run without line feeds: prefix (if a line starts) and the bytes. */
  lemma {:induction false} BytewiseNoLF(prefix: seq<byte>, suffix: seq<byte>, e: bool, s: seq<byte>)
    requires |s| > 0 && LF !in s
    ensures Bytewise(prefix, suffix, e, s) == Emitted((if e then prefix else []) + s, false)
    decreases |s|
  {
    if |s| > 1 {
      assert s[1..][0] == s[1];
      BytewiseNoLF(prefix, suffix, false, s[1..]);
      assert s == [s[0]] + s[1..];
    }
  }

  /** The line loop computes the byte-at-a-time reference. */
  lemma {:induction false} LinesIsBytewise(prefix: seq<byte>, suffix: seq<byte>, e: bool, s: seq<byte>)
    ensures Lines(prefix, suffix, e, s) == Bytewise(prefix, suffix, e, s)
    decreases |s|
  {
    if |s| > 0 {
      match IndexOfLF(s)
      case None =>
        BytewiseNoLF(prefix, suffix, e, s);
      case Some(n) =>
        LinesIsBytewise(prefix, suffix, true, s[n + 1..]);
        BytewiseLine(prefix, suffix, e, s, n);
    }
  }

  /** The reference over a line ending at the first line feed, position `n`:
      the line's own output, then the rest from a line start. */
  lemma BytewiseLine(prefix: seq<byte>, suffix: seq<byte>, e: bool, s: seq<byte>, n: nat)
    requires n < |s| && s[n] == LF && LF !in s[..n]
    ensures var rest := Bytewise(prefix, suffix, true, s[n + 1..]);
      var piece :=
        if !e then s[..n] + suffix + [LF]
        else if n == 0 then [LF]
        else prefix + s[..n] + suffix + [LF];
      Bytewise(prefix, suffix, e, s) == Emitted(piece + rest.output, rest.emptyLine)
  {
    var line, tail := s[..n], s[n..];
    assert s == line + tail;
    BytewiseAppend(prefix, suffix, e, line, tail);
    assert tail[1..] == s[n + 1..];
    if n > 0 {
      BytewiseNoLF(prefix, suffix, e, line);
      BytewiseLF(prefix, suffix, false, tail);
      var r := Bytewise(prefix, suffix, true, s[n + 1..]).output;
      var open := if e then prefix + line else line;
      assert (if e then prefix else []) + line == open;
      Regroup(open, suffix + [LF], r);
      Regroup(open, suffix, [LF]);
    } else {
      assert line == [];
      BytewiseLF(prefix, suffix, e, tail);
    }
  }

  /** A line feed first: its own output, then the rest from a line start. */
  lemma BytewiseLF(prefix: seq<byte>, suffix: seq<byte>, e: bool, s: seq<byte>)
    requires |s| > 0 && s[0] == LF
    ensures var rest := Bytewise(prefix, suffix, true, s[1..]);
      Bytewise(prefix, suffix, e, s) == Emitted((if e then [LF] else suffix + [LF]) + rest.output, rest.emptyLine)
  {
  }

  /** The line loop distributes over concatenation. */
  lemma {:induction false} LinesAppend(prefix: seq<byte>, suffix: seq<byte>, e: bool, a: seq<byte>, b: seq<byte>)
    ensures var x := Lines(prefix, suffix, e, a);
      var y := Lines(prefix, suffix, x.emptyLine, b);
      Lines(prefix, suffix, e, a + b) == Emitted(x.output + y.output, y.emptyLine)
  {
    LinesIsBytewise(prefix, suffix, e, a + b);
    LinesIsBytewise(prefix, suffix, e, a);
    LinesIsBytewise(prefix, suffix, Lines(prefix, suffix, e, a).emptyLine, b);
    BytewiseAppend(prefix, suffix, e, a, b);
  }

  /** Chunking invariance: transforming `a` then `b` emits, in total, what
      transforming `a ++ b` in one call emits, and ends in the same state. */
  lemma {:induction false} TransformSplit(w: WrapLines, a: seq<byte>, b: seq<byte>, last: bool)
    ensures var x := Transform(w, a, false);
      var y := Transform(x.1, b, last);
      Transform(w, a + b, last) == (x.0 + y.0, y.1)
  {
    var P, S := w.prefix, w.suffix;
    var ea := Lines(P, S, w.emptyLine, a);
    var eb := Lines(P, S, ea.emptyLine, b);
    LinesAppend(P, S, w.emptyLine, a, b);
    CloseSplit(w, ea, eb, last);
  }

  /** Closing two chunks' line output in turn closes their concatenation. */
  lemma CloseSplit(w: WrapLines, ea: Emitted, eb: Emitted, last: bool)
    ensures var x := Close(w, ea, false);
      var y := Close(x.1, eb, last);
      Close(w, Emitted(ea.output + eb.output, eb.emptyLine), last) == (x.0 + y.0, y.1)
  {
    if last && !eb.emptyLine {
      assert (ea.output + eb.output) + w.suffix == ea.output + (eb.output + w.suffix);
    }
  }

  // ---------------------------------------------------------------------
  // Output length without producing the output.

  /** `input.split(|&c| c == b'\n')`: the pieces between line feeds, always at least one. */
  function SplitLF(s: seq<byte>): (pieces: seq<seq<byte>>)
    ensures |pieces| > 0
    decreases |s|
  {
    match IndexOfLF(s)
    case None => [s]
    case Some(n) => [s[..n]] + SplitLF(s[n + 1..])
  }

  /** The affix bytes added for a list of pieces: `affix` for every non-empty piece. */
  function AffixTotal(pieces: seq<seq<byte>>, affix: int): int
  {
    if |pieces| == 0 then 0
    else (if |pieces[0]| == 0 then 0 else affix) + AffixTotal(pieces[1..], affix)
  }

  /** `calculate_len` exactly as written: an empty input reports length 0,
      whatever `last` and the state say. Returns the length and the state
      the chunk would end in. */
  function CalculateLenAsWritten(w: WrapLines, input: seq<byte>, last: bool): (r: (int, bool))
    ensures |input| == 0 ==> r == (0, w.emptyLine)
    ensures |input| > 0 ==> r.1 == (input[|input| - 1] == LF)
  {
    if |input| == 0 then (0, w.emptyLine)
    else LenFromAffixes(w, input, last, AffixTotal(SplitLF(input), |w.prefix| + |w.suffix|))
  }

  /** The rest of `calculate_len` on a non-empty chunk, given the affix
      bytes summed over its pieces: adjust for a chunk that resumes mid-line
      (a leading line feed closes the open line with the suffix; otherwise
      the line's prefix was already emitted), then drop the suffix of a line
      left open by a chunk that is not the last. */
  function LenFromAffixes(w: WrapLines, input: seq<byte>, last: bool, affixes: int): (int, bool)
    requires |input| > 0
  {
    var len := |input| + affixes;
    var len' :=
      if w.emptyLine then len
      else if input[0] == LF then len + |w.suffix|
      else len - |w.prefix|;
    var endsWithNewline := input[|input| - 1] == LF;
    (if !last && !endsWithNewline then len' - |w.suffix| else len', endsWithNewline)
  }

  /** `calculate_len` corrected for the empty last chunk: when a line is still
      open, the suffix that `transform` emits is counted. */
  function CalculateLen(w: WrapLines, input: seq<byte>, last: bool): (int, bool)
  {
    if |input| == 0 && last && !w.emptyLine then (|w.suffix|, w.emptyLine)
    else CalculateLenAsWritten(w, input, last)
  }

  /** `transform_len` with the corrected length: the length and the new state. */
  function TransformLen(w: WrapLines, input: seq<byte>, last: bool): (int, WrapLines)
  {
    var c := CalculateLen(w, input, last);
    (c.0, w.(emptyLine := c.1))
  }

  /** `transform_len` with `calculate_len` as written: the state it leaves is
      always the one `transform` leaves, and the length is right for every
      non-empty input; an empty input counts 0. */
  function TransformLenAsWritten(w: WrapLines, input: seq<byte>, last: bool): (r: (int, WrapLines))
    ensures r.1 == Transform(w, input, last).1
    ensures |input| > 0 ==> r.0 == |Transform(w, input, last).0|
    ensures |input| == 0 ==> r.0 == 0
  {
    TransformLenMatches(w, input, last);
    var c := CalculateLenAsWritten(w, input, last);
    (c.0, w.(emptyLine := c.1))
  }

  lemma AffixTotalCons(p: seq<byte>, rest: seq<seq<byte>>, affix: int)
    ensures AffixTotal([p] + rest, affix) == (if |p| == 0 then 0 else affix) + AffixTotal(rest, affix)
  {
    assert ([p] + rest)[1..] == rest;
  }

  /** Length of the line loop's output, split into the terms `calculate_len` adds up. */
  lemma {:induction false} LinesLength(prefix: seq<byte>, suffix: seq<byte>, e: bool, s: seq<byte>)
    ensures var r := Lines(prefix, suffix, e, s);
      && r.emptyLine == (if |s| == 0 then e else s[|s| - 1] == LF)
      && |r.output| ==
        |s| + AffixTotal(SplitLF(s), |prefix| + |suffix|)
        + (if e || |s| == 0 then 0 else if s[0] == LF then |suffix| else -|prefix|)
        - (if |s| > 0 && s[|s| - 1] != LF then |suffix| else 0)
    decreases |s|
  {
    var affix := |prefix| + |suffix|;
    if |s| == 0 {
      assert SplitLF(s) == [s];
      assert AffixTotal([s], affix) == 0 by { AffixTotalCons(s, [], affix); }
    } else {
      match IndexOfLF(s)
      case None =>
        assert SplitLF(s) == [s];
        assert AffixTotal([s], affix) == affix by { AffixTotalCons(s, [], affix); }
      case Some(n) =>
        var rest := s[n + 1..];
        LinesLength(prefix, suffix, true, rest);
        LinesLengthStep(prefix, suffix, e, s, n);
    }
  }

  /** One round of the line loop, given the length law for the rest of the input. */
  lemma {:induction false} LinesLengthStep(prefix: seq<byte>, suffix: seq<byte>, e: bool, s: seq<byte>, n: nat)
    requires IndexOfLF(s) == Some(n)
    requires var rest := s[n + 1..];
      var r := Lines(prefix, suffix, true, rest);
      && r.emptyLine == (if |rest| == 0 then true else rest[|rest| - 1] == LF)
      && |r.output| ==
        |rest| + AffixTotal(SplitLF(rest), |prefix| + |suffix|)
        - (if |rest| > 0 && rest[|rest| - 1] != LF then |suffix| else 0)
    ensures var r := Lines(prefix, suffix, e, s);
      && r.emptyLine == (s[|s| - 1] == LF)
      && |r.output| ==
        |s| + AffixTotal(SplitLF(s), |prefix| + |suffix|)
        + (if e then 0 else if s[0] == LF then |suffix| else -|prefix|)
        - (if s[|s| - 1] != LF then |suffix| else 0)
  {
    var rest := s[n + 1..];
    SplitStep(s, n, |prefix| + |suffix|);
    FirstLF(s, n);
    LinesRound(prefix, suffix, e, s, n);
  }

  /** The affixes of the line ending at the first line feed, then those of
      the lines after it. */
  lemma SplitStep(s: seq<byte>, n: nat, affix: int)
    requires IndexOfLF(s) == Some(n)
    ensures AffixTotal(SplitLF(s), affix) == (if n == 0 then 0 else affix) + AffixTotal(SplitLF(s[n + 1..]), affix)
  {
    AffixTotalCons(s[..n], SplitLF(s[n + 1..]), affix);
  }

  /** The first line feed is at the start exactly when the input starts with
      one; the input ends where the text after that line feed does. */
  lemma FirstLF(s: seq<byte>, n: nat)
    requires IndexOfLF(s) == Some(n)
    ensures s[0] == LF <==> n == 0
    ensures |s| == n + 1 + |s[n + 1..]|
    ensures |s[n + 1..]| > 0 ==> s[|s| - 1] == s[n + 1..][|s[n + 1..]| - 1]
  {
    if n > 0 {
      assert s[..n][0] == s[0];
    }
  }

  /** One round of the line loop: the line up to the first line feed, with
      the prefix when it starts a non-empty line and the suffix unless it
      closes an empty one, then the rest of the input from line start. */
  lemma LinesRound(prefix: seq<byte>, suffix: seq<byte>, e: bool, s: seq<byte>, n: nat)
    requires IndexOfLF(s) == Some(n)
    ensures var r, tail := Lines(prefix, suffix, e, s), Lines(prefix, suffix, true, s[n + 1..]);
      && r.emptyLine == tail.emptyLine
      && |r.output| == n + 1 + (if e && n > 0 then |prefix| else 0) + (if !e || n > 0 then |suffix| else 0) + |tail.output|
  {
  }

  /** `transform_len` agrees with `transform` on every input: the same length
      and the same new state (with the corrected length). */
  lemma {:induction false} TransformLenMatches(w: WrapLines, input: seq<byte>, last: bool)
    ensures TransformLen(w, input, last).0 == |Transform(w, input, last).0|
    ensures TransformLen(w, input, last).1 == Transform(w, input, last).1
  {
    if |input| > 0 {
      var affixes := AffixTotal(SplitLF(input), |w.prefix| + |w.suffix|);
      var r := Lines(w.prefix, w.suffix, w.emptyLine, input);
      LinesLength(w.prefix, w.suffix, w.emptyLine, input);
      CloseLength(w, input, last, r, affixes);
      var c := LenFromAffixes(w, input, last, affixes);
      assert CalculateLen(w, input, last).0 == c.0 && CalculateLen(w, input, last).1 == c.1;
      assert |Close(w, r, last).0| == c.0 && Close(w, r, last).1 == w.(emptyLine := c.1);
    } else {
      assert Lines(w.prefix, w.suffix, w.emptyLine, input) == Emitted([], w.emptyLine);
    }
  }

  /** Given the length law of the line loop's output `r` on a non-empty
      chunk, the length `calculate_len` computes is the length of what
      `transform` emits on closing `r`, and its state is `r`'s. */
  lemma CloseLength(w: WrapLines, input: seq<byte>, last: bool, r: Emitted, affixes: int)
    requires |input| > 0
    requires r.emptyLine == (input[|input| - 1] == LF)
    requires |r.output| ==
      |input| + affixes
      + (if w.emptyLine then 0 else if input[0] == LF then |w.suffix| else -|w.prefix|)
      - (if input[|input| - 1] != LF then |w.suffix| else 0)
    ensures LenFromAffixes(w, input, last, affixes).0 == |Close(w, r, last).0|
    ensures LenFromAffixes(w, input, last, affixes).1 == Close(w, r, last).1.emptyLine
  {
  }

  /** As written, `transform_len` misses the suffix of an empty last chunk
      that closes an open line: `transform` emits "]" where the length is 0. */
  lemma EmptyLastChunkMismatch()
    ensures var w := WrapLines([91], [93], false);
      Transform(w, [], true).0 == [93] && TransformLenAsWritten(w, [], true).0 == 0
  {
  }

  // ---------------------------------------------------------------------
  // Examples from the unit tests, with '[' = 91, ']' = 93, 'a' = 97.

  /** Empty lines pass through unwrapped: "\n\n\n" maps to itself. */
  lemma EmptyLinesPassThrough()
    ensures Transform(New([91], [93]), [LF, LF, LF], false).0 == [LF, LF, LF]
  {
    var P, S: seq<byte> := [91], [93];
    assert [LF, LF, LF][1..] == [LF, LF] && [LF, LF][1..] == [LF] && [LF][1..] == [];
    assert IndexOfLF([LF, LF, LF]) == Some(0) && IndexOfLF([LF, LF]) == Some(0) && IndexOfLF([LF]) == Some(0);
    assert Lines(P, S, true, [LF]) == Emitted([LF], true);
    assert Lines(P, S, true, [LF, LF]) == Emitted([LF, LF], true);
    assert Lines(P, S, true, [LF, LF, LF]) == Emitted([LF, LF, LF], true);
  }

  /** A complete line at a line start is wrapped: "a\n" becomes "[a]\n". */
  lemma CompleteLineWrapped()
    ensures Transform(New([91], [93]), [97, LF], false).0 == [91, 97, 93, LF]
  {
    var s: seq<byte> := [97, LF];
    assert s[1..] == [LF];
    assert IndexOfLF(s) == Some(1);
    assert s[..1] == [97] && s[2..] == [];
    assert Lines([91], [93], true, s) == Emitted([91, 97, 93, LF], true);
  }

  /** A trailing open line gets the prefix only, and the state becomes
      mid-line; as the last chunk it is closed with the suffix. */
  lemma OpenLine()
    ensures Transform(New([91], [93]), [97], false) == ([91, 97], WrapLines([91], [93], false))
    ensures Transform(New([91], [93]), [97], true).0 == [91, 97, 93]
  {
    var s: seq<byte> := [97];
    assert s[1..] == [];
    assert IndexOfLF(s) == None;
    assert Lines([91], [93], true, s) == Emitted([91, 97], false);
  }

  /** Resuming mid-line: content up to the line feed gets the suffix, no prefix. */
  lemma ResumeMidLine()
    ensures Transform(WithState(New([91], [93]), false), [97, LF], false).0 == [97, 93, LF]
  {
    var s: seq<byte> := [97, LF];
    assert s[1..] == [LF];
    assert IndexOfLF(s) == Some(1);
    assert s[..1] == [97] && s[2..] == [];
    assert Lines([91], [93], false, s) == Emitted([97, 93, LF], true);
  }
}
